=== FILE: README.md ===
# Hymn music front-end: a Dafny model of its state logic

The application is a React front-end for a church hymn library. It searches tracks, albums and
artists, keeps favorites, recently-played tracks, likes and follows, manages playlists, plays hymn
audio and steps through the verses of a hymn on a presentation screen. Almost all of it is view
code and calls to a hosted database. Inside it sit small, deterministic state transitions. This
project states those transitions as pure Dafny functions over immutable records and proves what
they promise.

Conventions of the model:

- Every database call is an input of type `Outcome<T>`: `Success(data)` or `Failure(message)`. An
  acknowledgement without data is an `Ack`.
- The browser's audio element is abstract. The hook issues `MediaCommand`s, and the element reports
  back with `MediaEvent`s.
- JavaScript truthiness of an optional string is `Truthy`: present and not empty.
- `toLowerCase` maps ASCII letters only. `trim` strips the ECMAScript white-space and
  line-terminator characters.
- Lists keyed by an id (favorites, likes, playlists, test results) share the generic operations of
  module `Keyed`: lookup, removal of every element with a key, toggle, and move-to-front with a cap.

Modules, one per source file or hook, plus shared helpers:

| module | models |
|---|---|
| `Search` | the advanced-search hook: results, history, suggestions |
| `SearchBar` | the search bar: filter chips, selects, drop-down sections |
| `Library` | the music-library hook: shaping rows, album tracks, artist grouping, favorites, recently played |
| `Browser` | the audio browser page and the library browser |
| `Interactions` | the like/follow hook |
| `ArtistPage` | the artist profile: profile assembly and the optimistic follow counter |
| `Playlists` | the playlist hook and the playlist manager's create dialog |
| `Feed` | the social feed: activity sentence, avatar initials, action buttons |
| `Playback` | the hymn-audio hook, the hymn audio player's controls, the music player bar |
| `TimeFormat` | `formatTime` of both players |
| `HymnNav` | keyboard verse navigation and audio-player visibility of the hymn display |
| `DebugTest` | the database test panel: keyed upsert of results, the run over the tables, the summary |
| `Outcomes`, `Seqs`, `Keyed`, `Text`, `Catalog` | shared types, sequence facts, keyed lists, string functions, records |

## Model

| member | source | states |
|---|---|---|
| Keyed.Toggle | src/hooks/useMusicInteractions.tsx:39-46 | After a toggle the item's key is present exactly when it was absent before. Every other key keeps its presence. Unique keys stay unique. Removal keeps the other entries in order and drops exactly the entries with that key. Adding appends the item to the unchanged list. |
| Keyed.ToggleTwiceRestoresMembership | src/hooks/useMusicInteractions.tsx:39-46 | Toggling the same item twice restores whether its key is present. |
| Keyed.ToggleTwiceFromAbsent | src/hooks/useMusicInteractions.tsx:39-46 | When the key was absent, toggling twice gives back exactly the original list. |
| Keyed.RemoveKey | src/hooks/useMusicLibrary.tsx:150 | `filter(x => x.id !== id)`: no element keeps the key, and the result is an order-preserving subsequence. Every element with another key stays, the length drops by the number of removed elements, and a list without the key is unchanged. |
| Keyed.MoveToFront | src/hooks/useMusicLibrary.tsx:165-170 | The item comes first and no other entry has its key. The rest is a prefix of the list with the key removed, the length is capped, and unique keys stay unique. |
| Text.TrimEmptyIffBlank | src/hooks/useAdvancedSearch.tsx:46 | `s.trim()` is empty exactly when every character of `s` is white space. |
| Text.Lower | src/hooks/useAdvancedSearch.tsx:55 | Lower-casing keeps the length and maps each character on its own. |
| Text.ContainsIffOccurs | src/hooks/useAdvancedSearch.tsx:57-71 | `includes` holds exactly when the needle occurs at some position. |
| Text.SplitSpaces | src/components/music/SocialMusicFeed.tsx:164 | `split(' ')` gives at least one piece, and no piece contains a space. Joining the pieces with single spaces gives the string back. |
| Text.SplitJoin | src/components/music/SocialMusicFeed.tsx:164 | Splitting the space-joined form of space-free pieces gives the pieces back, so split and join are inverse to each other. |
| Text.ParseDecimalOfDecimal | src/components/DebugDatabaseTest.tsx:46 | Reading back the decimal digits of `n` gives `n`. |
| Seqs.Take | src/hooks/useMusicLibrary.tsx:111 | `slice(0, n)` is a prefix of length `min(n, length)`. |
| Seqs.Filter | src/hooks/useMusicLibrary.tsx:81 | `filter` keeps the elements satisfying the predicate, in order, as a subsequence, and keeps every one of them. |
| Seqs.FilterMultiplicity | src/hooks/useMusicLibrary.tsx:81 | `filter` keeps each element satisfying the predicate exactly as many times as it occurs, and none of the others. |
| Search.SearchResults | src/hooks/useAdvancedSearch.tsx:45-91 | A blank query gives no results and total 0. Otherwise each list is an order-preserving subsequence of its input, and every kept element matches. Tracks match on lower-cased title, artist or album, or on the raw query within the hymn number. Every matching element of an allowed kind is kept, the type filter empties the other lists, and `total` is the sum of the three lengths. Each kept list holds every matching element exactly as often as the input does. |
| Search.MatchingTracks | src/hooks/useAdvancedSearch.tsx:57-62 | The filtered tracks are an order-preserving subsequence of the input. Each one matches, and each matching track is kept as often as it occurs. |
| Search.MatchingAlbums | src/hooks/useAdvancedSearch.tsx:64-67 | The same for albums matched on title or artist. |
| Search.MatchingArtists | src/hooks/useAdvancedSearch.tsx:69-71 | The same for artists matched on name. |
| Search.SearchIgnoresRefinements | src/hooks/useAdvancedSearch.tsx:73-91 | Two filter records with the same type give the same results, whatever their genre, duration and recent fields. |
| Search.AddToHistory | src/hooks/useAdvancedSearch.tsx:109-116 | A blank query leaves the history alone. Otherwise the query becomes the first entry and no other entry equals it. The rest is a prefix of the old history without the query, as long as fits in 10 entries. A duplicate-free history stays duplicate-free. |
| Search.HistoryInvariant | src/hooks/useAdvancedSearch.tsx:109-116 | After any series of searches from an empty history, the history has no duplicates and at most 10 entries, and the latest non-blank query is first. |
| Search.TrackCandidates | src/hooks/useAdvancedSearch.tsx:129-136 | Each track candidate contains the lower-cased query and is the title or the artist of some track. |
| Search.TrackCandidatesComplete | src/hooks/useAdvancedSearch.tsx:129-136 | Every track title and every artist containing the query is a track candidate. |
| Search.AlbumCandidates | src/hooks/useAdvancedSearch.tsx:139-143 | Each album candidate contains the lower-cased query and is the title of some album. |
| Search.AlbumCandidatesComplete | src/hooks/useAdvancedSearch.tsx:139-143 | Every album title containing the query is an album candidate. |
| Search.AddAll | src/hooks/useAdvancedSearch.tsx:126-143 | Adding to an insertion-ordered set keeps it duplicate-free and extends it. Its members are the old members and the added values. |
| Search.AddAllSnoc | src/hooks/useAdvancedSearch.tsx:126-143 | Adding one more value appends it to the end when it is new and changes nothing otherwise. So the set keeps first-insertion order. |
| Search.Suggestions | src/hooks/useAdvancedSearch.tsx:122-146 | A blank query gives none. Otherwise they are the first min(n, 5) entries of the first-insertion-ordered distinct candidates, where n is the number of candidates. So they are distinct and at most 5. Each contains the lower-cased query and is a title or artist of a track or the title of an album. With fewer than 5, no matching track title, artist or album title is missing. |
| Search.SuggestionsDistinct | src/hooks/useAdvancedSearch.tsx:126-145 | The first five distinct candidates have no repetition. |
| Search.SuggestionsSound | src/hooks/useAdvancedSearch.tsx:128-145 | Each offered suggestion contains the query and comes from the library. |
| Search.SuggestionsComplete | src/hooks/useAdvancedSearch.tsx:139-145 | With fewer than five suggestions, every matching album title is among them. |
| Search.SuggestionsCompleteForTracks | src/hooks/useAdvancedSearch.tsx:128-145 | With fewer than five suggestions, every matching track title and artist is among them. |
| Search.SearchMusic | src/hooks/useAdvancedSearch.tsx:93-102 | `searchMusic` sets the query and marks a search as running. The history is the one `addToSearchHistory` gives for the query, so a non-blank query heads it and a blank one leaves it as it was. |
| Search.SearchSettled | src/hooks/useAdvancedSearch.tsx:99-101 | The delayed end clears only the running flag. |
| Search.SearchThenSettle | src/hooks/useAdvancedSearch.tsx:93-102 | A settled search keeps its query, its history entry, its results and its suggestions, and settling again changes nothing. |
| Search.ClearSearch | src/hooks/useAdvancedSearch.tsx:104-107 | The query becomes empty and nothing is running. History and filters stay. |
| Search.ClearHistory | src/hooks/useAdvancedSearch.tsx:118-120 | The history becomes empty and nothing else changes. |
| Search.ClearSearchShowsNothing | src/hooks/useAdvancedSearch.tsx:104-107 | After `clearSearch` there are no results and no suggestions, whatever the library holds. |
| Search.ClearThenSearch | src/hooks/useAdvancedSearch.tsx:109-120 | After clearing the history, the next non-blank search is its only entry. |
| SearchBar.ChipBarVisible | src/components/music/AdvancedSearchBar.tsx:133 | The chip row shows exactly when the type is not `all`, or the genre is a non-empty string, or a duration is set, or recent is true. |
| SearchBar.RemoveTypeChip | src/components/music/AdvancedSearchBar.tsx:142 | The type becomes `all` and the other fields are unchanged. |
| SearchBar.RemoveGenreChip | src/components/music/AdvancedSearchBar.tsx:155 | Only the genre is cleared. |
| SearchBar.RemoveDurationChip | src/components/music/AdvancedSearchBar.tsx:168 | Only the duration is cleared. |
| SearchBar.RemoveRecentChip | src/components/music/AdvancedSearchBar.tsx:181 | Recent becomes false (not unset), and the other fields are unchanged. |
| SearchBar.RemovingChipHidesOnlyIt | src/components/music/AdvancedSearchBar.tsx:133-185 | Each close button hides its own chip and leaves the other three chips as they were. |
| SearchBar.RemovingAllChipsHidesBar | src/components/music/AdvancedSearchBar.tsx:133-181 | Closing all four chips hides the chip row. |
| SearchBar.SelectType | src/components/music/AdvancedSearchBar.tsx:199 | The picked type is stored and nothing else changes. |
| SearchBar.SelectAllTypeIsChipRemoval | src/components/music/AdvancedSearchBar.tsx:199 | Picking `All` equals closing the type chip. Any other type shows the chip. |
| SearchBar.SelectGenre | src/components/music/AdvancedSearchBar.tsx:214 | `all` clears the genre. Any other value is stored as it is, and the other fields are unchanged. |
| SearchBar.GenreSelectRoundTrip | src/components/music/AdvancedSearchBar.tsx:214 | The select shows the value just picked. Picking the shown value gives the record back, except that a stored genre `all` is cleared. |
| SearchBar.SelectDuration | src/components/music/AdvancedSearchBar.tsx:229 | `all` clears the duration. Any other value is stored, and the other fields are unchanged. |
| SearchBar.DurationSelectRoundTrip | src/components/music/AdvancedSearchBar.tsx:229 | The select's value and the picked item are inverse to each other. |
| SearchBar.ToggleRecent | src/components/music/AdvancedSearchBar.tsx:245 | Recent becomes set, and is true exactly when it was not true before. The other fields are unchanged. |
| SearchBar.ToggleRecentTwice | src/components/music/AdvancedSearchBar.tsx:244-245 | Pressing twice restores a set value, turns an unset value into false, and always restores whether the chip shows. |
| SearchBar.DropDownVisible | src/components/music/AdvancedSearchBar.tsx:69 | The drop-down shows when focused and there is a query or some history. |
| SearchBar.SuggestionsSection | src/components/music/AdvancedSearchBar.tsx:72 | Suggestions show exactly with a non-empty query and some suggestions. |
| SearchBar.HistorySection | src/components/music/AdvancedSearchBar.tsx:93 | History shows exactly with an empty query and some history. |
| SearchBar.SectionsExclusive | src/components/music/AdvancedSearchBar.tsx:69-93 | The two lists never show together, and either one implies the drop-down shows once focused. |
| SearchBar.PickItem | src/components/music/AdvancedSearchBar.tsx:81-115 | Picking a suggestion or a history entry sets the query to it and records it in the history. The drop-down closes, and the filters and filter panel stay. |
| SearchBar.PressEnter | src/components/music/AdvancedSearchBar.tsx:61-65 | Enter records the query in the history as `addToSearchHistory` does, so a non-blank query heads it, and closes the drop-down. The query, the filters, the running flag and the filter panel stay. |
| SearchBar.EnterIsPickingQuery | src/components/music/AdvancedSearchBar.tsx:61-65 | Enter is the same as picking the query already typed, and keeps the history duplicate-free and within ten entries. |
| SearchBar.PickedItemHeadsHistory | src/components/music/AdvancedSearchBar.tsx:81-84 | A picked non-blank item heads the history, and the results are the search for it. |
| SearchBar.PickHidesHistory | src/components/music/AdvancedSearchBar.tsx:93-115 | After picking a non-empty item the history section is hidden. |
| Library.FormatTracks | src/hooks/useMusicLibrary.tsx:51-60 | Every shaped track has artist `HBC Hymns`, duration `3:45` and album `HBC Collection`. It keeps the row's id, title, url and album id, and its hymn number is the row's. |
| Library.TracksOfAlbum | src/hooks/useMusicLibrary.tsx:81 | An album's tracks are exactly the tracks with its id, in order, each as many times as it occurs in the track list. |
| Library.AttachTracks | src/hooks/useMusicLibrary.tsx:71-87 | An album keeps its row's id, title and cover, and its artist is `HBC Hymns`. Its tracks are exactly the tracks with its id, in order and with their multiplicity, and `trackCount` is their number. |
| Library.AttachAll | src/hooks/useMusicLibrary.tsx:80-87 | One album per album row, in order. |
| Library.FindArtist | src/hooks/useMusicLibrary.tsx:94-101 | The lookup finds an entry with the name exactly when one exists. |
| Library.GroupArtistsCorrect | src/hooks/useMusicLibrary.tsx:92-108 | The artist grouping yields one entry per distinct artist name. Each entry counts its artist's tracks, and the counts sum to the number of tracks. Each entry lists, without duplicates, exactly the truthy album names of its tracks. |
| Library.AddTrackPreserves | src/hooks/useMusicLibrary.tsx:93-106 | One step of the grouping loop keeps that description true for the tracks seen so far. |
| Library.AddTrackNames | src/hooks/useMusicLibrary.tsx:94-101 | One step keeps the names unique and every name the artist of a seen track, and gives every seen track's artist an entry. |
| Library.AddTrackCounts | src/hooks/useMusicLibrary.tsx:101-102 | One step keeps every entry's count equal to the number of seen tracks by its artist. |
| Library.AddTrackAlbums | src/hooks/useMusicLibrary.tsx:103-105 | One step keeps every entry's album list free of duplicates and equal to the truthy album names of its artist's seen tracks. |
| Library.AddTrackSum | src/hooks/useMusicLibrary.tsx:93-106 | One step keeps the sum of the counts equal to the number of seen tracks. |
| Library.AddToFavorites | src/hooks/useMusicLibrary.tsx:128-133 | The id is a favorite afterwards. The list is unchanged if it already was one, and the track is prepended otherwise. Unique ids stay unique. |
| Library.AddToFavoritesIdempotent | src/hooks/useMusicLibrary.tsx:128-133 | Adding a favorite twice equals adding it once. |
| Library.RemoveFromFavorites | src/hooks/useMusicLibrary.tsx:150 | Every favorite with the id goes, and the rest stay in order. The length drops by exactly the number of favorites with the id, so no other favorite is lost. |
| Library.AddThenRemoveFavorite | src/hooks/useMusicLibrary.tsx:128-150 | Removing a favorite just added (with a new id) gives the list back. |
| Library.AddToRecentlyPlayed | src/hooks/useMusicLibrary.tsx:165-170 | The track goes first and no other entry has its id. The rest is a prefix of the old list without that id, as long as fits in 20 entries, and unique ids stay unique. |
| Library.FetchLibrary | src/hooks/useMusicLibrary.tsx:41-123 | A failed track query only clears `loading`. Success shapes every row. A failed album query then keeps the new tracks and the old albums, artists and recently-played list. On full success each album row gets the new tracks with its id attached and counted, the artists are grouped, and recently-played is seeded with the first 10 tracks. Favorites never change. |
| Library.FetchedLibraryHasOneArtist | src/hooks/useMusicLibrary.tsx:51-108 | Because every shaped track has the same artist and album, a fetch gives one artist entry holding every track and the single album name. An empty table gives none. |
| Interactions.ToggleLikeTrack | src/hooks/useMusicInteractions.tsx:36-50 | A liked track is removed: every entry with its id is dropped and the rest keep their order. An unliked one is appended. `isTrackLiked` flips for its id only. The other three collections are unchanged, `loading` ends false, and no duplicate ids appear. |
| Interactions.ToggleLikeAlbum | src/hooks/useMusicInteractions.tsx:52-66 | The same toggle on albums, leaving the other collections unchanged. |
| Interactions.ToggleLikePlaylist | src/hooks/useMusicInteractions.tsx:68-82 | The same toggle on playlists, leaving the other collections unchanged. |
| Interactions.ToggleFollowUser | src/hooks/useMusicInteractions.tsx:84-98 | The same toggle on the followed user ids. `isFollowing` flips for that user only. |
| Interactions.FollowingIsKeyed | src/hooks/useMusicInteractions.tsx:112-114 | `includes` on the id list is the identity-keyed lookup. |
| Interactions.ToggleLikeTrackTwice | src/hooks/useMusicInteractions.tsx:39-46 | Liking twice restores whether the track is liked, and the exact list when it was not liked. |
| Interactions.ToggleFollowTwice | src/hooks/useMusicInteractions.tsx:87-94 | Following twice restores whether the user is followed, and the exact list when they were not. |
| Browser.IsInFavorites | src/pages/AudioBrowser.tsx:65-67 | True exactly when some favorite has the id. |
| Browser.HandleToggleFavorite | src/pages/AudioBrowser.tsx:69-75 | A favorite is removed: every entry with its id is dropped and the rest keep their order. A non-favorite is prepended. Membership flips for that id only, and nothing but the favorites changes. |
| Browser.ToggleFavoriteTwice | src/pages/AudioBrowser.tsx:69-75 | Toggling twice restores membership, and the whole state when the track was not a favorite. |
| Browser.HandlePlayTrack | src/pages/AudioBrowser.tsx:52-55 | The recently-played list becomes the one `addToRecentlyPlayed` gives, so the played track heads it with no other entry of its id, at most 20 entries. Nothing else changes. |
| Browser.StatsRecent | src/pages/AudioBrowser.tsx:228 | The statistics tab lists the first `min(5, n)` recently-played tracks. |
| Browser.PlayedTrackListedFirst | src/pages/AudioBrowser.tsx:52-55 | A played track is first in the statistics tab's list. |
| Browser.ShowSearchResults | src/pages/AudioBrowser.tsx:153 | The results panel shows exactly when the query string is non-empty. |
| Browser.BlankQueryShowsEmptyPanel | src/pages/AudioBrowser.tsx:153 | A query of spaces shows the panel, but with no results. |
| Browser.Stats | src/components/music/LibraryBrowser.tsx:69-108 | The quick-stat numbers are the lengths of the tracks, albums, artists and favorites lists. |
| Browser.FetchedStats | src/components/music/LibraryBrowser.tsx:75-103 | After a fetch, the numbers are the row counts and the kept favorites, with one artist (none for an empty table). |
| Browser.FindTrack | src/components/music/LibraryBrowser.tsx:61 | `find` answers nothing exactly when no track has the id. Otherwise it answers the first track with the id. |
| Browser.BrowserPlayTrack | src/components/music/LibraryBrowser.tsx:60-67 | An id found in `tracks` sends the first such track to `onPlayTrack` and makes it current and playing. An absent id changes nothing and fires nothing. |
| Browser.FavoriteOutsideLibraryDoesNothing | src/components/music/LibraryBrowser.tsx:201-219 | A favorite (or recent) entry whose id is not among the tracks cannot be played. |
| Browser.FavoritesTab | src/components/music/LibraryBrowser.tsx:211-220 | The empty state shows exactly when there are no favorites. Otherwise the list shows the favorites. |
| Browser.FirstFavoriteLeavesEmptyState | src/components/music/LibraryBrowser.tsx:212 | Toggling a track into empty favorites replaces the empty state with that one track. |
| HymnNav.VerseRequest | src/components/HymnDisplay.tsx:36-57 | Only display mode reacts. Right and Space ask for the next verse only before the last one, and Left asks for the previous one only after the first. Home asks for 0, End asks for `length - 1`, and other keys ask for nothing. |
| HymnNav.NavigationStaysInRange | src/components/HymnDisplay.tsx:40-56 | From an in-range verse of a hymn with verses, every key asks for, and leads to, a verse in range. |
| HymnNav.EndWithoutVerses | src/components/HymnDisplay.tsx:53-56 | With no verses, End asks for verse -1. |
| HymnNav.RightThenLeft | src/components/HymnDisplay.tsx:40-49 | A step right that moved is undone by a step left. |
| HymnNav.PressRightReaches | src/components/HymnDisplay.tsx:40-44 | Pressing Right `k` times moves `k` verses on, stopping at the last verse. |
| HymnNav.AudioPlayerVisible | src/components/HymnDisplay.tsx:98 | The audio player shows exactly in hymnal mode, or in display mode when not lyrics-only. |
| HymnNav.LyricsFocusHidesPlayer | src/components/HymnDisplay.tsx:72-98 | In display mode the lyrics-focus toggle flips the player's visibility. Hymnal mode always shows it. |
| DebugTest.UpdateResult | src/components/DebugDatabaseTest.tsx:20-31 | An existing (table, operation) key is replaced in place at every position holding it, with the length unchanged. A new key is appended at the end. |
| DebugTest.UpdateResultKeepsKeyUnique | src/components/DebugDatabaseTest.tsx:20-31 | With at most one entry for the key before, exactly one entry after carries the new values. Entries with other keys are unchanged in place. |
| DebugTest.ReplaceKeepsCount | src/components/DebugDatabaseTest.tsx:26 | Replacing entries of a key by one of the same key keeps the count of that key. |
| DebugTest.SelectMessage | src/components/DebugDatabaseTest.tsx:46 | The SELECT message starts with `Success - `. |
| DebugTest.CountMessage | src/components/DebugDatabaseTest.tsx:65 | The COUNT message starts with `Success - `. |
| DebugTest.SelectMessageRoundTrip | src/components/DebugDatabaseTest.tsx:46 | Reading the number back out of the SELECT message gives the number of rows returned, and 0 when no data came back. |
| DebugTest.CountMessageRoundTrip | src/components/DebugDatabaseTest.tsx:65 | Reading the number back out of the COUNT message gives the count. A missing count prints `null`, and no number reads back. |
| DebugTest.TestTableAccessAppends | src/components/DebugDatabaseTest.tsx:33-72 | Testing a new table appends its final SELECT line and then its final COUNT line. No `Testing...` line remains. |
| DebugTest.TablesDistinct | src/components/DebugDatabaseTest.tsx:81-92 | The ten table names differ. |
| DebugTest.RunTables | src/components/DebugDatabaseTest.tsx:74-102 | For any list of distinct table names, the loop leaves two lines per table, in table order, carrying each table's outcomes. None is still running. |
| DebugTest.RunTests | src/components/DebugDatabaseTest.tsx:74-102 | Starting from an empty list, the run leaves two lines per table, in table order, carrying each table's outcomes. None is still running. |
| DebugTest.CountStatus | src/components/DebugDatabaseTest.tsx:181-191 | A summary number never exceeds the number of results. |
| DebugTest.StatusCountsSum | src/components/DebugDatabaseTest.tsx:181-191 | The successful, failed and running counts add up to the number of results. |
| TimeFormat.FormatTime | src/components/hymn-audio/HymnAudioPlayer.tsx:44-48 | The text is the decimal minutes, a colon, then exactly two digits. |
| TimeFormat.TwoDigitSeconds | src/components/hymn-audio/HymnAudioPlayer.tsx:46-47 | Seconds below sixty pad to exactly two digits that read back as the seconds. |
| TimeFormat.FormatTimeRoundTrip | src/components/MusicPlayer.tsx:75-79 | Reading the formatted time back gives the whole seconds it came from, and the seconds field is below 60. |
| TimeFormat.FormatZero | src/components/MusicPlayer.tsx:75-79 | Zero seconds is `0:00`. |
| Playback.GetStorageUrl | src/hooks/useFullscreenAudio.tsx:25-34 | A path starting with `http` is returned unchanged, and any other path goes through the public-URL function. |
| Playback.GetStorageUrlIdempotent | src/hooks/useFullscreenAudio.tsx:25-34 | When public URLs start with `http`, resolving twice equals resolving once. |
| Playback.CombineFiles | src/hooks/useFullscreenAudio.tsx:55-81 | The `AudioFile` rows come first, then the `uploads` rows, and the length is their sum. Each keeps its id and has its URL resolved. An upload's `hymnTitle` becomes `hymnTitleNumber`, and missing data contributes nothing. |
| Playback.CombinedIds | src/hooks/useFullscreenAudio.tsx:55-81 | The combined ids are the `AudioFile` ids followed by the `uploads` ids. |
| Playback.FetchAudioFiles | src/hooks/useFullscreenAudio.tsx:37-107 | An empty hymn number fetches nothing. Otherwise the list becomes the combined files and loading ends. |
| Playback.FetchKeepsPlayback | src/hooks/useFullscreenAudio.tsx:37-107 | A fetch leaves the current file and the playing flag alone and keeps the player consistent. The ids of the new list are the `AudioFile` ids followed by the `uploads` ids. |
| Playback.FetchedPlayerRenders | src/components/hymn-audio/HymnAudioPlayer.tsx:40-42 | After a fetch the player renders nothing exactly when both queries returned no rows. |
| Playback.PlayAudio | src/hooks/useFullscreenAudio.tsx:131-207 | Any current element is paused and dropped, and playing stops. The requested file then becomes current at position 0 and is asked to play. |
| Playback.TogglePlayPause | src/hooks/useFullscreenAudio.tsx:209-224 | With no current element nothing happens. Otherwise a playing element is asked to pause and a paused one to resume. The state waits for the element's event. |
| Playback.StopAudio | src/hooks/useFullscreenAudio.tsx:226-235 | A current element is paused and rewound, and the player becomes idle and not playing. When already idle it is a no-op. |
| Playback.StopIdempotent | src/hooks/useFullscreenAudio.tsx:226-235 | Stopping twice equals stopping once, and the second stop issues nothing. |
| Playback.ChangeHymnAsWritten | src/hooks/useFullscreenAudio.tsx:247-258 | The hymn-change cleanup as written acts on the element captured when the effect ran. With none captured it does nothing. |
| Playback.StaleCleanupKeepsPlaying | src/hooks/useFullscreenAudio.tsx:247-258 | Audio started after the hymn opened keeps playing through a hymn change. |
| Playback.ChangeHymn | src/hooks/useFullscreenAudio.tsx:247-258 | The intended cleanup: a current element is paused and the player becomes idle and not playing. An idle player is unchanged. |
| Playback.ChangeHymnAgreesWhenFresh | src/hooks/useFullscreenAudio.tsx:247-258 | The written and intended cleanups agree when the captured element is the current one. |
| Playback.StaleCleanupScenario | src/hooks/useFullscreenAudio.tsx:247-258 | A hymn opened while idle, its files fetched and one played: the written cleanup leaves it playing, and the intended one stops it. |
| Playback.OnEvent | src/hooks/useFullscreenAudio.tsx:146-189 | `play` sets playing and `pause` clears it. `ended` returns to idle and not playing. `loadstart` sets loading, and `canplay`, `loadeddata`, `error` and the settled `play()` clear it. |
| Playback.TransitionsKeepConsistent | src/hooks/useFullscreenAudio.tsx:131-235 | Every transition keeps "nothing plays without a current file". |
| Playback.ToggleThenReply | src/hooks/useFullscreenAudio.tsx:209-224 | A toggle answered by the element swaps playing and paused and keeps the file. |
| Playback.PlayThenPlayEvent | src/hooks/useFullscreenAudio.tsx:131-165 | Playing a file, once the element reports `play`, leaves that file playing from position 0. |
| Playback.Seek | src/components/hymn-audio/HymnAudioPlayer.tsx:50-54 | With a current element its position becomes the slider value. Otherwise nothing changes. |
| Playback.SeekKeepsFile | src/components/hymn-audio/HymnAudioPlayer.tsx:50-54 | A seek moves only the position. The file, the playing flag, consistency and every row's icon stay. |
| Playback.RendersNothing | src/components/hymn-audio/HymnAudioPlayer.tsx:40-42 | The player renders nothing exactly when there are no files and it is not loading. |
| Playback.CompactAction | src/components/hymn-audio/HymnAudioPlayer.tsx:67-73 | The compact button toggles when a file is current, and plays the first file otherwise. |
| Playback.CompactPressThenReply | src/components/hymn-audio/HymnAudioPlayer.tsx:67-73 | Once its element answers, the compact button makes a player that was not playing play, from the first file when none was current. A playing one pauses on its file. |
| Playback.RowAction | src/components/hymn-audio/HymnAudioPlayer.tsx:162-168 | A row's button toggles when its file is current (same id), and plays that file otherwise. |
| Playback.RowShowsPause | src/components/hymn-audio/HymnAudioPlayer.tsx:174 | A row shows pause exactly when its file is current and playing. |
| Playback.RowPressShowsPause | src/components/hymn-audio/HymnAudioPlayer.tsx:162-178 | Pressing a row that is not playing, once the element answers `play`, makes it show pause. |
| Playback.FilesLabel | src/components/hymn-audio/HymnAudioPlayer.tsx:110 | The label is the count, then ` file` when the count is 1 and ` files` otherwise. |
| Playback.FilesLabelRoundTrip | src/components/hymn-audio/HymnAudioPlayer.tsx:110 | Reading the leading digits of the label, checked against the word after them, gives back the count. |
| Playback.BarRendered | src/components/MusicPlayer.tsx:81 | The player bar renders exactly when there is a current track. |
| Playback.BarSeek | src/components/MusicPlayer.tsx:67-73 | A seek sets the position to the slider value while the bar is rendered. |
| Playback.BarSeekKeepsTrack | src/components/MusicPlayer.tsx:67-73 | A seek keeps the track, the playing flag, whether the bar renders and the command it issues, and a later seek overrides it. |
| Playback.BarCommand | src/components/MusicPlayer.tsx:49-58 | `isPlaying` true issues play and false issues pause. |
| ArtistPage.OrDefault | src/components/music/ArtistProfile.tsx:79-84 | `a \|\| b` on optional strings: the value when truthy, else the default. |
| ArtistPage.ArtistTrack | src/components/music/ArtistProfile.tsx:91-98 | Each formatted track keeps the row's id, title and url, and carries the artist's name, duration `3:45` and album `HBC Collection`. |
| ArtistPage.FetchProfile | src/components/music/ArtistProfile.tsx:47-112 | A failed user query keeps the previous artist and tracks. Otherwise the name defaults to `Unknown Artist` and the genre to `Hymns`. Bio and profile picture come from the user row, and the website from the artist row when there is one. `trackCount` is the number of fetched tracks, with one formatted track per row, in order. The album count is 1, the follower count is the random roll plus 50, and the page starts unfollowed. Loading ends either way. |
| ArtistPage.HandleFollow | src/components/music/ArtistProfile.tsx:114-173 | With no artist it is a no-op. A successful follow sets following and adds 1, and a successful unfollow clears it and subtracts 1. An error leaves the artist unchanged, and the follow spinner ends. |
| ArtistPage.FollowThenUnfollow | src/components/music/ArtistProfile.tsx:121-156 | A follow followed by an unfollow restores the artist, follower count and flag included. |
| ArtistPage.HandleFollowKeepsCount | src/components/music/ArtistProfile.tsx:114-173 | The follower count is always the fetched count plus one while following, whatever the backend answers. |
| ArtistPage.FetchedProfileCounts | src/components/music/ArtistProfile.tsx:73-88 | A fetched profile starts that relation with the invented count. |
| Playlists.WithTracks | src/hooks/usePlaylistManager.tsx:59-70 | A playlist keeps its row's fields and carries its tracks, with `trackCount` their number. |
| Playlists.FetchOne | src/hooks/usePlaylistManager.tsx:50-71 | With no join rows a playlist has no tracks and count 0. Otherwise it has the tracks returned, or none when no data came back, and its count always equals its tracks. |
| Playlists.FetchPlaylists | src/hooks/usePlaylistManager.tsx:32-85 | A failed query keeps the list. Success gives one playlist per row, in order. Each carries the tracks returned for it, or none when it has no join rows or its lookup returned no data, and its count is their number. Loading ends either way. |
| Playlists.CreatePlaylist | src/hooks/usePlaylistManager.tsx:87-127 | Success prepends the inserted row's playlist, with all its fields, no tracks and count 0, and returns it. Failure returns null and leaves the list unchanged. |
| Playlists.DeletePlaylist | src/hooks/usePlaylistManager.tsx:129-161 | When both deletes succeed, every playlist with the id goes and the rest keep their order. If either fails the list is unchanged. |
| Playlists.ChangeTrackList | src/hooks/usePlaylistManager.tsx:163-216 | A failed join-table change leaves the state alone. A successful one gives exactly the state of a fresh fetch with the refetch answer, so every count matches its tracks. |
| Playlists.OperationsKeepCounts | src/hooks/usePlaylistManager.tsx:104-147 | Create, delete and refresh keep every playlist's count equal to its number of tracks. |
| Playlists.CreateKeepsIdsUnique | src/hooks/usePlaylistManager.tsx:104-110 | A successful create whose id is new keeps the playlist ids unique. |
| Playlists.DeleteKeepsIdsUnique | src/hooks/usePlaylistManager.tsx:129-161 | Every delete keeps the playlist ids unique, whether the backend succeeds or fails. |
| Playlists.CreateThenDelete | src/hooks/usePlaylistManager.tsx:110-147 | Deleting a just-created playlist (with a new id) gives the list back. |
| Playlists.DeleteIdempotent | src/hooks/usePlaylistManager.tsx:147 | Deleting the same id twice equals deleting it once. |
| Playlists.CreateDisabled | src/components/music/PlaylistManager.tsx:82 | The Create button is disabled exactly when the title is blank. |
| Playlists.HandleCreate | src/components/music/PlaylistManager.tsx:21-30 | A blank title calls nothing and changes nothing. Otherwise `createPlaylist` gets the untrimmed title and the description. A non-null result clears both fields and closes the dialog, and a null result leaves the dialog as it was. |
| Playlists.DisabledButtonAgreesWithGuard | src/components/music/PlaylistManager.tsx:21-82 | The handler calls `createPlaylist` exactly when the button is enabled. |
| Playlists.EmptyState | src/components/music/PlaylistManager.tsx:141 | The empty card shows exactly when no playlist exists. |
| Playlists.EmptyStateAfterChanges | src/components/music/PlaylistManager.tsx:141 | A successful create hides the empty card, and deleting that only playlist shows it again. |
| Feed.ActivityText | src/components/music/SocialMusicFeed.tsx:111-124 | `track_like` gives `liked "T"`, `album_like` gives `liked the album "T"`, `playlist_create` gives `created playlist "T"` and `follow` gives `started following T`. Any other type gives the description when truthy, else the empty string. |
| Feed.ReadActivityText | src/components/music/SocialMusicFeed.tsx:113-120 | Reading a sentence back only ever yields one of the four known kinds. |
| Feed.ActivityTextRoundTrip | src/components/music/SocialMusicFeed.tsx:113-120 | For the four known kinds, the sentence gives back its kind and title. |
| Feed.ActivityTextInjective | src/components/music/SocialMusicFeed.tsx:113-120 | Two known activities with the same sentence have the same kind and title. |
| Feed.Initial | src/components/music/SocialMusicFeed.tsx:164 | `n[0]` joins as the first character, or as nothing for an empty piece. |
| Feed.Initials | src/components/music/SocialMusicFeed.tsx:164 | The initials contain no space. |
| Feed.InitialsAreWordStarts | src/components/music/SocialMusicFeed.tsx:164 | The initials are exactly the characters that start a word: not a space, and first or right after a space. |
| Feed.InitialsOfTwoWords | src/components/music/SocialMusicFeed.tsx:164 | A two-word name gives its two first letters. |
| Feed.ShowsSocialActions | src/components/music/SocialMusicFeed.tsx:181 | Like, Comment and Share show exactly for `track_like` and `album_like`. |
| Feed.PlayArgument | src/components/music/SocialMusicFeed.tsx:195-196 | Play shows exactly for `track_like` with a handler, and hands over the activity's own id. |
| Feed.PlayInsideSocialActions | src/components/music/SocialMusicFeed.tsx:181-196 | Play only shows inside the social-action row, and never for an album like. |

## Left out

- Database and storage calls are not modelled as code. Each is an `Outcome` input. A thrown
  exception outside a query (the "Unexpected error" branches of the test panel) is not modelled.
- A query that succeeds with null data: the library fetch takes its rows as a list. The playlist,
  audio and artist fetches model null data (`|| []`) explicitly.
- Asynchrony and interleaving: every hook call is one atomic transition. The intermediate
  `loading: true` and `followLoading: true` states, the 500 ms search delay, the 200 ms blur delay,
  the 500 ms pause between table tests and the feed's simulated 1 s load are not modelled.
- The progress interval of the audio hook, volume (`volume / 100`), fractional `currentTime` and
  media duration are left out, because they are timers and floating point. `formatTime` takes whole
  seconds.
- Randomness: the follower roll is a parameter of `ArtistPage.FetchProfile`. The random user and
  playlist ids are not modelled, because the returned row carries the id.
- The unmount cleanup of the audio hook is left out. It captures the same stale element as the
  hymn-change cleanup recorded under Findings.
- The mock `refetch` of the like/follow hook is left out, because it only sets `loading` and clears
  it after a one-second timer.
- Toast messages, console logging, icons, layout, `formatDistanceToNow` and `toLocaleDateString` are
  left out, because they are presentation or locale dependent.
- `toLowerCase` beyond ASCII letters: Unicode case folding is not modelled.
- Feed.Initial: JavaScript `n[0]` takes the first UTF-16 code unit, so a name piece starting with a
  character outside the Basic Multilingual Plane yields a lone surrogate. The model's strings are
  sequences of Unicode characters, so it takes the whole first character there.
  `Feed.Initials`, `Feed.InitialsAreWordStarts` and `Feed.InitialsOfTwoWords` inherit this.
- `socialMediaLinks` of the artist profile is not modelled, because it is copied through untouched.
- `onVerseChange` being optional: `HymnNav.VerseRequest` returns the verse the handler would be
  called with. An absent handler is the caller's concern.
- The `Track` query of the artist page is not filtered by artist (`.limit(10)` over all tracks).
  The model takes whatever rows the backend returns.
- ArtistPage.HandleFollow: the branch is chosen from the artist rendered at click time, and the
  update is applied to the latest artist. The model has one state, so it does not distinguish them.
- SearchBar.ToggleRecentTwice: pressing twice from an unset `recent` gives `false`, not unset. Only
  the chip's visibility is restored in that case, as the source does.
- Browser.ShowSearchResults: the panel test is `query &&` on the raw string. A query of spaces
  shows the panel with empty results, as proved by `Browser.BlankQueryShowsEmptyPanel`.
- Presentation-only components (track list, search-result cards, landing pages, playlist card,
  full-screen controls) and the static hymn data have no behaviour to state.

## Findings

| source | as written | input that shows it | evidently intended | confidence | as-written member | corrected member |
|---|---|---|---|---|---|---|
| src/hooks/useFullscreenAudio.tsx:247-258 | The cleanup run when the hymn number changes tests and pauses the `currentAudio` captured when the effect was set up. Its dependency list is `[hymnNumber]`, so that is the element of the render in which the hymn was opened. | Open a hymn with nothing playing, press play, then switch to another hymn. The cleanup sees `null`, so the audio keeps playing and stays current. | Stop whatever element is current when the hymn changes. | not executed | Playback.ChangeHymnAsWritten, Playback.StaleCleanupKeepsPlaying | Playback.ChangeHymn |

=== FILE: artist.dfy ===
/** The artist profile page: the profile assembled from the user, artist-profile and track
    queries, and the optimistic follow button. */
module ArtistPage {
  import opened Outcomes
  import opened Catalog
  import Library

  const UnknownArtist := "Unknown Artist"
  const DefaultGenre := "Hymns"
  /** The smallest follower count the page invents. */
  const FollowerFloor := 50

  datatype Profile = Profile(
    id: string,
    userId: string,
    name: string,
    bio: Option<string>,
    profilePicture: Option<string>,
    website: Option<string>,
    genre: string,
    trackCount: nat,
    albumCount: nat,
    followerCount: int,
    isFollowing: bool)

  /** The `users` row of the artist. */
  datatype UserRow = UserRow(name: Option<string>, bio: Option<string>, profilePicture: Option<string>)

  /** The `ArtistProfile` row, when there is one. */
  datatype ArtistRow = ArtistRow(website: Option<string>, genre: Option<string>)

  datatype PageState = PageState(artist: Option<Profile>, tracks: seq<Track>, loading: bool, followLoading: bool)

  const InitialPage := PageState(None, [], true, false)

  /** `a || b` on optional strings. */
  function OrDefault(s: Option<string>, default: string): (r: string)
    ensures Truthy(s) ==> r == s.value
    ensures !Truthy(s) ==> r == default
  {
    if Truthy(s) then s.value else default
  }

  /** A fetched track, shown under the artist's name with the placeholder duration and album. */
  function ArtistTrack(row: TrackRow, artistName: string): (t: Track)
    ensures t.id == row.id && t.title == row.title && t.url == row.url && t.artist == artistName
    ensures t.duration == Some(Library.PlaceholderDuration) && t.album == Some(Library.LibraryAlbum)
  {
    Track(row.id, row.title, artistName, row.url, Some(Library.PlaceholderDuration), None, Some(Library.LibraryAlbum), None)
  }

  /** `fetchArtistProfile`. A failed user query is thrown and caught: the page keeps its previous
      artist and tracks. `roll` stands for `Math.floor(Math.random() * 1000)`. */
  function FetchProfile(st: PageState, artistId: string, user: Outcome<UserRow>, artistRow: Option<ArtistRow>,
                        trackData: Option<seq<TrackRow>>, roll: nat): (r: PageState)
    ensures !r.loading && r.followLoading == st.followLoading
    ensures user.Failure? ==> r == st.(loading := false)
    ensures user.Success? ==> r.artist.Some? && var a := r.artist.value;
      && a.id == artistId && a.userId == artistId
      && (Truthy(user.data.name) ==> a.name == user.data.name.value)
      && (!Truthy(user.data.name) ==> a.name == UnknownArtist)
      && (artistRow.Some? && Truthy(artistRow.value.genre) ==> a.genre == artistRow.value.genre.value)
      && (!(artistRow.Some? && Truthy(artistRow.value.genre)) ==> a.genre == DefaultGenre)
      && a.trackCount == |r.tracks| && a.albumCount == 1
      && a.followerCount == roll + FollowerFloor && !a.isFollowing
      && a.bio == user.data.bio && a.profilePicture == user.data.profilePicture
      && a.website == (if artistRow.Some? then artistRow.value.website else None)
    ensures user.Success? ==>
      var rows := if trackData.Some? then trackData.value else [];
      && |r.tracks| == |rows|
      && forall i :: 0 <= i < |rows| ==> r.tracks[i] == ArtistTrack(rows[i], r.artist.value.name)
  {
    match user
    case Failure(_) => st.(loading := false)
    case Success(u) =>
      var rows := if trackData.Some? then trackData.value else [];
      var name := OrDefault(u.name, UnknownArtist);
      var genre := if artistRow.Some? then OrDefault(artistRow.value.genre, DefaultGenre) else DefaultGenre;
      var website := if artistRow.Some? then artistRow.value.website else None;
      var profile := Profile(artistId, artistId, name, u.bio, u.profilePicture, website, genre, |rows|, 1, roll + FollowerFloor, false);
      var tracks := seq(|rows|, i requires 0 <= i < |rows| => ArtistTrack(rows[i], name));
      st.(artist := Some(profile), tracks := tracks, loading := false)
  }

  /** `handleFollow`, given the answer of the `Follow` delete (when following) or insert (when not). */
  function HandleFollow(st: PageState, ack: Ack): (r: PageState)
    ensures r.tracks == st.tracks && r.loading == st.loading
    ensures st.artist.None? ==> r == st
    ensures st.artist.Some? ==> !r.followLoading
    ensures st.artist.Some? && ack.Failure? ==> r == st.(followLoading := false)
    ensures st.artist.Some? && ack.Success? ==>
      var a := st.artist.value;
      && r.artist.Some?
      && r.artist.value.isFollowing == !a.isFollowing
      && r.artist.value.followerCount == (if a.isFollowing then a.followerCount - 1 else a.followerCount + 1)
      && r.artist.value == a.(isFollowing := !a.isFollowing, followerCount := r.artist.value.followerCount)
  {
    match st.artist
    case None => st
    case Some(a) =>
      if ack.Failure? then st.(followLoading := false)
      else if a.isFollowing then
        st.(artist := Some(a.(isFollowing := false, followerCount := a.followerCount - 1)), followLoading := false)
      else
        st.(artist := Some(a.(isFollowing := true, followerCount := a.followerCount + 1)), followLoading := false)
  }

  /** A successful follow followed by a successful unfollow gives the artist back. */
  lemma FollowThenUnfollow(st: PageState)
    requires st.artist.Some? && !st.artist.value.isFollowing
    ensures HandleFollow(HandleFollow(st, Success(())), Success(())).artist == st.artist
  {
  }

  /** The counter only ever counts the page's own follow: it is the invented count, plus one while following. */
  ghost predicate CountsOwnFollow(st: PageState, base: int) {
    st.artist.Some? ==> st.artist.value.followerCount == base + (if st.artist.value.isFollowing then 1 else 0)
  }

  /** Every follow click, whatever the backend answers, keeps that relation. */
  lemma HandleFollowKeepsCount(st: PageState, ack: Ack, base: int)
    requires CountsOwnFollow(st, base)
    ensures CountsOwnFollow(HandleFollow(st, ack), base)
  {
  }

  /** A freshly fetched profile satisfies it with the invented count as base. */
  lemma FetchedProfileCounts(st: PageState, artistId: string, u: UserRow, artistRow: Option<ArtistRow>, trackData: Option<seq<TrackRow>>, roll: nat)
    ensures CountsOwnFollow(FetchProfile(st, artistId, Success(u), artistRow, trackData, roll), roll + FollowerFloor)
  {
  }
}

=== FILE: browser.dfy ===
/** The audio browser page and its library browser: favorites toggling, playing a track,
    the statistics panel and which panels are shown. */
module Browser {
  import opened Outcomes
  import opened Seqs
  import opened Keyed
  import opened Catalog
  import opened Library
  import Search
  import Text

  // ----- the audio browser page -----

  /** `isInFavorites`: some favorite carries the id. */
  function IsInFavorites(favorites: seq<Track>, id: string): (b: bool)
    ensures b <==> exists i :: 0 <= i < |favorites| && favorites[i].id == id
  {
    assert forall i :: 0 <= i < |favorites| ==> TrackId(favorites[i]) == favorites[i].id;
    HasKey(favorites, id, TrackId)
  }

  /** `handleToggleFavorite`: remove the track when it is a favorite, add it otherwise. */
  function HandleToggleFavorite(lib: LibraryState, t: Track): (r: LibraryState)
    ensures r == lib.(favorites := r.favorites)
    ensures IsInFavorites(r.favorites, t.id) <==> !IsInFavorites(lib.favorites, t.id)
    ensures IsInFavorites(lib.favorites, t.id) ==>
      Subseq(r.favorites, lib.favorites) && |r.favorites| == |lib.favorites| - CountKey(lib.favorites, t.id, TrackId)
    ensures !IsInFavorites(lib.favorites, t.id) ==> r.favorites == [t] + lib.favorites
    ensures forall id :: id != t.id ==> (IsInFavorites(r.favorites, id) <==> IsInFavorites(lib.favorites, id))
  {
    if IsInFavorites(lib.favorites, t.id) then
      var fs := RemoveFromFavorites(lib.favorites, t.id);
      forall id | id != t.id ensures IsInFavorites(fs, id) <==> IsInFavorites(lib.favorites, id) {
        RemoveKeyKeepsOtherKeys(lib.favorites, t.id, TrackId, id);
      }
      lib.(favorites := fs)
    else
      lib.(favorites := AddToFavorites(lib.favorites, t))
  }

  /** Toggling a favorite twice restores whether it is a favorite, and the whole list when it was not one. */
  lemma ToggleFavoriteTwice(lib: LibraryState, t: Track)
    ensures var twice := HandleToggleFavorite(HandleToggleFavorite(lib, t), t);
      && (IsInFavorites(twice.favorites, t.id) <==> IsInFavorites(lib.favorites, t.id))
      && (!IsInFavorites(lib.favorites, t.id) ==> twice == lib)
  {
    if !IsInFavorites(lib.favorites, t.id) {
      AddThenRemoveFavorite(lib.favorites, t);
    }
  }

  /** `handlePlayTrack`: the played track heads the recently-played list; nothing else changes. */
  function HandlePlayTrack(lib: LibraryState, t: Track): (r: LibraryState)
    ensures r == lib.(recentlyPlayed := r.recentlyPlayed)
    ensures |r.recentlyPlayed| > 0 && r.recentlyPlayed[0] == t
    ensures forall i :: 1 <= i < |r.recentlyPlayed| ==> r.recentlyPlayed[i].id != t.id
    ensures |r.recentlyPlayed| <= RecentLimit
    ensures r.recentlyPlayed == AddToRecentlyPlayed(lib.recentlyPlayed, t)
  {
    lib.(recentlyPlayed := AddToRecentlyPlayed(lib.recentlyPlayed, t))
  }

  /** How many recently-played tracks the statistics tab lists. */
  const StatsRecentCount := 5

  /** `recentlyPlayed.slice(0, 5)`. */
  function StatsRecent(recent: seq<Track>): (r: seq<Track>)
    ensures |r| <= StatsRecentCount && r <= recent
    ensures |r| == if |recent| < StatsRecentCount then |recent| else StatsRecentCount
  {
    Take(recent, StatsRecentCount)
  }

  /** Playing a track puts it first in the statistics tab's list. */
  lemma PlayedTrackListedFirst(lib: LibraryState, t: Track)
    ensures var shown := StatsRecent(HandlePlayTrack(lib, t).recentlyPlayed);
      |shown| > 0 && shown[0] == t
  {
  }

  /** The search results panel is rendered when the query string is not empty (`query && ...`). */
  function ShowSearchResults(query: string): (b: bool)
    ensures b <==> |query| > 0
  {
    query != ""
  }

  /** A query of spaces shows the results panel, but with nothing in it: the panel test looks at
      the raw query while the search trims it. */
  lemma BlankQueryShowsEmptyPanel(query: string, f: Search.Filters, tracks: seq<Track>, albums: seq<Album>, artists: seq<Artist>)
    requires |query| > 0 && forall i :: 0 <= i < |query| ==> query[i] == ' '
    ensures ShowSearchResults(query)
    ensures Search.SearchResults(query, f, tracks, albums, artists) == Search.NoResults
  {
    assert Text.IsBlank(query);
  }

  // ----- the library browser -----

  /** The four quick-stat numbers. */
  datatype QuickStats = QuickStats(songs: nat, albums: nat, artists: nat, favorites: nat)

  function Stats(lib: LibraryState): (s: QuickStats)
    ensures s.songs == |lib.tracks| && s.albums == |lib.albums| && s.artists == |lib.artists| && s.favorites == |lib.favorites|
  {
    QuickStats(|lib.tracks|, |lib.albums|, |lib.artists|, |lib.favorites|)
  }

  /** After a successful fetch the numbers are the row counts, and there is at most one artist. */
  lemma FetchedStats(st: LibraryState, rows: seq<TrackRow>, albumRows: seq<AlbumRow>)
    ensures var s := Stats(FetchLibrary(st, Success(rows), Success(albumRows)));
      && s.songs == |rows| && s.albums == |albumRows| && s.favorites == |st.favorites|
      && s.artists == if |rows| == 0 then 0 else 1
  {
    FetchedLibraryHasOneArtist(st, rows, albumRows);
  }

  /** `tracks.find(t => t.id === trackId)`: the first track with the id, if any. */
  function FindTrack(tracks: seq<Track>, id: string): (r: Option<Track>)
    ensures r.None? <==> !HasKey(tracks, id, TrackId)
    ensures r.Some? ==> exists i :: 0 <= i < |tracks| && tracks[i] == r.value && FirstWithId(tracks, id, i)
  {
    if |tracks| == 0 then None
    else if tracks[0].id == id then
      assert FirstWithId(tracks, id, 0);
      Some(tracks[0])
    else
      var r := FindTrack(tracks[1..], id);
      assert HasKey(tracks, id, TrackId) ==> HasKey(tracks[1..], id, TrackId) by {
        if HasKey(tracks, id, TrackId) {
          var k :| 0 <= k < |tracks| && TrackId(tracks[k]) == id;
          assert tracks[1..][k - 1] == tracks[k];
        }
      }
      if r.Some? then
        var i :| 0 <= i < |tracks[1..]| && tracks[1..][i] == r.value && FirstWithId(tracks[1..], id, i);
        assert FirstWithId(tracks, id, i + 1);
        r
      else
        forall k | 0 <= k < |tracks| ensures TrackId(tracks[k]) != id {
          if k > 0 {
            assert tracks[k] == tracks[1..][k - 1];
          }
        }
        r
  }

  /** Index `i` holds the first track with the id. */
  predicate FirstWithId(tracks: seq<Track>, id: string, i: int) {
    0 <= i < |tracks| && tracks[i].id == id && forall j :: 0 <= j < i ==> tracks[j].id != id
  }

  /** The library browser's own state: the highlighted track and the play flag. */
  datatype BrowserState = BrowserState(currentTrack: Option<string>, isPlaying: bool)

  const InitialBrowser := BrowserState(None, false)

  /** The state after a click, and the track handed to `onPlayTrack`, if it fired. */
  datatype PlayClick = PlayClick(state: BrowserState, played: Option<Track>)

  /** The library browser's `handlePlayTrack(trackId)`. The lookup is in `tracks` only, also for
      clicks in the favorites and recently-played tabs. */
  function BrowserPlayTrack(ui: BrowserState, tracks: seq<Track>, id: string): (r: PlayClick)
    ensures !HasKey(tracks, id, TrackId) ==> r == PlayClick(ui, None)
    ensures HasKey(tracks, id, TrackId) ==>
      && r.state == BrowserState(Some(id), true)
      && r.played.Some?
      && exists i :: 0 <= i < |tracks| && tracks[i] == r.played.value && FirstWithId(tracks, id, i)
  {
    match FindTrack(tracks, id)
    case None => PlayClick(ui, None)
    case Some(t) => PlayClick(BrowserState(Some(id), true), Some(t))
  }

  /** A favorite whose id is not among the library tracks cannot be played from the favorites tab. */
  lemma FavoriteOutsideLibraryDoesNothing(ui: BrowserState, lib: LibraryState, t: Track)
    requires t in lib.favorites && !HasKey(lib.tracks, t.id, TrackId)
    ensures BrowserPlayTrack(ui, lib.tracks, t.id) == PlayClick(ui, None)
  {
  }

  /** What the favorites tab shows. */
  datatype FavoritesView = NoFavoritesYet | FavoritesList(tracks: seq<Track>)

  function FavoritesTab(favorites: seq<Track>): (v: FavoritesView)
    ensures v.NoFavoritesYet? <==> |favorites| == 0
    ensures v.FavoritesList? ==> v.tracks == favorites
  {
    if |favorites| > 0 then FavoritesList(favorites) else NoFavoritesYet
  }

  /** Toggling a track into an empty favorites list replaces the empty state with that one track. */
  lemma FirstFavoriteLeavesEmptyState(lib: LibraryState, t: Track)
    requires |lib.favorites| == 0
    ensures FavoritesTab(HandleToggleFavorite(lib, t).favorites) == FavoritesList([t])
  {
  }
}

=== FILE: catalog.dfy ===
/** The records the music screens share, as the hooks shape them from database rows. */
module Catalog {
  import opened Outcomes

  /** A row of the `Track` table, as the backend returns it. */
  datatype TrackRow = TrackRow(
    id: string,
    title: string,
    url: string,
    hymnTitleNumber: Option<string>,
    albumId: Option<string>)

  /** A row of the `Album` table. */
  datatype AlbumRow = AlbumRow(id: string, title: string, coverImage: Option<string>)

  /** A track as the library and search screens see it. */
  datatype Track = Track(
    id: string,
    title: string,
    artist: string,
    url: string,
    duration: Option<string>,
    hymnNumber: Option<string>,
    album: Option<string>,
    albumId: Option<string>)

  /** An album with the tracks the library attached to it. */
  datatype Album = Album(
    id: string,
    title: string,
    artist: string,
    coverImage: Option<string>,
    trackCount: nat,
    tracks: seq<Track>)

  /** An artist entry of the library, grouped from the tracks. */
  datatype Artist = Artist(name: string, trackCount: nat, albums: seq<string>)

  /** A playlist, with the rows of the tracks it holds. */
  datatype Playlist = Playlist(
    id: string,
    title: string,
    description: Option<string>,
    userId: string,
    tracks: seq<TrackRow>,
    coverImage: Option<string>,
    createdAt: Option<string>,
    trackCount: nat)

  function TrackId(t: Track): string { t.id }
  function AlbumId(a: Album): string { a.id }
  function PlaylistId(p: Playlist): string { p.id }

  /** JavaScript truthiness of an optional string: present and not empty. */
  predicate Truthy(s: Option<string>) {
    s.Some? && |s.value| > 0
  }
}

=== FILE: debugtest.dfy ===
/** The database connection test panel: a list of results keyed by table and operation,
    the test run over the fixed list of tables, and the summary counts. */
module DebugTest {
  import opened Outcomes
  import opened Keyed
  import Text
  import Seqs

  datatype Status = Succeeded | Errored | Running

  /** One line of the panel; `data` holds the rows a SELECT returned, when it attached them. */
  datatype TestResult = TestResult(table: string, operation: string, status: Status, message: string, data: Option<seq<string>>)

  function ResultKey(r: TestResult): (string, string) { (r.table, r.operation) }

  /** How many results have the given table and operation. */
  function CountFor(results: seq<TestResult>, table: string, operation: string): nat {
    CountKey(results, (table, operation), ResultKey)
  }

  /** `updateResult`: replace every result with the same table and operation, or append when there is none. */
  function UpdateResult(prev: seq<TestResult>, table: string, operation: string, status: Status, message: string, data: Option<seq<string>>): (r: seq<TestResult>)
    ensures var entry := TestResult(table, operation, status, message, data);
      && (HasKey(prev, (table, operation), ResultKey) ==>
            && |r| == |prev|
            && forall i :: 0 <= i < |prev| ==> r[i] == (if ResultKey(prev[i]) == (table, operation) then entry else prev[i]))
      && (!HasKey(prev, (table, operation), ResultKey) ==> r == prev + [entry])
  {
    var entry := TestResult(table, operation, status, message, data);
    if HasKey(prev, (table, operation), ResultKey) then
      seq(|prev|, i requires 0 <= i < |prev| => if ResultKey(prev[i]) == (table, operation) then entry else prev[i])
    else
      prev + [entry]
  }

  /** With at most one result for the key before, there is exactly one after, carrying the new values;
      results with other keys keep their place and contents. */
  lemma {:induction false} UpdateResultKeepsKeyUnique(prev: seq<TestResult>, table: string, operation: string, status: Status, message: string, data: Option<seq<string>>)
    requires CountFor(prev, table, operation) <= 1
    ensures var r := UpdateResult(prev, table, operation, status, message, data);
      && CountFor(r, table, operation) == 1
      && (exists i :: 0 <= i < |r| && r[i] == TestResult(table, operation, status, message, data))
      && forall i :: 0 <= i < |prev| && ResultKey(prev[i]) != (table, operation) ==> r[i] == prev[i]
  {
    var entry := TestResult(table, operation, status, message, data);
    var r := UpdateResult(prev, table, operation, status, message, data);
    var k := (table, operation);
    if HasKey(prev, k, ResultKey) {
      var j :| 0 <= j < |prev| && ResultKey(prev[j]) == k;
      assert r[j] == entry;
      ReplaceKeepsCount(prev, r, k, entry);
    } else {
      CountKeyAppend(prev, entry, k, ResultKey);
      assert r[|prev|] == entry;
    }
  }

  /** Replacing elements with key `k` by one with key `k` leaves the count of `k` unchanged. */
  lemma {:induction false} ReplaceKeepsCount(prev: seq<TestResult>, r: seq<TestResult>, k: (string, string), entry: TestResult)
    requires ResultKey(entry) == k && |r| == |prev|
    requires forall i :: 0 <= i < |prev| ==> r[i] == (if ResultKey(prev[i]) == k then entry else prev[i])
    ensures CountKey(r, k, ResultKey) == CountKey(prev, k, ResultKey)
    decreases |prev|
  {
    if |prev| > 0 {
      ReplaceKeepsCount(prev[1..], r[1..], k, entry);
    }
  }

  /** `Success - N rows`, where N is the number of rows returned (`data?.length || 0`). */
  function SelectMessage(rows: Option<seq<string>>): (m: string)
    ensures Text.StartsWith(m, "Success - ")
  {
    var n := if rows.Some? then |rows.value| else 0;
    "Success - " + Text.Decimal(n) + " rows"
  }

  /** `Success - N total rows`; a missing count prints as `null`. */
  function CountMessage(count: Option<nat>): (m: string)
    ensures Text.StartsWith(m, "Success - ")
  {
    var n := if count.Some? then Text.Decimal(count.value) else "null";
    "Success - " + n + " total rows"
  }

  const SuccessPrefix := "Success - "

  /** The number a success message `Success - N<suffix>` reports, if the message has that shape. */
  function MessageNumber(m: string, suffix: string): (n: Option<nat>) {
    if |m| > |SuccessPrefix| + |suffix| && m[..|SuccessPrefix|] == SuccessPrefix && m[|m| - |suffix|..] == suffix
       && Text.AllDigits(m[|SuccessPrefix|..|m| - |suffix|])
    then Some(Text.ParseDecimal(m[|SuccessPrefix|..|m| - |suffix|]))
    else None
  }

  /** The SELECT message reports the number of rows returned, none counting as zero. */
  lemma SelectMessageRoundTrip(rows: Option<seq<string>>)
    ensures MessageNumber(SelectMessage(rows), " rows") == Some(if rows.Some? then |rows.value| else 0)
  {
    var n := if rows.Some? then |rows.value| else 0;
    var m := SelectMessage(rows);
    assert m[|SuccessPrefix|..|m| - 5] == Text.Decimal(n);
    Text.ParseDecimalOfDecimal(n);
  }

  /** The COUNT message reports the count, and reports no number when the count is missing. */
  lemma CountMessageRoundTrip(count: Option<nat>)
    ensures MessageNumber(CountMessage(count), " total rows") == count
  {
    var m := CountMessage(count);
    if count.Some? {
      assert m[|SuccessPrefix|..|m| - 11] == Text.Decimal(count.value);
      Text.ParseDecimalOfDecimal(count.value);
    } else {
      assert m[|SuccessPrefix|..|m| - 11] == "null";
      assert !Text.IsDigit('n');
    }
  }

  /** The final SELECT line for a table. */
  function SelectResult(table: string, answer: Outcome<Option<seq<string>>>): (r: TestResult) {
    match answer
    case Success(rows) => TestResult(table, "SELECT", Succeeded, SelectMessage(rows), rows)
    case Failure(msg) => TestResult(table, "SELECT", Errored, msg, None)
  }

  /** The final COUNT line for a table. */
  function CountResult(table: string, answer: Outcome<Option<nat>>): (r: TestResult) {
    match answer
    case Success(n) => TestResult(table, "COUNT", Succeeded, CountMessage(n), None)
    case Failure(msg) => TestResult(table, "COUNT", Errored, msg, None)
  }

  /** The backend's answers for one table: the SELECT of one row, then the exact COUNT. */
  datatype TableAnswers = TableAnswers(select: Outcome<Option<seq<string>>>, count: Outcome<Option<nat>>)

  /** `testTableAccess`: each operation is shown as running, then overwritten with its outcome. */
  function TestTableAccess(results: seq<TestResult>, table: string, answers: TableAnswers): (r: seq<TestResult>)
  {
    var s := SelectResult(table, answers.select);
    var c := CountResult(table, answers.count);
    var r1 := UpdateResult(results, table, "SELECT", Running, "Testing...", None);
    var r2 := UpdateResult(r1, table, "SELECT", s.status, s.message, s.data);
    var r3 := UpdateResult(r2, table, "COUNT", Running, "Testing...", None);
    UpdateResult(r3, table, "COUNT", c.status, c.message, c.data)
  }

  /** No result belongs to the table. */
  predicate TableAbsent(results: seq<TestResult>, table: string) {
    forall i :: 0 <= i < |results| ==> results[i].table != table
  }

  /** Testing a table not yet in the list appends its SELECT line and then its COUNT line. */
  lemma TestTableAccessAppends(results: seq<TestResult>, table: string, answers: TableAnswers)
    requires TableAbsent(results, table)
    ensures TestTableAccess(results, table, answers) == results + [SelectResult(table, answers.select), CountResult(table, answers.count)]
  {
    var s := SelectResult(table, answers.select);
    var c := CountResult(table, answers.count);
    var r1 := UpdateResult(results, table, "SELECT", Running, "Testing...", None);
    assert r1 == results + [TestResult(table, "SELECT", Running, "Testing...", None)];
    assert ResultKey(r1[|results|]) == (table, "SELECT");
    var r2 := UpdateResult(r1, table, "SELECT", s.status, s.message, s.data);
    assert r2 == results + [s];
    assert !HasKey(r2, (table, "COUNT"), ResultKey) by {
      forall i | 0 <= i < |r2| ensures ResultKey(r2[i]) != (table, "COUNT") {
        if i < |results| { assert r2[i] == results[i]; }
      }
    }
    var r3 := UpdateResult(r2, table, "COUNT", Running, "Testing...", None);
    assert ResultKey(r3[|r2|]) == (table, "COUNT");
    assert UpdateResult(r3, table, "COUNT", c.status, c.message, c.data) == r2 + [c];
  }

  /** The tables the panel tests, in order. */
  const Tables: seq<string> := ["Track", "Album", "Playlist", "_PlaylistTracks", "_LikedTracks",
    "_LikedAlbums", "_LikedPlaylists", "Follow", "ArtistProfile", "Genre"]

  /** The ten table names differ from each other. */
  lemma TablesDistinct()
    ensures Seqs.Distinct(Tables)
  {
  }

  /** After testing the first `n` of `tables`: two lines per table, in order, none running. */
  ghost predicate RanFirst(tables: seq<string>, results: seq<TestResult>, n: nat, answers: seq<TableAnswers>) {
    && n <= |tables| && |answers| == |tables|
    && |results| == 2 * n
    && (forall i :: 0 <= i < n ==>
         results[2 * i] == SelectResult(tables[i], answers[i].select) && results[2 * i + 1] == CountResult(tables[i], answers[i].count))
    && (forall j :: 0 <= j < |results| ==> results[j].status != Running)
    && (forall j :: 0 <= j < |results| ==> results[j].table in tables[..n])
  }

  /** The next table has no line yet, because the names are distinct. */
  lemma NextTableAbsent(tables: seq<string>, results: seq<TestResult>, n: nat, answers: seq<TableAnswers>)
    requires Seqs.Distinct(tables) && n < |tables|
    requires RanFirst(tables, results, n, answers)
    ensures TableAbsent(results, tables[n])
  {
    forall j | 0 <= j < |results| ensures results[j].table != tables[n] {
      var i :| 0 <= i < n && tables[..n][i] == results[j].table;
      assert tables[i] != tables[n];
    }
  }

  /** One more table tested: its two final lines extend a run of the first `n` tables to the first `n + 1`. */
  lemma AppendTable(tables: seq<string>, results: seq<TestResult>, n: nat, answers: seq<TableAnswers>)
    requires n < |tables|
    requires RanFirst(tables, results, n, answers)
    ensures RanFirst(tables, results + [SelectResult(tables[n], answers[n].select), CountResult(tables[n], answers[n].count)], n + 1, answers)
  {
    var r := results + [SelectResult(tables[n], answers[n].select), CountResult(tables[n], answers[n].count)];
    assert tables[..n + 1] == tables[..n] + [tables[n]];
    forall i | 0 <= i < n + 1
      ensures r[2 * i] == SelectResult(tables[i], answers[i].select) && r[2 * i + 1] == CountResult(tables[i], answers[i].count)
    {
      if i < n {
        assert r[2 * i] == results[2 * i] && r[2 * i + 1] == results[2 * i + 1];
      }
    }
    forall j | 0 <= j < |r| ensures r[j].status != Running && r[j].table in tables[..n + 1] {
      if j < |results| {
        assert r[j] == results[j];
      }
    }
  }

  /** The loop of `runTests` over a list of distinct table names: start from an empty list and
      test each table in order, given the backend's answers for each. */
  method RunTables(tables: seq<string>, answers: seq<TableAnswers>) returns (results: seq<TestResult>)
    requires Seqs.Distinct(tables) && |answers| == |tables|
    ensures |results| == 2 * |tables|
    ensures forall i :: 0 <= i < |tables| ==>
      results[2 * i] == SelectResult(tables[i], answers[i].select) && results[2 * i + 1] == CountResult(tables[i], answers[i].count)
    ensures CountStatus(results, Running) == 0
  {
    results := [];
    var n := 0;
    while n < |tables|
      invariant RanFirst(tables, results, n, answers)
      decreases |tables| - n
    {
      NextTableAbsent(tables, results, n, answers);
      TestTableAccessAppends(results, tables[n], answers[n]);
      AppendTable(tables, results, n, answers);
      results := TestTableAccess(results, tables[n], answers[n]);
      n := n + 1;
    }
    NoneRunning(results);
  }

  /** `runTests` over the panel's ten tables. */
  method RunTests(answers: seq<TableAnswers>) returns (results: seq<TestResult>)
    requires |answers| == |Tables|
    ensures |results| == 2 * |Tables|
    ensures forall i :: 0 <= i < |Tables| ==>
      results[2 * i] == SelectResult(Tables[i], answers[i].select) && results[2 * i + 1] == CountResult(Tables[i], answers[i].count)
    ensures CountStatus(results, Running) == 0
  {
    TablesDistinct();
    results := RunTables(Tables, answers);
  }

  /** How many results have the status: the summary's three numbers. */
  function CountStatus(results: seq<TestResult>, s: Status): (n: nat)
    ensures n <= |results|
  {
    if |results| == 0 then 0
    else (if results[0].status == s then 1 else 0) + CountStatus(results[1..], s)
  }

  lemma {:induction false} NoneRunning(results: seq<TestResult>)
    requires forall j :: 0 <= j < |results| ==> results[j].status != Running
    ensures CountStatus(results, Running) == 0
    decreases |results|
  {
    if |results| > 0 {
      NoneRunning(results[1..]);
    }
  }

  /** The successful, failed and running counts add up to the number of results. */
  lemma {:induction false} StatusCountsSum(results: seq<TestResult>)
    ensures CountStatus(results, Succeeded) + CountStatus(results, Errored) + CountStatus(results, Running) == |results|
    decreases |results|
  {
    if |results| > 0 {
      StatusCountsSum(results[1..]);
    }
  }
}

=== FILE: feed.dfy ===
/** The social feed's string functions and action rules: the activity sentence, the avatar initials,
    and which buttons an activity shows. */
module Feed {
  import opened Outcomes
  import opened Catalog
  import Text

  /** The activity `type`; `Other` stands for any value outside the four the feed knows. */
  datatype ActivityKind = TrackLike | AlbumLike | PlaylistCreate | Follow | Other

  datatype Activity = Activity(id: string, kind: ActivityKind, userName: string, title: string, description: Option<string>)

  predicate Known(k: ActivityKind) { !k.Other? }

  const LikedPrefix := "liked \""
  const AlbumPrefix := "liked the album \""
  const PlaylistPrefix := "created playlist \""
  const FollowPrefix := "started following "

  /** `getActivityText`. */
  function ActivityText(a: Activity): (r: string)
    ensures a.kind == TrackLike ==> r == LikedPrefix + a.title + "\""
    ensures a.kind == AlbumLike ==> r == AlbumPrefix + a.title + "\""
    ensures a.kind == PlaylistCreate ==> r == PlaylistPrefix + a.title + "\""
    ensures a.kind == Follow ==> r == FollowPrefix + a.title
    ensures a.kind == Other && Truthy(a.description) ==> r == a.description.value
    ensures a.kind == Other && !Truthy(a.description) ==> r == ""
  {
    match a.kind
    case TrackLike => LikedPrefix + a.title + "\""
    case AlbumLike => AlbumPrefix + a.title + "\""
    case PlaylistCreate => PlaylistPrefix + a.title + "\""
    case Follow => FollowPrefix + a.title
    case Other => if Truthy(a.description) then a.description.value else ""
  }

  /** `text` is `prefix`, something, and a closing quote. */
  predicate QuotedWith(text: string, prefix: string) {
    |text| > |prefix| && Text.StartsWith(text, prefix) && text[|text| - 1] == '"'
  }

  /** Reads the kind and title back from a sentence. */
  function ReadActivityText(text: string): (r: Option<(ActivityKind, string)>)
    ensures r.Some? ==> Known(r.value.0)
  {
    if QuotedWith(text, LikedPrefix) then Some((TrackLike, text[|LikedPrefix|..|text| - 1]))
    else if QuotedWith(text, AlbumPrefix) then Some((AlbumLike, text[|AlbumPrefix|..|text| - 1]))
    else if QuotedWith(text, PlaylistPrefix) then Some((PlaylistCreate, text[|PlaylistPrefix|..|text| - 1]))
    else if Text.StartsWith(text, FollowPrefix) then Some((Follow, text[|FollowPrefix|..]))
    else None
  }

  /** For the four known kinds the sentence gives back the kind and the title: two activities with the
      same sentence have the same kind and title. */
  lemma ActivityTextRoundTrip(a: Activity)
    requires Known(a.kind)
    ensures ReadActivityText(ActivityText(a)) == Some((a.kind, a.title))
  {
    var t := ActivityText(a);
    match a.kind
    case TrackLike =>
      assert t[..|LikedPrefix|] == LikedPrefix;
    case AlbumLike =>
      assert t[..|AlbumPrefix|] == AlbumPrefix;
      assert t[6] != LikedPrefix[6];
    case PlaylistCreate =>
      assert t[..|PlaylistPrefix|] == PlaylistPrefix;
      assert t[0] != LikedPrefix[0] && t[0] != AlbumPrefix[0];
    case Follow =>
      assert t[..|FollowPrefix|] == FollowPrefix;
      assert t[0] != LikedPrefix[0] && t[0] != AlbumPrefix[0] && t[0] != PlaylistPrefix[0];
  }

  lemma ActivityTextInjective(a: Activity, b: Activity)
    requires Known(a.kind) && Known(b.kind)
    ensures ActivityText(a) == ActivityText(b) ==> a.kind == b.kind && a.title == b.title
  {
    ActivityTextRoundTrip(a);
    ActivityTextRoundTrip(b);
  }

  // ----- initials -----

  /** The first character of a word, or nothing for an empty word (`undefined` joins as ""). */
  function Initial(w: string): (r: string)
    ensures |r| <= 1 && (|w| > 0 ==> r == [w[0]])
  {
    if |w| > 0 then [w[0]] else []
  }

  /** `words.map(n => n[0]).join('')`. */
  function JoinInitials(ws: seq<string>): (r: string) {
    if |ws| == 0 then [] else Initial(ws[0]) + JoinInitials(ws[1..])
  }

  /** `userName.split(' ').map(n => n[0]).join('')`. */
  function Initials(name: string): (r: string)
    ensures forall i :: 0 <= i < |r| ==> r[i] != ' '
  {
    var ws := Text.SplitSpaces(name);
    NoSpaceInitials(ws);
    JoinInitials(ws)
  }

  lemma {:induction false} NoSpaceInitials(ws: seq<string>)
    requires forall i, j :: 0 <= i < |ws| && 0 <= j < |ws[i]| ==> ws[i][j] != ' '
    ensures forall k :: 0 <= k < |JoinInitials(ws)| ==> JoinInitials(ws)[k] != ' '
    decreases |ws|
  {
    if |ws| > 0 {
      NoSpaceInitials(ws[1..]);
      assert forall k :: 0 <= k < |Initial(ws[0])| ==> Initial(ws[0])[k] == ws[0][0];
    }
  }

  /** The characters that start a word: not a space, and first or after a space; `afterSpace` says
      whether the character before `s` was a space (or there was none). */
  function WordStarts(s: string, afterSpace: bool): (r: string)
  {
    if |s| == 0 then []
    else (if afterSpace && s[0] != ' ' then [s[0]] else []) + WordStarts(s[1..], s[0] == ' ')
  }

  /** The initials are exactly the characters that start a word. */
  lemma InitialsAreWordStarts(name: string)
    ensures Initials(name) == WordStarts(name, true)
  {
    SplitWordStarts(name);
  }

  lemma {:induction false} SplitWordStarts(s: string)
    ensures JoinInitials(Text.SplitSpaces(s)) == WordStarts(s, true)
    ensures JoinInitials(Text.SplitSpaces(s)[1..]) == WordStarts(s, false)
    decreases |s|
  {
    var ws := Text.SplitSpaces(s);
    if |s| == 0 {
      assert ws == [[]];
    } else {
      var rest := Text.SplitSpaces(s[1..]);
      SplitWordStarts(s[1..]);
      if s[0] == ' ' {
        assert ws == [[]] + rest;
        assert ws[1..] == rest;
      } else {
        assert ws == [[s[0]] + rest[0]] + rest[1..];
        assert ws[1..] == rest[1..];
      }
    }
  }

  /** Characters after a word start that hold no space add nothing. */
  lemma {:induction false} InsideWord(s: string)
    requires forall i :: 0 <= i < |s| ==> s[i] != ' '
    ensures WordStarts(s, false) == []
    decreases |s|
  {
    if |s| > 0 {
      InsideWord(s[1..]);
    }
  }

  /** A two-word name gives its two first letters. */
  lemma InitialsOfTwoWords(first: string, last: string)
    requires |first| > 0 && |last| > 0
    requires forall i :: 0 <= i < |first| ==> first[i] != ' '
    requires forall i :: 0 <= i < |last| ==> last[i] != ' '
    ensures Initials(first + " " + last) == [first[0], last[0]]
  {
    var s := first + " " + last;
    var tail := " " + last;
    InitialsAreWordStarts(s);
    assert s[0] == first[0] && s[1..] == first[1..] + tail;
    WordStartsAppend(first[1..], tail);
    assert tail[0] == ' ' && tail[1..] == last;
    assert WordStarts(tail, false) == WordStarts(last, true);
    InsideWord(last[1..]);
    assert WordStarts(last, true) == [last[0]] + WordStarts(last[1..], false);
  }

  /** Past a run without spaces, the word starts are those of the rest, as after a non-space. */
  lemma {:induction false} WordStartsAppend(a: string, b: string)
    requires forall i :: 0 <= i < |a| ==> a[i] != ' '
    ensures WordStarts(a + b, false) == WordStarts(b, false)
    decreases |a|
  {
    if |a| == 0 {
      assert a + b == b;
    } else {
      assert (a + b)[0] == a[0] && (a + b)[1..] == a[1..] + b;
      WordStartsAppend(a[1..], b);
    }
  }

  // ----- the action buttons -----

  /** Like, Comment and Share are shown for likes of tracks and albums. */
  function ShowsSocialActions(k: ActivityKind): (b: bool)
    ensures b <==> k in {TrackLike, AlbumLike}
  {
    k == TrackLike || k == AlbumLike
  }

  /** Play is shown for a liked track when the feed was given a play handler; it hands over the
      activity's own id. */
  function PlayArgument(a: Activity, hasHandler: bool): (r: Option<string>)
    ensures r.Some? <==> a.kind == TrackLike && hasHandler
    ensures r.Some? ==> r.value == a.id
  {
    if a.kind == TrackLike && hasHandler then Some(a.id) else None
  }

  /** Play only ever shows inside the row of social actions. */
  lemma PlayInsideSocialActions(a: Activity, hasHandler: bool)
    ensures PlayArgument(a, hasHandler).Some? ==> ShowsSocialActions(a.kind)
    ensures a.kind == AlbumLike ==> ShowsSocialActions(a.kind) && PlayArgument(a, hasHandler).None?
  {
  }
}

=== FILE: hymnnav.dfy ===
/** Verse navigation of the hymn display: the keys of presentation mode and which verse they ask for,
    and when the audio player is shown. */
module HymnNav {
  import opened Outcomes

  datatype Mode = Hymnal | Display

  /** The keys the handler reacts to; every other key is `OtherKey`. */
  datatype Key = ArrowRight | Space | ArrowLeft | Home | End | OtherKey

  /** The verse the keydown handler passes to `onVerseChange`, or `None` when it makes no call.
      `verses` is the number of verses of the hymn. */
  function VerseRequest(mode: Mode, verses: nat, current: int, key: Key): (r: Option<int>)
    ensures mode == Hymnal ==> r == None
    ensures key == OtherKey ==> r == None
    ensures mode == Display && (key == ArrowRight || key == Space) ==>
      (r.Some? <==> current < verses - 1) && (r.Some? ==> r.value == current + 1)
    ensures mode == Display && key == ArrowLeft ==>
      (r.Some? <==> current > 0) && (r.Some? ==> r.value == current - 1)
    ensures mode == Display && key == Home ==> r == Some(0)
    ensures mode == Display && key == End ==> r == Some(verses - 1)
  {
    if mode != Display then None
    else
      match key
      case ArrowRight => if current < verses - 1 then Some(current + 1) else None
      case Space => if current < verses - 1 then Some(current + 1) else None
      case ArrowLeft => if current > 0 then Some(current - 1) else None
      case Home => Some(0)
      case End => Some(verses - 1)
      case OtherKey => None
  }

  /** The verse shown after a key press, when the parent follows every request. */
  function AfterKey(mode: Mode, verses: nat, current: int, key: Key): (verse: int)
  {
    match VerseRequest(mode, verses, current, key)
    case Some(v) => v
    case None => current
  }

  /** From an in-range verse of a hymn with verses, no key leaves the range. */
  lemma NavigationStaysInRange(mode: Mode, verses: nat, current: int, key: Key)
    requires verses >= 1 && 0 <= current < verses
    ensures var r := VerseRequest(mode, verses, current, key); r.Some? ==> 0 <= r.value < verses
    ensures 0 <= AfterKey(mode, verses, current, key) < verses
  {
  }

  /** A hymn without verses: the End key asks for verse -1. */
  lemma EndWithoutVerses(current: int)
    ensures VerseRequest(Display, 0, current, End) == Some(-1)
  {
  }

  /** A step right that moved is undone by a step left. */
  lemma RightThenLeft(verses: nat, current: int)
    requires current >= 0 && VerseRequest(Display, verses, current, ArrowRight).Some?
    ensures AfterKey(Display, verses, AfterKey(Display, verses, current, ArrowRight), ArrowLeft) == current
  {
  }

  /** Verse reached by pressing ArrowRight `k` times from `current`. */
  function PressRight(verses: nat, current: int, k: nat): int
    decreases k
  {
    if k == 0 then current else PressRight(verses, AfterKey(Display, verses, current, ArrowRight), k - 1)
  }

  /** Pressing ArrowRight `k` times moves `k` verses on, stopping at the last one. */
  lemma {:induction false} PressRightReaches(verses: nat, current: nat, k: nat)
    requires verses >= 1 && current < verses
    ensures PressRight(verses, current, k) == if current + k < verses then current + k else verses - 1
    decreases k
  {
    if k > 0 {
      PressRightReaches(verses, AfterKey(Display, verses, current, ArrowRight), k - 1);
    }
  }

  /** The audio player is shown in hymnal mode, and in display mode unless lyrics-only is on. */
  function AudioPlayerVisible(mode: Mode, lyricsOnly: bool): (b: bool)
    ensures b <==> mode == Hymnal || !lyricsOnly
  {
    mode == Hymnal || (mode == Display && !lyricsOnly)
  }

  /** The lyrics-focus button exists only in display mode, where it flips the player's visibility. */
  lemma LyricsFocusHidesPlayer(lyricsOnly: bool)
    ensures AudioPlayerVisible(Display, !lyricsOnly) == !AudioPlayerVisible(Display, lyricsOnly)
    ensures AudioPlayerVisible(Hymnal, lyricsOnly)
  {
  }
}

=== FILE: interactions.dfy ===
/** The like and follow hook: four collections held as lists, each toggled by id. */
module Interactions {
  import opened Seqs
  import opened Keyed
  import opened Catalog

  datatype InteractionState = InteractionState(
    likedTracks: seq<Track>,
    likedAlbums: seq<Album>,
    likedPlaylists: seq<Playlist>,
    following: seq<string>,
    loading: bool)

  const InitialInteractions := InteractionState([], [], [], [], false)

  /** No collection holds two entries with the same id. */
  ghost predicate NoDuplicates(st: InteractionState) {
    && UniqueKeys(st.likedTracks, TrackId)
    && UniqueKeys(st.likedAlbums, AlbumId)
    && UniqueKeys(st.likedPlaylists, PlaylistId)
    && UniqueKeys(st.following, Identity)
  }

  predicate IsTrackLiked(st: InteractionState, id: string) { HasKey(st.likedTracks, id, TrackId) }
  predicate IsAlbumLiked(st: InteractionState, id: string) { HasKey(st.likedAlbums, id, AlbumId) }
  predicate IsPlaylistLiked(st: InteractionState, id: string) { HasKey(st.likedPlaylists, id, PlaylistId) }
  predicate IsFollowing(st: InteractionState, userId: string) { userId in st.following }

  /** `includes` is the identity-keyed lookup. */
  lemma FollowingIsKeyed(following: seq<string>, userId: string)
    ensures userId in following <==> HasKey(following, userId, Identity)
  {
    if userId in following {
      var i :| 0 <= i < |following| && following[i] == userId;
      assert Identity(following[i]) == userId;
    }
  }

  /** `toggleLikeTrack`: drop every liked track with the id, or append the track when none has it. */
  function ToggleLikeTrack(st: InteractionState, t: Track): (r: InteractionState)
    ensures !r.loading
    ensures r.likedAlbums == st.likedAlbums && r.likedPlaylists == st.likedPlaylists && r.following == st.following
    ensures IsTrackLiked(r, t.id) <==> !IsTrackLiked(st, t.id)
    ensures forall id :: id != t.id ==> (IsTrackLiked(r, id) <==> IsTrackLiked(st, id))
    ensures IsTrackLiked(st, t.id) ==> !HasKey(r.likedTracks, t.id, TrackId) && |r.likedTracks| < |st.likedTracks|
    ensures IsTrackLiked(st, t.id) ==>
      Subseq(r.likedTracks, st.likedTracks) && |r.likedTracks| == |st.likedTracks| - CountKey(st.likedTracks, t.id, TrackId)
    ensures !IsTrackLiked(st, t.id) ==> r.likedTracks == st.likedTracks + [t]
    ensures NoDuplicates(st) ==> NoDuplicates(r)
  {
    var r := Toggle(st.likedTracks, t, TrackId);
    assert TrackId(t) == t.id;
    if IsTrackLiked(st, t.id) then
      CountKeyPositive(st.likedTracks, t.id, TrackId);
      st.(likedTracks := r, loading := false)
    else
      st.(likedTracks := r, loading := false)
  }

  /** `toggleLikeAlbum`: the same toggle on the liked albums. */
  function ToggleLikeAlbum(st: InteractionState, a: Album): (r: InteractionState)
    ensures !r.loading
    ensures r.likedTracks == st.likedTracks && r.likedPlaylists == st.likedPlaylists && r.following == st.following
    ensures IsAlbumLiked(r, a.id) <==> !IsAlbumLiked(st, a.id)
    ensures forall id :: id != a.id ==> (IsAlbumLiked(r, id) <==> IsAlbumLiked(st, id))
    ensures IsAlbumLiked(st, a.id) ==>
      Subseq(r.likedAlbums, st.likedAlbums) && |r.likedAlbums| == |st.likedAlbums| - CountKey(st.likedAlbums, a.id, AlbumId)
    ensures !IsAlbumLiked(st, a.id) ==> r.likedAlbums == st.likedAlbums + [a]
    ensures NoDuplicates(st) ==> NoDuplicates(r)
  {
    assert AlbumId(a) == a.id;
    st.(likedAlbums := Toggle(st.likedAlbums, a, AlbumId), loading := false)
  }

  /** `toggleLikePlaylist`: the same toggle on the liked playlists. */
  function ToggleLikePlaylist(st: InteractionState, p: Playlist): (r: InteractionState)
    ensures !r.loading
    ensures r.likedTracks == st.likedTracks && r.likedAlbums == st.likedAlbums && r.following == st.following
    ensures IsPlaylistLiked(r, p.id) <==> !IsPlaylistLiked(st, p.id)
    ensures forall id :: id != p.id ==> (IsPlaylistLiked(r, id) <==> IsPlaylistLiked(st, id))
    ensures IsPlaylistLiked(st, p.id) ==>
      Subseq(r.likedPlaylists, st.likedPlaylists) && |r.likedPlaylists| == |st.likedPlaylists| - CountKey(st.likedPlaylists, p.id, PlaylistId)
    ensures !IsPlaylistLiked(st, p.id) ==> r.likedPlaylists == st.likedPlaylists + [p]
    ensures NoDuplicates(st) ==> NoDuplicates(r)
  {
    assert PlaylistId(p) == p.id;
    st.(likedPlaylists := Toggle(st.likedPlaylists, p, PlaylistId), loading := false)
  }

  /** `toggleFollowUser`: the same toggle on the followed user ids. */
  function ToggleFollowUser(st: InteractionState, userId: string): (r: InteractionState)
    ensures !r.loading
    ensures r.likedTracks == st.likedTracks && r.likedAlbums == st.likedAlbums && r.likedPlaylists == st.likedPlaylists
    ensures IsFollowing(r, userId) <==> !IsFollowing(st, userId)
    ensures forall u :: u != userId ==> (IsFollowing(r, u) <==> IsFollowing(st, u))
    ensures IsFollowing(st, userId) ==> userId !in r.following
    ensures IsFollowing(st, userId) ==>
      Subseq(r.following, st.following) && |r.following| == |st.following| - CountKey(st.following, userId, Identity)
    ensures !IsFollowing(st, userId) ==> r.following == st.following + [userId]
    ensures NoDuplicates(st) ==> NoDuplicates(r)
  {
    var r := Toggle(st.following, userId, Identity);
    assert Identity(userId) == userId;
    FollowingIsKeyed(st.following, userId);
    FollowingIsKeyed(r, userId);
    forall u | u != userId ensures u in r <==> u in st.following {
      FollowingIsKeyed(st.following, u);
      FollowingIsKeyed(r, u);
    }
    st.(following := r, loading := false)
  }

  /** Liking a track twice gives back whether it was liked, and exactly the list when it was not. */
  lemma ToggleLikeTrackTwice(st: InteractionState, t: Track)
    ensures IsTrackLiked(ToggleLikeTrack(ToggleLikeTrack(st, t), t), t.id) == IsTrackLiked(st, t.id)
    ensures !IsTrackLiked(st, t.id) ==> ToggleLikeTrack(ToggleLikeTrack(st, t), t) == st.(loading := false)
  {
    if !IsTrackLiked(st, t.id) {
      assert TrackId(t) == t.id;
      ToggleTwiceFromAbsent(st.likedTracks, t, TrackId);
    }
  }

  /** Following a user twice gives back whether they were followed, and exactly the list when they were not. */
  lemma ToggleFollowTwice(st: InteractionState, userId: string)
    ensures IsFollowing(ToggleFollowUser(ToggleFollowUser(st, userId), userId), userId) == IsFollowing(st, userId)
    ensures !IsFollowing(st, userId) ==> ToggleFollowUser(ToggleFollowUser(st, userId), userId) == st.(loading := false)
  {
    if !IsFollowing(st, userId) {
      FollowingIsKeyed(st.following, userId);
      assert Identity(userId) == userId;
      ToggleTwiceFromAbsent(st.following, userId, Identity);
    }
  }
}

=== FILE: keyed.dfy ===
/** Lists of records identified by a key (a track id, an album id, a user id).

    The application keeps favorites, likes, follows, recently-played tracks and
    playlists as plain arrays and looks records up with `some(x => key(x) === k)`,
    removes them with `filter(x => key(x) !== k)`, and toggles them with the two.
 */
module Keyed {
  import opened Seqs

  /** `s.some(x => key(x) === k)`. */
  predicate HasKey<T, K(==)>(s: seq<T>, k: K, key: T -> K) {
    exists i :: 0 <= i < |s| && key(s[i]) == k
  }

  /** No two elements share a key. */
  ghost predicate UniqueKeys<T, K>(s: seq<T>, key: T -> K) {
    forall i, j :: 0 <= i < j < |s| ==> key(s[i]) != key(s[j])
  }

  /** The first two elements of a list with unique keys have different keys. */
  lemma UniqueHead<T, K>(s: seq<T>, key: T -> K)
    requires UniqueKeys(s, key)
    ensures |s| >= 2 ==> key(s[0]) != key(s[1])
  {
  }

  /** Number of elements whose key is `k`. */
  function CountKey<T, K(==)>(s: seq<T>, k: K, key: T -> K): (n: nat)
    ensures n <= |s|
    ensures n == 0 <==> !HasKey(s, k, key)
  {
    if |s| == 0 then 0
    else (if key(s[0]) == k then 1 else 0) + CountKey(s[1..], k, key)
  }

  /** A key that occurs is counted at least once. */
  lemma CountKeyPositive<T, K>(s: seq<T>, k: K, key: T -> K)
    requires HasKey(s, k, key)
    ensures CountKey(s, k, key) > 0
  {
  }

  /** The identity key, for lists of plain strings such as the search history or the followed user ids. */
  function Identity<T>(x: T): T { x }

  /** `s.filter(x => key(x) !== k)`: every element with key `k` goes, the others stay in order. */
  function RemoveKey<T, K(==)>(s: seq<T>, k: K, key: T -> K): (r: seq<T>)
    ensures !HasKey(r, k, key)
    ensures Subseq(r, s)
    ensures forall i :: 0 <= i < |s| && key(s[i]) != k ==> s[i] in r
    ensures |r| == |s| - CountKey(s, k, key)
    ensures !HasKey(s, k, key) ==> r == s
  {
    if |s| == 0 then []
    else
      var rest := RemoveKey(s[1..], k, key);
      if key(s[0]) == k then rest else [s[0]] + rest
  }

  /** Deleting elements cannot create two elements with the same key. */
  lemma {:induction false} SubseqUniqueKeys<T, K>(a: seq<T>, b: seq<T>, key: T -> K)
    requires Subseq(a, b) && UniqueKeys(b, key)
    ensures UniqueKeys(a, key)
    decreases |b|
  {
    if |a| > 0 {
      if a[0] == b[0] && Subseq(a[1..], b[1..]) {
        SubseqUniqueKeys(a[1..], b[1..], key);
        SubseqMembers(a[1..], b[1..]);
        forall j | 0 < j < |a| ensures key(a[0]) != key(a[j]) {
          assert a[j] in a[1..];
          var m :| 0 <= m < |b[1..]| && b[1..][m] == a[j];
          assert b[m + 1] == a[j];
        }
      } else {
        SubseqUniqueKeys(a, b[1..], key);
      }
    }
  }

  /** Removing a key keeps the keys of a list unique. */
  lemma RemoveKeyUnique<T, K>(s: seq<T>, k: K, key: T -> K)
    ensures UniqueKeys(s, key) ==> UniqueKeys(RemoveKey(s, k, key), key)
  {
    if UniqueKeys(s, key) {
      SubseqUniqueKeys(RemoveKey(s, k, key), s, key);
    }
  }

  /** Keys other than `k` are present after the removal exactly when they were before. */
  lemma {:induction false} RemoveKeyKeepsOtherKeys<T, K>(s: seq<T>, k: K, key: T -> K, k': K)
    requires k' != k
    ensures HasKey(RemoveKey(s, k, key), k', key) <==> HasKey(s, k', key)
  {
    var r := RemoveKey(s, k, key);
    SubseqMembers(r, s);
    if HasKey(s, k', key) {
      var i :| 0 <= i < |s| && key(s[i]) == k';
      var j :| 0 <= j < |r| && r[j] == s[i];
      assert key(r[j]) == k';
    }
    if HasKey(r, k', key) {
      var j :| 0 <= j < |r| && key(r[j]) == k';
      assert r[j] in s;
      var i :| 0 <= i < |s| && s[i] == r[j];
      assert key(s[i]) == k';
    }
  }

  /** The like/follow toggle: drop every element with the item's key if there is one, else append the item. */
  function Toggle<T, K(==,!new)>(s: seq<T>, item: T, key: T -> K): (r: seq<T>)
    ensures HasKey(r, key(item), key) <==> !HasKey(s, key(item), key)
    ensures forall k :: k != key(item) ==> (HasKey(r, k, key) <==> HasKey(s, k, key))
    ensures HasKey(s, key(item), key) ==> Subseq(r, s) && |r| == |s| - CountKey(s, key(item), key)
    ensures !HasKey(s, key(item), key) ==> r == s + [item]
    ensures UniqueKeys(s, key) ==> UniqueKeys(r, key)
  {
    if HasKey(s, key(item), key) then
      var r := RemoveKey(s, key(item), key);
      RemoveKeyUnique(s, key(item), key);
      forall k | k != key(item) ensures HasKey(r, k, key) <==> HasKey(s, k, key) {
        RemoveKeyKeepsOtherKeys(s, key(item), key, k);
      }
      r
    else
      var r := s + [item];
      assert HasKey(r, key(item), key) by { assert key(r[|s|]) == key(item); }
      AppendAbsentUnique(s, item, key);
      forall k | k != key(item) ensures HasKey(r, k, key) <==> HasKey(s, k, key) {
        if HasKey(r, k, key) {
          var i :| 0 <= i < |r| && key(r[i]) == k;
          assert i < |s|;
        }
        if HasKey(s, k, key) {
          var i :| 0 <= i < |s| && key(s[i]) == k;
          assert key(r[i]) == k;
        }
      }
      r
  }

  /** Appending an item whose key is absent keeps the keys unique. */
  lemma AppendAbsentUnique<T, K>(s: seq<T>, item: T, key: T -> K)
    requires !HasKey(s, key(item), key)
    ensures UniqueKeys(s, key) ==> UniqueKeys(s + [item], key)
  {
  }

  /** Toggling the same item twice restores whether its key is present. */
  lemma ToggleTwiceRestoresMembership<T, K(!new)>(s: seq<T>, item: T, key: T -> K)
    ensures HasKey(Toggle(Toggle(s, item, key), item, key), key(item), key) == HasKey(s, key(item), key)
  {
  }

  /** When the item was absent, toggling it twice gives back exactly the original list. */
  lemma {:induction false} ToggleTwiceFromAbsent<T, K(!new)>(s: seq<T>, item: T, key: T -> K)
    requires !HasKey(s, key(item), key)
    ensures Toggle(Toggle(s, item, key), item, key) == s
  {
    var once := s + [item];
    assert key(once[|s|]) == key(item);
    RemoveKeyAppend(s, item, key);
  }

  /** Removing the key of an item just appended to a list without that key gives the list back. */
  lemma {:induction false} RemoveKeyAppend<T, K>(s: seq<T>, item: T, key: T -> K)
    requires !HasKey(s, key(item), key)
    ensures RemoveKey(s + [item], key(item), key) == s
    decreases |s|
  {
    if |s| == 0 {
      assert [item][1..] == [];
    } else {
      assert (s + [item])[1..] == s[1..] + [item];
      forall i | 0 <= i < |s[1..]| ensures key(s[1..][i]) != key(item) {
        assert s[1..][i] == s[i + 1];
      }
      RemoveKeyAppend(s[1..], item, key);
      assert key(s[0]) != key(item);
    }
  }

  /** Number of elements whose key is `k` in a list extended at the end. */
  lemma {:induction false} CountKeyAppend<T, K>(s: seq<T>, x: T, k: K, key: T -> K)
    ensures CountKey(s + [x], k, key) == CountKey(s, k, key) + (if key(x) == k then 1 else 0)
    decreases |s|
  {
    if |s| > 0 {
      assert (s + [x])[1..] == s[1..] + [x];
      CountKeyAppend(s[1..], x, k, key);
    } else {
      assert [x][1..] == [];
    }
  }

  /** `[x, ...s.filter(y => key(y) !== key(x))].slice(0, limit)`: `x` moves to the front,
      other elements with its key go, and the list is cut to `limit` entries. */
  function MoveToFront<T, K(==)>(s: seq<T>, x: T, key: T -> K, limit: nat): (r: seq<T>)
    requires limit >= 1
    ensures 1 <= |r| <= limit && r[0] == x
    ensures forall i :: 1 <= i < |r| ==> key(r[i]) != key(x)
    ensures r[1..] <= RemoveKey(s, key(x), key)
    ensures Subseq(r[1..], s)
    ensures |r| == if |s| - CountKey(s, key(x), key) + 1 <= limit then |s| - CountKey(s, key(x), key) + 1 else limit
    ensures UniqueKeys(s, key) ==> UniqueKeys(r, key)
  {
    MoveToFrontShape(s, x, key, limit);
    MoveToFrontUnique(s, x, key, limit);
    Take([x] + RemoveKey(s, key(x), key), limit)
  }

  /** The shape of `MoveToFront`'s result: the item first, then a prefix of the list without its key. */
  lemma MoveToFrontShape<T, K>(s: seq<T>, x: T, key: T -> K, limit: nat)
    requires limit >= 1
    ensures var rest := RemoveKey(s, key(x), key);
      var r := Take([x] + rest, limit);
      && 1 <= |r| <= limit && r[0] == x
      && (forall i :: 1 <= i < |r| ==> key(r[i]) != key(x))
      && r[1..] <= rest
      && Subseq(r[1..], s)
  {
    var rest := RemoveKey(s, key(x), key);
    var r := Take([x] + rest, limit);
    assert r[1..] == rest[..|r| - 1];
    PrefixOfSubseq(rest, s, |r| - 1);
    forall i | 1 <= i < |r| ensures key(r[i]) != key(x) {
      assert r[i] == rest[i - 1];
    }
  }

  /** `MoveToFront` keeps the keys of a list unique. */
  lemma MoveToFrontUnique<T, K>(s: seq<T>, x: T, key: T -> K, limit: nat)
    ensures UniqueKeys(s, key) ==> UniqueKeys(Take([x] + RemoveKey(s, key(x), key), limit), key)
  {
    if UniqueKeys(s, key) {
      var rest := RemoveKey(s, key(x), key);
      RemoveKeyUnique(s, key(x), key);
      assert UniqueKeys([x] + rest, key);
      SubseqRefl([x] + rest);
      PrefixOfSubseq([x] + rest, [x] + rest, |Take([x] + rest, limit)|);
      SubseqUniqueKeys(Take([x] + rest, limit), [x] + rest, key);
    }
  }

  /** With the identity key, unique keys means no repeated element. */
  lemma IdentityUnique<T>(s: seq<T>)
    ensures UniqueKeys(s, Identity) <==> Distinct(s)
  {
  }
}

=== FILE: library.dfy ===
/** The music-library hook: tracks and albums shaped from the `Track` and
    `Album` tables, albums given their tracks, artists grouped from the tracks,
    and the favorites and recently-played lists.
 */
module Library {
  import opened Outcomes
  import opened Seqs
  import opened Keyed
  import opened Catalog

  /** The constants the hook writes into every track it shapes. */
  const LibraryArtist := "HBC Hymns"
  const PlaceholderDuration := "3:45"
  const LibraryAlbum := "HBC Collection"

  /** How many tracks seed the recently-played list, and how many it keeps. */
  const InitialRecentCount := 10
  const RecentLimit := 20

  function FormatTrack(row: TrackRow): Track {
    Track(row.id, row.title, LibraryArtist, row.url, Some(PlaceholderDuration), row.hymnTitleNumber, Some(LibraryAlbum), row.albumId)
  }

  /** A shaped track carries the library constants and keeps what identifies the row. */
  predicate ShapedFrom(t: Track, row: TrackRow) {
    && t.id == row.id && t.title == row.title && t.url == row.url
    && t.hymnNumber == row.hymnTitleNumber && t.albumId == row.albumId
    && t.artist == LibraryArtist && t.duration == Some(PlaceholderDuration) && t.album == Some(LibraryAlbum)
  }

  function FormatTracks(rows: seq<TrackRow>): (ts: seq<Track>)
    ensures |ts| == |rows| && forall i :: 0 <= i < |rows| ==> ShapedFrom(ts[i], rows[i])
  {
    seq(|rows|, i requires 0 <= i < |rows| => FormatTrack(rows[i]))
  }

  function TrackArtist(t: Track): string { t.artist }
  function ArtistName(a: Artist): string { a.name }

  // ----- albums -----

  /** `tracksFormatted.filter(track => track.albumId === album.id)`. */
  function TracksOfAlbum(tracks: seq<Track>, albumId: string): (r: seq<Track>)
    ensures Subseq(r, tracks)
    ensures forall i :: 0 <= i < |r| ==> r[i].albumId == Some(albumId)
    ensures forall i :: 0 <= i < |tracks| && tracks[i].albumId == Some(albumId) ==> tracks[i] in r
    ensures forall t :: multiset(r)[t] == if t.albumId == Some(albumId) then multiset(tracks)[t] else 0
  {
    var inAlbum := (t: Track) => t.albumId == Some(albumId);
    forall t ensures multiset(Filter(tracks, inAlbum))[t] == if inAlbum(t) then multiset(tracks)[t] else 0 {
      FilterMultiplicity(tracks, inAlbum, t);
    }
    Filter(tracks, inAlbum)
  }

  /** An album row with its tracks attached and counted. */
  function AttachTracks(row: AlbumRow, tracks: seq<Track>): (a: Album)
    ensures a.id == row.id && a.title == row.title && a.coverImage == row.coverImage && a.artist == LibraryArtist
    ensures a.trackCount == |a.tracks|
    ensures Subseq(a.tracks, tracks)
    ensures forall i :: 0 <= i < |a.tracks| ==> a.tracks[i].albumId == Some(row.id)
    ensures forall i :: 0 <= i < |tracks| && tracks[i].albumId == Some(row.id) ==> tracks[i] in a.tracks
    ensures forall t :: multiset(a.tracks)[t] == if t.albumId == Some(row.id) then multiset(tracks)[t] else 0
  {
    var ts := TracksOfAlbum(tracks, row.id);
    Album(row.id, row.title, LibraryArtist, row.coverImage, |ts|, ts)
  }

  function AttachAll(rows: seq<AlbumRow>, tracks: seq<Track>): (albums: seq<Album>)
    ensures |albums| == |rows|
    ensures forall i :: 0 <= i < |rows| ==> albums[i] == AttachTracks(rows[i], tracks)
  {
    seq(|rows|, i requires 0 <= i < |rows| => AttachTracks(rows[i], tracks))
  }

  // ----- artists -----

  /** Index of the entry named `name`, or -1 (the `artistMap.has` / `get` lookup). */
  function FindArtist(groups: seq<Artist>, name: string): (i: int)
    ensures -1 <= i < |groups|
    ensures i >= 0 ==> groups[i].name == name
    ensures i < 0 <==> !HasKey(groups, name, ArtistName)
  {
    if |groups| == 0 then -1
    else if groups[|groups| - 1].name == name then |groups| - 1
    else
      var i := FindArtist(groups[..|groups| - 1], name);
      assert HasKey(groups, name, ArtistName) ==> HasKey(groups[..|groups| - 1], name, ArtistName) by {
        if HasKey(groups, name, ArtistName) {
          var k :| 0 <= k < |groups| && ArtistName(groups[k]) == name;
          assert groups[..|groups| - 1][k] == groups[k];
        }
      }
      assert i >= 0 ==> ArtistName(groups[i]) == name;
      i
  }

  /** The album names a track contributes to its artist entry: its album when truthy. */
  function AlbumOf(t: Track): seq<string> {
    if Truthy(t.album) then [t.album.value] else []
  }

  /** One step of the grouping loop: count the track for its artist, creating the entry on first sight. */
  function AddTrackToArtists(groups: seq<Artist>, t: Track): seq<Artist>
  {
    var i := FindArtist(groups, t.artist);
    if i < 0 then groups + [Artist(t.artist, 1, AlbumOf(t))]
    else
      var g := groups[i];
      var albums := if Truthy(t.album) && t.album.value !in g.albums then g.albums + [t.album.value] else g.albums;
      groups[i := Artist(g.name, g.trackCount + 1, albums)]
  }

  /** `Array.from(artistMap.values())` after the grouping loop over the tracks. */
  function GroupArtists(tracks: seq<Track>): seq<Artist>
  {
    if |tracks| == 0 then [] else AddTrackToArtists(GroupArtists(tracks[..|tracks| - 1]), tracks[|tracks| - 1])
  }

  function SumTrackCounts(groups: seq<Artist>): nat
  {
    if |groups| == 0 then 0 else groups[0].trackCount + SumTrackCounts(groups[1..])
  }

  /** `a` is the truthy album of a track by `name`. */
  ghost predicate AlbumByArtist(tracks: seq<Track>, name: string, a: string) {
    exists k :: 0 <= k < |tracks| && tracks[k].artist == name && Truthy(tracks[k].album) && tracks[k].album.value == a
  }

  /** Every entry names an artist of some track. */
  ghost predicate NamesFromTracks(groups: seq<Artist>, tracks: seq<Track>) {
    forall i :: 0 <= i < |groups| ==> HasKey(tracks, groups[i].name, TrackArtist)
  }

  /** Every track's artist has an entry. */
  ghost predicate TracksHaveEntries(groups: seq<Artist>, tracks: seq<Track>) {
    forall k :: 0 <= k < |tracks| ==> HasKey(groups, tracks[k].artist, ArtistName)
  }

  /** Each entry counts the tracks of its artist. */
  ghost predicate CountsMatch(groups: seq<Artist>, tracks: seq<Track>) {
    forall i :: 0 <= i < |groups| ==> groups[i].trackCount == CountKey(tracks, groups[i].name, TrackArtist)
  }

  /** Each entry lists, once each, exactly the truthy album names of its artist's tracks. */
  ghost predicate AlbumsMatch(groups: seq<Artist>, tracks: seq<Track>) {
    && (forall i :: 0 <= i < |groups| ==> Distinct(groups[i].albums))
    && (forall i, a :: 0 <= i < |groups| ==> (a in groups[i].albums <==> AlbumByArtist(tracks, groups[i].name, a)))
  }

  /** What the artist grouping promises. */
  ghost predicate GroupedFrom(groups: seq<Artist>, tracks: seq<Track>) {
    && UniqueKeys(groups, ArtistName)
    && NamesFromTracks(groups, tracks)
    && TracksHaveEntries(groups, tracks)
    && CountsMatch(groups, tracks)
    && AlbumsMatch(groups, tracks)
    && SumTrackCounts(groups) == |tracks|
  }

  lemma {:induction false} SumTrackCountsAppend(groups: seq<Artist>, g: Artist)
    ensures SumTrackCounts(groups + [g]) == SumTrackCounts(groups) + g.trackCount
    decreases |groups|
  {
    if |groups| > 0 {
      assert (groups + [g])[1..] == groups[1..] + [g];
      SumTrackCountsAppend(groups[1..], g);
    } else {
      assert [g][1..] == [];
    }
  }

  lemma {:induction false} SumTrackCountsUpdate(groups: seq<Artist>, i: nat, g: Artist)
    requires i < |groups|
    ensures SumTrackCounts(groups[i := g]) == SumTrackCounts(groups) - groups[i].trackCount + g.trackCount
    decreases |groups|
  {
    if i > 0 {
      assert groups[i := g][1..] == groups[1..][i - 1 := g];
      SumTrackCountsUpdate(groups[1..], i - 1, g);
    } else {
      assert groups[i := g][1..] == groups[1..];
    }
  }

  /** The grouping yields one entry per distinct artist name, counts that sum to the number of tracks,
      and per artist the distinct truthy album names of its tracks. */
  lemma {:induction false} GroupArtistsCorrect(tracks: seq<Track>)
    ensures GroupedFrom(GroupArtists(tracks), tracks)
  {
    if |tracks| > 0 {
      var n := |tracks| - 1;
      var pre := tracks[..n];
      var t := tracks[n];
      GroupArtistsCorrect(pre);
      AddTrackPreserves(GroupArtists(pre), pre, t);
      assert pre + [t] == tracks;
    }
  }

  lemma AddTrackPreserves(groups: seq<Artist>, pre: seq<Track>, t: Track)
    requires GroupedFrom(groups, pre)
    ensures GroupedFrom(AddTrackToArtists(groups, t), pre + [t])
  {
    AddTrackNames(groups, pre, t);
    AddTrackCounts(groups, pre, t);
    AddTrackAlbums(groups, pre, t);
    AddTrackSum(groups, pre, t);
  }

  /** The entry touched by a step is the found one, or a new last one; the others are untouched. */
  lemma AddTrackShape(groups: seq<Artist>, t: Track)
    ensures var r := AddTrackToArtists(groups, t);
      var i := FindArtist(groups, t.artist);
      && (i < 0 ==> |r| == |groups| + 1 && r[..|groups|] == groups && r[|groups|].name == t.artist)
      && (i >= 0 ==> |r| == |groups| && r[i].name == t.artist && forall j :: 0 <= j < |groups| && j != i ==> r[j] == groups[j])
  {
  }

  lemma AddTrackNames(groups: seq<Artist>, pre: seq<Track>, t: Track)
    requires UniqueKeys(groups, ArtistName) && NamesFromTracks(groups, pre) && TracksHaveEntries(groups, pre)
    ensures var r := AddTrackToArtists(groups, t);
      UniqueKeys(r, ArtistName) && NamesFromTracks(r, pre + [t]) && TracksHaveEntries(r, pre + [t])
  {
    AddTrackUnique(groups, t);
    AddTrackNamesFromTracks(groups, pre, t);
    AddTrackEntries(groups, pre, t);
  }

  lemma AddTrackUnique(groups: seq<Artist>, t: Track)
    requires UniqueKeys(groups, ArtistName)
    ensures UniqueKeys(AddTrackToArtists(groups, t), ArtistName)
  {
    AddTrackShape(groups, t);
    if FindArtist(groups, t.artist) < 0 {
      assert forall j :: 0 <= j < |groups| ==> ArtistName(groups[j]) != t.artist;
    }
  }

  lemma AddTrackNamesFromTracks(groups: seq<Artist>, pre: seq<Track>, t: Track)
    requires NamesFromTracks(groups, pre)
    ensures NamesFromTracks(AddTrackToArtists(groups, t), pre + [t])
  {
    var tracks := pre + [t];
    var r := AddTrackToArtists(groups, t);
    AddTrackShape(groups, t);
    forall j | 0 <= j < |r| ensures HasKey(tracks, r[j].name, TrackArtist) {
      if j < |groups| {
        var k :| 0 <= k < |pre| && TrackArtist(pre[k]) == groups[j].name;
        assert tracks[k] == pre[k];
        assert r[j].name == groups[j].name;
      } else {
        assert TrackArtist(tracks[|pre|]) == r[j].name;
      }
    }
  }

  lemma AddTrackEntries(groups: seq<Artist>, pre: seq<Track>, t: Track)
    requires TracksHaveEntries(groups, pre)
    ensures TracksHaveEntries(AddTrackToArtists(groups, t), pre + [t])
  {
    var tracks := pre + [t];
    var r := AddTrackToArtists(groups, t);
    var i := FindArtist(groups, t.artist);
    AddTrackShape(groups, t);
    forall k | 0 <= k < |tracks| ensures HasKey(r, tracks[k].artist, ArtistName) {
      if k < |pre| {
        assert tracks[k] == pre[k];
        var j :| 0 <= j < |groups| && ArtistName(groups[j]) == pre[k].artist;
        assert ArtistName(r[j]) == pre[k].artist;
      } else if i < 0 {
        assert ArtistName(r[|groups|]) == t.artist;
      } else {
        assert ArtistName(r[i]) == t.artist;
      }
    }
  }

  lemma AddTrackCounts(groups: seq<Artist>, pre: seq<Track>, t: Track)
    requires UniqueKeys(groups, ArtistName) && CountsMatch(groups, pre) && TracksHaveEntries(groups, pre)
    ensures CountsMatch(AddTrackToArtists(groups, t), pre + [t])
  {
    var tracks := pre + [t];
    var r := AddTrackToArtists(groups, t);
    var i := FindArtist(groups, t.artist);
    AddTrackShape(groups, t);
    forall j | 0 <= j < |r| ensures r[j].trackCount == CountKey(tracks, r[j].name, TrackArtist) {
      CountKeyAppend(pre, t, r[j].name, TrackArtist);
      if j == |groups| {
        forall k | 0 <= k < |pre| ensures pre[k].artist != t.artist {
          assert HasKey(groups, pre[k].artist, ArtistName);
        }
      }
    }
  }

  lemma AddTrackAlbums(groups: seq<Artist>, pre: seq<Track>, t: Track)
    requires UniqueKeys(groups, ArtistName) && AlbumsMatch(groups, pre) && TracksHaveEntries(groups, pre)
    ensures AlbumsMatch(AddTrackToArtists(groups, t), pre + [t])
  {
    var tracks := pre + [t];
    var r := AddTrackToArtists(groups, t);
    var i := FindArtist(groups, t.artist);
    AddTrackShape(groups, t);
    forall name, a ensures AlbumByArtist(tracks, name, a) <==> AlbumByArtist(pre, name, a) || (t.artist == name && a in AlbumOf(t)) {
      if AlbumByArtist(tracks, name, a) {
        var k :| 0 <= k < |tracks| && tracks[k].artist == name && Truthy(tracks[k].album) && tracks[k].album.value == a;
        if k < |pre| { assert tracks[k] == pre[k]; }
      }
      if AlbumByArtist(pre, name, a) {
        var k :| 0 <= k < |pre| && pre[k].artist == name && Truthy(pre[k].album) && pre[k].album.value == a;
        assert tracks[k] == pre[k];
      }
      if t.artist == name && a in AlbumOf(t) {
        assert tracks[|pre|] == t;
      }
    }
    if i < 0 {
      forall a ensures !AlbumByArtist(pre, t.artist, a) {
        forall k | 0 <= k < |pre| ensures pre[k].artist != t.artist {
          assert HasKey(groups, pre[k].artist, ArtistName);
        }
      }
    } else {
      var g := groups[i];
      var albums := if Truthy(t.album) && t.album.value !in g.albums then g.albums + [t.album.value] else g.albums;
      assert forall a :: a in albums <==> a in g.albums || a in AlbumOf(t);
    }
  }

  lemma AddTrackSum(groups: seq<Artist>, pre: seq<Track>, t: Track)
    requires SumTrackCounts(groups) == |pre|
    ensures SumTrackCounts(AddTrackToArtists(groups, t)) == |pre + [t]|
  {
    var i := FindArtist(groups, t.artist);
    if i < 0 {
      SumTrackCountsAppend(groups, Artist(t.artist, 1, AlbumOf(t)));
    } else {
      var g := groups[i];
      var albums := if Truthy(t.album) && t.album.value !in g.albums then g.albums + [t.album.value] else g.albums;
      SumTrackCountsUpdate(groups, i, Artist(g.name, g.trackCount + 1, albums));
    }
  }

  // ----- favorites and recently played -----

  /** `addToFavorites`: prepend the track unless a favorite with its id exists. */
  function AddToFavorites(favorites: seq<Track>, t: Track): (r: seq<Track>)
    ensures HasKey(r, t.id, TrackId)
    ensures HasKey(favorites, t.id, TrackId) ==> r == favorites
    ensures !HasKey(favorites, t.id, TrackId) ==> |r| == |favorites| + 1 && r[0] == t && r[1..] == favorites
    ensures UniqueKeys(favorites, TrackId) ==> UniqueKeys(r, TrackId)
  {
    if HasKey(favorites, t.id, TrackId) then favorites
    else
      assert TrackId(([t] + favorites)[0]) == t.id;
      [t] + favorites
  }

  /** Adding a favorite twice is adding it once. */
  lemma AddToFavoritesIdempotent(favorites: seq<Track>, t: Track)
    ensures AddToFavorites(AddToFavorites(favorites, t), t) == AddToFavorites(favorites, t)
  {
  }

  /** `removeFromFavorites`: every favorite with the id goes, the rest keep their order. */
  function RemoveFromFavorites(favorites: seq<Track>, id: string): (r: seq<Track>)
    ensures !HasKey(r, id, TrackId)
    ensures Subseq(r, favorites)
    ensures forall i :: 0 <= i < |favorites| && favorites[i].id != id ==> favorites[i] in r
    ensures |r| == |favorites| - CountKey(favorites, id, TrackId)
  {
    RemoveKey(favorites, id, TrackId)
  }

  /** Removing a favorite that was just added gives the original list back. */
  lemma AddThenRemoveFavorite(favorites: seq<Track>, t: Track)
    requires !HasKey(favorites, t.id, TrackId)
    ensures RemoveFromFavorites(AddToFavorites(favorites, t), t.id) == favorites
  {
    assert TrackId(t) == t.id;
  }

  /** `addToRecentlyPlayed`: the track goes first, followed by the earlier tracks with another id, in order,
      as many of them as fit in twenty entries. */
  function AddToRecentlyPlayed(recent: seq<Track>, t: Track): (r: seq<Track>)
    ensures 1 <= |r| <= RecentLimit && r[0] == t
    ensures forall i :: 1 <= i < |r| ==> r[i].id != t.id
    ensures r[1..] <= RemoveKey(recent, t.id, TrackId)
    ensures Subseq(r[1..], recent)
    ensures |r| == Min(|recent| - CountKey(recent, t.id, TrackId) + 1, RecentLimit)
    ensures UniqueKeys(recent, TrackId) ==> UniqueKeys(r, TrackId)
  {
    assert TrackId(t) == t.id;
    MoveToFront(recent, t, TrackId, RecentLimit)
  }

  // ----- the hook's state -----

  datatype LibraryState = LibraryState(
    tracks: seq<Track>,
    albums: seq<Album>,
    artists: seq<Artist>,
    recentlyPlayed: seq<Track>,
    favorites: seq<Track>,
    loading: bool)

  /** `fetchLibrary`, given the answers of the `Track` and `Album` queries.
      The tracks are stored before the albums are asked for, so an album failure keeps the new tracks. */
  function FetchLibrary(st: LibraryState, trackRes: Outcome<seq<TrackRow>>, albumRes: Outcome<seq<AlbumRow>>): (r: LibraryState)
    ensures !r.loading && r.favorites == st.favorites
    ensures trackRes.Failure? ==> r == st.(loading := false)
    ensures trackRes.Success? ==>
      |r.tracks| == |trackRes.data| && forall i :: 0 <= i < |r.tracks| ==> ShapedFrom(r.tracks[i], trackRes.data[i])
    ensures trackRes.Success? && albumRes.Failure? ==>
      r.albums == st.albums && r.artists == st.artists && r.recentlyPlayed == st.recentlyPlayed
    ensures trackRes.Success? && albumRes.Success? ==>
      && |r.albums| == |albumRes.data|
      && r.albums == AttachAll(albumRes.data, r.tracks)
      && (forall i :: 0 <= i < |r.albums| ==> r.albums[i].id == albumRes.data[i].id && r.albums[i].trackCount == |r.albums[i].tracks|)
      && GroupedFrom(r.artists, r.tracks)
      && r.recentlyPlayed == Take(r.tracks, InitialRecentCount)
  {
    match trackRes
    case Failure(_) => st.(loading := false)
    case Success(rows) =>
      var tracks := FormatTracks(rows);
      match albumRes
      case Failure(_) => st.(tracks := tracks, loading := false)
      case Success(albumRows) =>
        GroupArtistsCorrect(tracks);
        st.(tracks := tracks, albums := AttachAll(albumRows, tracks), artists := GroupArtists(tracks),
            recentlyPlayed := Take(tracks, InitialRecentCount), loading := false)
  }

  /** Since every shaped track has the same artist and album, a successful fetch yields a single artist
      entry (none for an empty table) holding every track and the one album name. */
  lemma {:induction false} FetchedLibraryHasOneArtist(st: LibraryState, rows: seq<TrackRow>, albumRows: seq<AlbumRow>)
    ensures var r := FetchLibrary(st, Success(rows), Success(albumRows));
      if |rows| == 0 then r.artists == []
      else r.artists == [Artist(LibraryArtist, |rows|, [LibraryAlbum])]
  {
    var r := FetchLibrary(st, Success(rows), Success(albumRows));
    var gs := r.artists;
    var ts := r.tracks;
    assert GroupedFrom(gs, ts);
    forall j | 0 <= j < |gs| ensures gs[j].name == LibraryArtist {
      var k :| 0 <= k < |ts| && TrackArtist(ts[k]) == gs[j].name;
    }
    assert |gs| > 0 ==> HasKey(ts, gs[0].name, TrackArtist);
    if |rows| > 0 {
      assert HasKey(gs, ts[0].artist, ArtistName);
      UniqueHead(gs, ArtistName);
      var g := gs[0];
      assert g.trackCount == |rows| by {
        AllKeysCount(ts, LibraryArtist, TrackArtist);
      }
      assert AlbumByArtist(ts, LibraryArtist, LibraryAlbum) by {
        assert ts[0].artist == LibraryArtist && ts[0].album == Some(LibraryAlbum);
      }
      assert LibraryAlbum in g.albums;
      assert forall i :: 0 <= i < |g.albums| ==> g.albums[i] in g.albums;
      DistinctConstant(g.albums, LibraryAlbum);
    }
  }

  /** When every element has key `k`, all of them are counted. */
  lemma {:induction false} AllKeysCount<T>(s: seq<T>, k: string, key: T -> string)
    requires forall i :: 0 <= i < |s| ==> key(s[i]) == k
    ensures CountKey(s, k, key) == |s|
    decreases |s|
  {
    if |s| > 0 {
      AllKeysCount(s[1..], k, key);
    }
  }
}

=== FILE: outcomes.dfy ===
/** Optional values and the abstract result of a call into the hosted backend.

    Every table query, insert or delete of the application answers either
    with data or with an error whose `message` the application may show.
 */
module Outcomes {

  /** A value that may be absent (`undefined` or `null` in the application). */
  datatype Option<+T> = None | Some(value: T)

  /** The answer of one backend call. */
  datatype Outcome<+T> = Success(data: T) | Failure(message: string)

  /** Nothing to report but success or failure (deletes and inserts whose rows are not read back). */
  type Ack = Outcome<()>
}

=== FILE: playback.dfy ===
/** The hymn audio hook and its player: audio files gathered from two tables, one current
    file at a time, and the play / pause / stop transitions driven by the media element's events. */
module Playback {
  import opened Outcomes
  import opened Text

  /** An audio file as the hook hands it to the player, its `url` already resolved. */
  datatype AudioFile = AudioFile(
    id: string,
    url: string,
    audioTypeId: int,
    userId: string,
    createdAt: string,
    hymnTitleNumber: Option<string>,
    bookId: Option<int>)

  /** A row of the `AudioFile` table; `url` may be a storage path. */
  datatype AudioFileRow = AudioFileRow(
    id: string, url: string, audioTypeId: int, userId: string, createdAt: string,
    hymnTitleNumber: Option<string>, bookId: Option<int>)

  /** A row of the `uploads` table, which names the hymn in `hymnTitle`. */
  datatype UploadRow = UploadRow(
    id: string, url: string, audioTypeId: int, userId: string, createdAt: string,
    hymnTitle: Option<string>, bookId: Option<int>)

  /** `getStorageUrl`: a path already starting with `http` is kept; any other goes through the
      storage bucket's public-URL function, given here as `publicUrl`. */
  function GetStorageUrl(path: string, publicUrl: string -> string): (u: string)
    ensures StartsWith(path, "http") ==> u == path
    ensures !StartsWith(path, "http") ==> u == publicUrl(path)
  {
    if StartsWith(path, "http") then path else publicUrl(path)
  }

  /** When public URLs are themselves `http` URLs, resolving twice is resolving once. */
  lemma GetStorageUrlIdempotent(path: string, publicUrl: string -> string)
    requires forall p :: StartsWith(publicUrl(p), "http")
    ensures GetStorageUrl(GetStorageUrl(path, publicUrl), publicUrl) == GetStorageUrl(path, publicUrl)
  {
  }

  function FromAudioFileRow(row: AudioFileRow, publicUrl: string -> string): AudioFile {
    AudioFile(row.id, GetStorageUrl(row.url, publicUrl), row.audioTypeId, row.userId, row.createdAt, row.hymnTitleNumber, row.bookId)
  }

  function FromUploadRow(row: UploadRow, publicUrl: string -> string): AudioFile {
    AudioFile(row.id, GetStorageUrl(row.url, publicUrl), row.audioTypeId, row.userId, row.createdAt, row.hymnTitle, row.bookId)
  }

  /** The rows a query returned; a query whose `data` is null contributes none. */
  function RowsOf<T>(data: Option<seq<T>>): seq<T> {
    if data.Some? then data.value else []
  }

  /** The combined list: the `AudioFile` rows first, then the `uploads` rows, each with its URL resolved. */
  function CombineFiles(audioData: Option<seq<AudioFileRow>>, uploadsData: Option<seq<UploadRow>>, publicUrl: string -> string): (files: seq<AudioFile>)
    ensures var a := RowsOf(audioData); var u := RowsOf(uploadsData);
      && |files| == |a| + |u|
      && (forall i :: 0 <= i < |a| ==>
            files[i].id == a[i].id && files[i].hymnTitleNumber == a[i].hymnTitleNumber
            && files[i].url == GetStorageUrl(a[i].url, publicUrl))
      && (forall j :: 0 <= j < |u| ==>
            files[|a| + j].id == u[j].id && files[|a| + j].hymnTitleNumber == u[j].hymnTitle
            && files[|a| + j].url == GetStorageUrl(u[j].url, publicUrl))
  {
    var a := RowsOf(audioData);
    var u := RowsOf(uploadsData);
    var fromAudio := seq(|a|, i requires 0 <= i < |a| => FromAudioFileRow(a[i], publicUrl));
    var fromUploads := seq(|u|, j requires 0 <= j < |u| => FromUploadRow(u[j], publicUrl));
    assert forall j :: 0 <= j < |u| ==> (fromAudio + fromUploads)[|a| + j] == fromUploads[j];
    fromAudio + fromUploads
  }

  /** The ids of the combined list are the `AudioFile` ids followed by the `uploads` ids. */
  lemma CombinedIds(audioData: Option<seq<AudioFileRow>>, uploadsData: Option<seq<UploadRow>>, publicUrl: string -> string)
    ensures var files := CombineFiles(audioData, uploadsData, publicUrl);
      Ids(files) == AudioRowIds(RowsOf(audioData)) + UploadIds(RowsOf(uploadsData))
  {
  }

  function Ids(files: seq<AudioFile>): (ids: seq<string>) {
    seq(|files|, i requires 0 <= i < |files| => files[i].id)
  }

  function AudioRowIds(rows: seq<AudioFileRow>): seq<string> {
    seq(|rows|, i requires 0 <= i < |rows| => rows[i].id)
  }

  function UploadIds(rows: seq<UploadRow>): seq<string> {
    seq(|rows|, i requires 0 <= i < |rows| => rows[i].id)
  }

  // ----- the playback state machine -----

  /** The current media element: the file it plays and its position in whole seconds. */
  datatype Loaded = Loaded(file: AudioFile, position: nat)

  /** `currentAudio` and `currentAudioFile` are always set and cleared together, so they are one value here. */
  datatype Player = Player(audioFiles: seq<AudioFile>, current: Option<Loaded>, isPlaying: bool, loading: bool)

  const InitialPlayer := Player([], None, false, false)

  predicate Idle(p: Player) { p.current.None? }
  predicate Playing(p: Player) { p.current.Some? && p.isPlaying }
  predicate Paused(p: Player) { p.current.Some? && !p.isPlaying }

  /** Nothing plays without a current file. */
  predicate Consistent(p: Player) { p.current.None? ==> !p.isPlaying }

  /** What the hook asks of a media element. */
  datatype MediaCommand = PauseOld | PlayNew | PauseCurrent | ResumeCurrent | RewindCurrent

  /** A transition: the new state and the commands issued to the media elements, in order. */
  datatype Step = Step(player: Player, commands: seq<MediaCommand>)

  /** The audio fetch for a hymn number: nothing happens for an empty number. */
  function FetchAudioFiles(p: Player, hymnNumber: string, audioData: Option<seq<AudioFileRow>>, uploadsData: Option<seq<UploadRow>>, publicUrl: string -> string): (r: Player)
    ensures hymnNumber == "" ==> r == p
    ensures hymnNumber != "" ==> r == p.(audioFiles := CombineFiles(audioData, uploadsData, publicUrl), loading := false)
  {
    if hymnNumber == "" then p else p.(audioFiles := CombineFiles(audioData, uploadsData, publicUrl), loading := false)
  }

  /** A fetch replaces the list of files and leaves playback alone; the list is the combined rows in order. */
  lemma FetchKeepsPlayback(p: Player, hymnNumber: string, audioData: Option<seq<AudioFileRow>>, uploadsData: Option<seq<UploadRow>>, publicUrl: string -> string)
    ensures var r := FetchAudioFiles(p, hymnNumber, audioData, uploadsData, publicUrl);
      && r.current == p.current && r.isPlaying == p.isPlaying
      && (Consistent(p) ==> Consistent(r))
      && (hymnNumber != "" ==> Ids(r.audioFiles) == AudioRowIds(RowsOf(audioData)) + UploadIds(RowsOf(uploadsData)))
  {
    CombinedIds(audioData, uploadsData, publicUrl);
  }

  /** After a fetch the player renders nothing exactly when both queries returned no rows. */
  lemma FetchedPlayerRenders(p: Player, hymnNumber: string, audioData: Option<seq<AudioFileRow>>, uploadsData: Option<seq<UploadRow>>, publicUrl: string -> string)
    requires hymnNumber != ""
    ensures RendersNothing(FetchAudioFiles(p, hymnNumber, audioData, uploadsData, publicUrl))
      <==> |RowsOf(audioData)| + |RowsOf(uploadsData)| == 0
  {
  }

  /** `playAudio`: pause and drop any current element, then make the file current at position 0 and ask it to play. */
  function PlayAudio(p: Player, f: AudioFile): (s: Step)
    ensures s.player.current == Some(Loaded(f, 0)) && s.player.loading && s.player.audioFiles == p.audioFiles
    ensures p.current.Some? ==> !s.player.isPlaying && s.commands == [PauseOld, PlayNew]
    ensures p.current.None? ==> s.player.isPlaying == p.isPlaying && s.commands == [PlayNew]
  {
    var q := if p.current.Some? then p.(current := None, isPlaying := false) else p;
    var cmds := if p.current.Some? then [PauseOld] else [];
    Step(q.(loading := true, current := Some(Loaded(f, 0))), cmds + [PlayNew])
  }

  /** `togglePlayPause`: no-op without a current element; otherwise pause when playing, resume when not.
      The state itself changes only when the element reports back. */
  function TogglePlayPause(p: Player): (s: Step)
    ensures s.player == p
    ensures p.current.None? ==> s.commands == []
    ensures Playing(p) ==> s.commands == [PauseCurrent]
    ensures Paused(p) ==> s.commands == [ResumeCurrent]
  {
    if p.current.None? then Step(p, [])
    else if p.isPlaying then Step(p, [PauseCurrent])
    else Step(p, [ResumeCurrent])
  }

  /** `stopAudio`: pause and rewind the current element and return to idle; no-op when idle. */
  function StopAudio(p: Player): (s: Step)
    ensures Idle(s.player)
    ensures Consistent(p) ==> !s.player.isPlaying
    ensures s.player.audioFiles == p.audioFiles && s.player.loading == p.loading
    ensures Idle(p) ==> s == Step(p, [])
    ensures !Idle(p) ==> !s.player.isPlaying && s.commands == [PauseCurrent, RewindCurrent]
  {
    if p.current.Some? then Step(p.(current := None, isPlaying := false), [PauseCurrent, RewindCurrent])
    else Step(p, [])
  }

  /** Stopping twice is stopping once. */
  lemma StopIdempotent(p: Player)
    ensures StopAudio(StopAudio(p).player).player == StopAudio(p).player
    ensures StopAudio(StopAudio(p).player).commands == []
  {
  }

  /** The cleanup registered for a hymn number, as written: it sees the element that was current
      when the effect was set up (`captured`), not the one current when the hymn changes. */
  function ChangeHymnAsWritten(p: Player, captured: Option<Loaded>): (s: Step)
    ensures captured.None? ==> s == Step(p, [])
    ensures captured.Some? ==> Idle(s.player) && !s.player.isPlaying && s.commands == [PauseOld]
    ensures s.player.audioFiles == p.audioFiles && s.player.loading == p.loading
  {
    if captured.Some? then Step(p.(current := None, isPlaying := false), [PauseOld])
    else Step(p, [])
  }

  /** A hymn opened with nothing playing registers a cleanup that sees no element; audio started
      afterwards keeps playing when the hymn changes. */
  lemma StaleCleanupKeepsPlaying(p: Player)
    requires Playing(p)
    ensures Playing(ChangeHymnAsWritten(p, None).player)
    ensures ChangeHymnAsWritten(p, None).player.current == p.current
  {
  }

  /** The cleanup as intended: stop whatever is current when the hymn changes. */
  function ChangeHymn(p: Player): (s: Step)
    ensures Idle(s.player)
    ensures Consistent(p) ==> !s.player.isPlaying
    ensures Idle(p) ==> s == Step(p, [])
    ensures !Idle(p) ==> !s.player.isPlaying && s.commands == [PauseCurrent]
    ensures s.player.audioFiles == p.audioFiles && s.player.loading == p.loading
  {
    if p.current.Some? then Step(p.(current := None, isPlaying := false), [PauseCurrent])
    else Step(p, [])
  }

  /** The two agree whenever the captured element is the current one. */
  lemma ChangeHymnAgreesWhenFresh(p: Player)
    ensures ChangeHymnAsWritten(p, p.current).player == ChangeHymn(p).player
  {
  }

  /** The scenario of the hymn-change cleanup from start to end: a hymn opened while idle, its files
      fetched, one of them played and reported playing. The cleanup as written leaves it playing;
      the intended one stops it. */
  lemma StaleCleanupScenario(p: Player, hymnNumber: string, audioData: Option<seq<AudioFileRow>>, uploadsData: Option<seq<UploadRow>>, publicUrl: string -> string, f: AudioFile)
    requires Idle(p)
    ensures var fetched := FetchAudioFiles(p, hymnNumber, audioData, uploadsData, publicUrl);
      var playing := OnEvent(PlayAudio(fetched, f).player, PlayEvent);
      && Playing(playing) && playing.current == Some(Loaded(f, 0))
      && Playing(ChangeHymnAsWritten(playing, p.current).player)
      && Idle(ChangeHymn(playing).player) && !ChangeHymn(playing).player.isPlaying
  {
    FetchKeepsPlayback(p, hymnNumber, audioData, uploadsData, publicUrl);
    var fetched := FetchAudioFiles(p, hymnNumber, audioData, uploadsData, publicUrl);
    PlayThenPlayEvent(fetched, f);
    StaleCleanupKeepsPlaying(OnEvent(PlayAudio(fetched, f).player, PlayEvent));
  }

  /** The events the current element reports, and the settling of its `play()` promise. */
  datatype MediaEvent = LoadStart | CanPlay | LoadedData | PlayEvent | PauseEvent | Ended | MediaError | PlayResolved | PlayRejected

  /** The listeners `playAudio` attaches. */
  function OnEvent(p: Player, e: MediaEvent): (r: Player)
    ensures r.audioFiles == p.audioFiles
    ensures e == PlayEvent ==> r == p.(isPlaying := true)
    ensures e == PauseEvent ==> r == p.(isPlaying := false)
    ensures e == Ended ==> Idle(r) && !r.isPlaying && r.loading == p.loading
    ensures e == LoadStart ==> r == p.(loading := true)
    ensures e in {CanPlay, LoadedData, MediaError, PlayResolved, PlayRejected} ==> r == p.(loading := false)
  {
    match e
    case LoadStart => p.(loading := true)
    case CanPlay => p.(loading := false)
    case LoadedData => p.(loading := false)
    case PlayEvent => p.(isPlaying := true)
    case PauseEvent => p.(isPlaying := false)
    case Ended => p.(isPlaying := false, current := None)
    case MediaError => p.(loading := false)
    case PlayResolved => p.(loading := false)
    case PlayRejected => p.(loading := false)
  }

  /** Every transition keeps "nothing plays without a current file", given that a `play` event
      only comes from a current element. */
  lemma TransitionsKeepConsistent(p: Player, f: AudioFile, e: MediaEvent)
    requires Consistent(p)
    ensures Consistent(PlayAudio(p, f).player)
    ensures Consistent(TogglePlayPause(p).player)
    ensures Consistent(StopAudio(p).player)
    ensures Consistent(ChangeHymn(p).player)
    ensures e != PlayEvent || p.current.Some? ==> Consistent(OnEvent(p, e))
  {
  }

  /** The element answers a command with the matching event. */
  function Reply(c: MediaCommand): (e: Option<MediaEvent>) {
    match c
    case PauseCurrent => Some(PauseEvent)
    case ResumeCurrent => Some(PlayEvent)
    case _ => None
  }

  /** A toggle, once the element has reported back, swaps playing and paused and keeps the file. */
  lemma ToggleThenReply(p: Player)
    requires p.current.Some?
    ensures var s := TogglePlayPause(p);
      && |s.commands| == 1 && Reply(s.commands[0]).Some?
      && var r := OnEvent(s.player, Reply(s.commands[0]).value);
      && r.current == p.current
      && (Playing(r) <==> Paused(p))
  {
  }

  /** Playing a file, once the element reports `play`, leaves that file playing from the start. */
  lemma PlayThenPlayEvent(p: Player, f: AudioFile)
    ensures Playing(OnEvent(PlayAudio(p, f).player, PlayEvent))
    ensures OnEvent(PlayAudio(p, f).player, PlayEvent).current == Some(Loaded(f, 0))
  {
  }

  /** `handleSeek`: with a current element its position becomes the slider value. */
  function Seek(p: Player, value: nat): (r: Player)
    ensures p.current.None? ==> r == p
    ensures p.current.Some? ==> r.current == Some(p.current.value.(position := value)) && r == p.(current := r.current)
  {
    match p.current
    case None => p
    case Some(l) => p.(current := Some(l.(position := value)))
  }

  /** A seek moves only the position: the file, the playing flag and what every row shows stay. */
  lemma SeekKeepsFile(p: Player, value: nat, f: AudioFile)
    ensures var r := Seek(p, value);
      && r.isPlaying == p.isPlaying && r.audioFiles == p.audioFiles && r.loading == p.loading
      && (Consistent(p) <==> Consistent(r))
      && (p.current.Some? ==> r.current.Some? && r.current.value.file == p.current.value.file && r.current.value.position == value)
      && RowShowsPause(r, f) == RowShowsPause(p, f)
  {
  }

  // ----- the hymn audio player's controls -----

  /** The player renders nothing when there are no files and nothing is loading. */
  function RendersNothing(p: Player): (b: bool)
    ensures b <==> |p.audioFiles| == 0 && !p.loading
  {
    |p.audioFiles| == 0 && !p.loading
  }

  /** What a play button does. */
  datatype Action = ToggleCurrent | PlayFile(file: AudioFile)

  /** The compact button, shown when files are loaded: toggle when a file is current, else play the first file. */
  function CompactAction(p: Player): (a: Action)
    requires |p.audioFiles| > 0
    ensures p.current.Some? <==> a == ToggleCurrent
    ensures p.current.None? ==> a == PlayFile(p.audioFiles[0])
  {
    if p.current.Some? then ToggleCurrent else PlayFile(p.audioFiles[0])
  }

  /** A row's button: toggle when its file is the current one (same id), else play that file. */
  function RowAction(p: Player, f: AudioFile): (a: Action)
    ensures IsCurrent(p, f) <==> a == ToggleCurrent
    ensures !IsCurrent(p, f) ==> a == PlayFile(f)
  {
    if IsCurrent(p, f) then ToggleCurrent else PlayFile(f)
  }

  predicate IsCurrent(p: Player, f: AudioFile) {
    p.current.Some? && p.current.value.file.id == f.id
  }

  function Dispatch(p: Player, a: Action): (s: Step) {
    match a
    case ToggleCurrent => TogglePlayPause(p)
    case PlayFile(f) => PlayAudio(p, f)
  }

  /** A row shows the pause icon exactly when its file is current and playing. */
  function RowShowsPause(p: Player, f: AudioFile): (b: bool)
    ensures b <==> p.current.Some? && p.current.value.file.id == f.id && p.isPlaying
  {
    IsCurrent(p, f) && p.isPlaying
  }

  /** Pressing a row's button and letting the element answer `play` makes that row show pause,
      when the row was not playing. */
  lemma RowPressShowsPause(p: Player, f: AudioFile)
    requires !RowShowsPause(p, f)
    ensures var s := Dispatch(p, RowAction(p, f));
      RowShowsPause(OnEvent(s.player, PlayEvent), f)
  {
  }

  /** The compact button, answered by its element: a player that was not playing plays (the first
      file when none was current), and a playing one pauses on its file. */
  lemma CompactPressThenReply(p: Player)
    requires |p.audioFiles| > 0
    ensures !Playing(p) ==> Playing(OnEvent(Dispatch(p, CompactAction(p)).player, PlayEvent))
    ensures Idle(p) ==> OnEvent(Dispatch(p, CompactAction(p)).player, PlayEvent).current == Some(Loaded(p.audioFiles[0], 0))
    ensures Playing(p) ==> var s := Dispatch(p, CompactAction(p));
      && s.commands == [PauseCurrent]
      && Paused(OnEvent(s.player, Reply(s.commands[0]).value))
      && OnEvent(s.player, Reply(s.commands[0]).value).current == p.current
  {
  }

  /** `{n} file{n !== 1 ? 's' : ''}`. */
  function FilesLabel(n: nat): (text: string)
    ensures |text| == |Decimal(n)| + (if n == 1 then 5 else 6)
    ensures text[..|Decimal(n)|] == Decimal(n)
    ensures text[|Decimal(n)|..] == if n == 1 then " file" else " files"
  {
    Decimal(n) + (if n == 1 then " file" else " files")
  }

  /** The count a files label shows: its leading digits, when the word after them agrees with them. */
  function ReadFilesLabel(text: string): (n: Option<nat>)
  {
    var d := LeadingDigits(text);
    if |d| == 0 then None
    else
      var n := ParseDecimal(d);
      if text[|d|..] == (if n == 1 then " file" else " files") then Some(n) else None
  }

  /** The label reads back as the count it was made from. */
  lemma FilesLabelRoundTrip(n: nat)
    ensures ReadFilesLabel(FilesLabel(n)) == Some(n)
  {
    var suffix := if n == 1 then " file" else " files";
    LeadingDigitsOf(Decimal(n), suffix);
    ParseDecimalOfDecimal(n);
  }

  // ----- the music player bar -----

  /** The music player bar's own state: the position the slider shows. */
  datatype Bar = Bar(currentTrack: Option<string>, isPlaying: bool, currentTime: nat)

  /** The bar renders only with a current track. */
  function BarRendered(b: Bar): (shown: bool)
    ensures shown <==> b.currentTrack.Some?
  {
    b.currentTrack.Some?
  }

  /** `handleSeek`: the element exists only while the bar is rendered, and then takes the slider value. */
  function BarSeek(b: Bar, value: nat): (r: Bar)
    ensures BarRendered(b) ==> r == b.(currentTime := value)
    ensures !BarRendered(b) ==> r == b
  {
    if b.currentTrack.Some? then b.(currentTime := value) else b
  }

  /** A seek touches only the slider: the track, the playing flag, whether the bar renders and the
      command it issues stay, and a later seek overrides an earlier one. */
  lemma BarSeekKeepsTrack(b: Bar, value: nat, later: nat)
    ensures var r := BarSeek(b, value);
      && r.currentTrack == b.currentTrack && r.isPlaying == b.isPlaying
      && BarRendered(r) == BarRendered(b)
      && BarCommand(r) == BarCommand(b)
      && BarSeek(r, later) == BarSeek(b, later)
  {
  }

  /** The effect on `isPlaying`: play when it is true, pause when it is false. */
  function BarCommand(b: Bar): (c: MediaCommand)
    ensures b.isPlaying <==> c == ResumeCurrent
    ensures !b.isPlaying <==> c == PauseCurrent
  {
    if b.isPlaying then ResumeCurrent else PauseCurrent
  }
}

=== FILE: playlists.dfy ===
/** The playlist list of `usePlaylistManager` and the create dialog of `PlaylistManager`. */
module Playlists {
  import opened Outcomes
  import opened Seqs
  import opened Keyed
  import opened Catalog
  import Text

  /** A `Playlist` row; `trackRefs` holds the `B` column of its `_PlaylistTracks` join rows, when the
      nested select returned them. */
  datatype PlaylistRow = PlaylistRow(
    id: string,
    title: string,
    description: Option<string>,
    userId: string,
    coverImage: Option<string>,
    createdAt: Option<string>,
    trackRefs: Option<seq<string>>)

  /** One playlist of the fetch, with the answer of its own `Track` query when one was made. */
  datatype PlaylistFetch = PlaylistFetch(row: PlaylistRow, tracks: Option<seq<TrackRow>>)

  datatype ManagerState = ManagerState(playlists: seq<Playlist>, loading: bool)

  /** Every playlist's count is the number of tracks it carries. */
  ghost predicate CountsMatch(ps: seq<Playlist>) {
    forall i :: 0 <= i < |ps| ==> ps[i].trackCount == |ps[i].tracks|
  }

  /** `{ ...row, tracks, trackCount: tracks.length }`. */
  function WithTracks(row: PlaylistRow, tracks: seq<TrackRow>): (p: Playlist)
    ensures p.id == row.id && p.title == row.title && p.description == row.description && p.userId == row.userId
    ensures p.tracks == tracks && p.trackCount == |tracks|
  {
    Playlist(row.id, row.title, row.description, row.userId, tracks, row.coverImage, row.createdAt, |tracks|)
  }

  /** The referenced track ids, `playlist._PlaylistTracks?.map(pt => pt.B) || []`. */
  function TrackRefs(row: PlaylistRow): (ids: seq<string>) {
    if row.trackRefs.Some? then row.trackRefs.value else []
  }

  /** One playlist of `fetchPlaylists`: the tracks are only looked up when there is a join row, and a
      failed lookup (no data) reads as no tracks. */
  function FetchOne(f: PlaylistFetch): (p: Playlist)
    ensures p.id == f.row.id && p.title == f.row.title && p.trackCount == |p.tracks|
    ensures |TrackRefs(f.row)| == 0 ==> p.tracks == [] && p.trackCount == 0
    ensures |TrackRefs(f.row)| > 0 && f.tracks.Some? ==> p.tracks == f.tracks.value
    ensures |TrackRefs(f.row)| > 0 && f.tracks.None? ==> p.tracks == [] && p.trackCount == 0
  {
    if |TrackRefs(f.row)| > 0 then
      WithTracks(f.row, if f.tracks.Some? then f.tracks.value else [])
    else
      WithTracks(f.row, [])
  }

  /** `fetchPlaylists`. A failed playlist query is thrown and caught: the list stays as it was.
      Missing data (`playlistData || []`) reads as no playlists. */
  function FetchPlaylists(st: ManagerState, answer: Outcome<Option<seq<PlaylistFetch>>>): (r: ManagerState)
    ensures !r.loading
    ensures answer.Failure? ==> r.playlists == st.playlists
    ensures answer.Success? ==>
      var fs := if answer.data.Some? then answer.data.value else [];
      && |r.playlists| == |fs|
      && (forall i :: 0 <= i < |fs| ==> r.playlists[i].id == fs[i].row.id && r.playlists[i].title == fs[i].row.title)
      && (forall i :: 0 <= i < |fs| ==> r.playlists[i] == FetchOne(fs[i]))
    ensures answer.Success? ==> CountsMatch(r.playlists)
  {
    match answer
    case Failure(_) => st.(loading := false)
    case Success(data) =>
      var fs := if data.Some? then data.value else [];
      st.(playlists := seq(|fs|, i requires 0 <= i < |fs| => FetchOne(fs[i])), loading := false)
  }

  /** `createPlaylist`, given the answer of the insert: the new list and the value handed back
      (`None` for `null`). The new playlist has no tracks yet. */
  function CreatePlaylist(ps: seq<Playlist>, answer: Outcome<PlaylistRow>): (r: (seq<Playlist>, Option<Playlist>))
    ensures answer.Success? ==>
      && r.1.Some?
      && r.0 == [r.1.value] + ps
      && r.1.value.id == answer.data.id && r.1.value.title == answer.data.title
      && r.1.value.tracks == [] && r.1.value.trackCount == 0
      && r.1.value == WithTracks(answer.data, [])
    ensures answer.Failure? ==> r.0 == ps && r.1 == None
  {
    match answer
    case Success(row) =>
      var p := WithTracks(row, []);
      ([p] + ps, Some(p))
    case Failure(_) => (ps, None)
  }

  /** `deletePlaylist`: the join rows go first, then the playlist; the second delete is only issued
      when the first succeeds, and the list only changes when both do. */
  function DeletePlaylist(ps: seq<Playlist>, id: string, unlink: Ack, remove: Ack): (r: seq<Playlist>)
    ensures unlink.Success? && remove.Success? ==>
      && !HasKey(r, id, PlaylistId)
      && Subseq(r, ps)
      && (forall i :: 0 <= i < |ps| && ps[i].id != id ==> ps[i] in r)
      && |r| == |ps| - CountKey(ps, id, PlaylistId)
    ensures unlink.Failure? || remove.Failure? ==> r == ps
  {
    if unlink.Failure? then ps
    else if remove.Failure? then ps
    else RemoveKey(ps, id, PlaylistId)
  }

  /** `addTrackToPlaylist` and `removeTrackFromPlaylist`: after a successful change to the join table
      the whole list is fetched again; a failed change leaves the state alone. */
  function ChangeTrackList(st: ManagerState, change: Ack, refetch: Outcome<Option<seq<PlaylistFetch>>>): (r: ManagerState)
    ensures change.Failure? ==> r == st
    ensures change.Success? ==> !r.loading && r == FetchPlaylists(st, refetch)
    ensures change.Success? && refetch.Success? ==> CountsMatch(r.playlists)
  {
    if change.Failure? then st else FetchPlaylists(st, refetch)
  }

  /** Create, delete and the track-list refresh keep every count equal to the playlist's tracks. */
  lemma OperationsKeepCounts(st: ManagerState, created: Outcome<PlaylistRow>, id: string, unlink: Ack, remove: Ack,
                             change: Ack, refetch: Outcome<Option<seq<PlaylistFetch>>>)
    requires CountsMatch(st.playlists)
    ensures CountsMatch(CreatePlaylist(st.playlists, created).0)
    ensures CountsMatch(DeletePlaylist(st.playlists, id, unlink, remove))
    ensures CountsMatch(ChangeTrackList(st, change, refetch).playlists)
  {
    var d := DeletePlaylist(st.playlists, id, unlink, remove);
    if unlink.Success? && remove.Success? {
      SubseqMembers(d, st.playlists);
      forall i | 0 <= i < |d| ensures d[i].trackCount == |d[i].tracks| {
        assert d[i] in st.playlists;
      }
    }
  }

  /** A successful create whose id is new keeps the ids unique. */
  lemma CreateKeepsIdsUnique(ps: seq<Playlist>, created: Outcome<PlaylistRow>)
    requires UniqueKeys(ps, PlaylistId)
    ensures created.Success? && !HasKey(ps, created.data.id, PlaylistId) ==> UniqueKeys(CreatePlaylist(ps, created).0, PlaylistId)
  {
    if created.Success? && !HasKey(ps, created.data.id, PlaylistId) {
      var r := CreatePlaylist(ps, created).0;
      forall i, j | 0 <= i < j < |r| ensures PlaylistId(r[i]) != PlaylistId(r[j]) {
        assert r[j] == ps[j - 1];
        if i > 0 {
          assert r[i] == ps[i - 1];
        }
      }
    }
  }

  /** Any delete, whatever the backend answers, keeps the ids unique. */
  lemma DeleteKeepsIdsUnique(ps: seq<Playlist>, id: string, unlink: Ack, remove: Ack)
    requires UniqueKeys(ps, PlaylistId)
    ensures UniqueKeys(DeletePlaylist(ps, id, unlink, remove), PlaylistId)
  {
    RemoveKeyUnique(ps, id, PlaylistId);
  }

  /** Deleting a playlist that was just created gives the list back when its id was new. */
  lemma CreateThenDelete(ps: seq<Playlist>, row: PlaylistRow)
    requires !HasKey(ps, row.id, PlaylistId)
    ensures DeletePlaylist(CreatePlaylist(ps, Success(row)).0, row.id, Success(()), Success(())) == ps
  {
    var r := CreatePlaylist(ps, Success(row)).0;
    assert r[1..] == ps;
  }

  /** Deleting the same id twice is the same as deleting it once. */
  lemma DeleteIdempotent(ps: seq<Playlist>, id: string)
    ensures var once := DeletePlaylist(ps, id, Success(()), Success(()));
      DeletePlaylist(once, id, Success(()), Success(())) == once
  {
  }

  // ----- the dialog -----

  /** The create dialog's fields and whether it is open. */
  datatype Form = Form(title: string, description: string, open: bool)

  /** The Create button is disabled while `!title.trim()`. */
  function CreateDisabled(title: string): (b: bool)
    ensures b <==> Text.IsBlank(title)
  {
    Text.TrimEmptyIffBlank(title);
    |Text.Trim(title)| == 0
  }

  /** `handleCreatePlaylist`: the dialog after the click, the playlist list, and the arguments handed to
      `createPlaylist` (`None` when it is not called). The title is passed untrimmed. */
  function HandleCreate(form: Form, ps: seq<Playlist>, answer: Outcome<PlaylistRow>): (r: (Form, seq<Playlist>, Option<(string, string)>))
    ensures Text.IsBlank(form.title) ==> r == (form, ps, None)
    ensures !Text.IsBlank(form.title) ==> r.2 == Some((form.title, form.description))
    ensures !Text.IsBlank(form.title) && answer.Success? ==> r.0 == Form("", "", false) && |r.1| == |ps| + 1 && r.1[1..] == ps
    ensures answer.Failure? ==> r.0 == form && r.1 == ps
  {
    if CreateDisabled(form.title) then (form, ps, None)
    else
      var (ps', created) := CreatePlaylist(ps, answer);
      if created.Some? then (Form("", "", false), ps', Some((form.title, form.description)))
      else (form, ps', Some((form.title, form.description)))
  }

  /** The button and the handler agree: a click is only forwarded when the button is enabled. */
  lemma DisabledButtonAgreesWithGuard(form: Form, ps: seq<Playlist>, answer: Outcome<PlaylistRow>)
    ensures CreateDisabled(form.title) <==> HandleCreate(form, ps, answer).2.None?
  {
  }

  /** The "No Playlists Yet" card. */
  function EmptyState(ps: seq<Playlist>): (b: bool)
    ensures b <==> forall p :: p !in ps
  {
    assert |ps| > 0 ==> ps[0] in ps;
    |ps| == 0
  }

  /** A successful create hides the empty card; deleting the only playlist shows it again. */
  lemma EmptyStateAfterChanges(ps: seq<Playlist>, row: PlaylistRow)
    ensures !EmptyState(CreatePlaylist(ps, Success(row)).0)
    ensures EmptyState(ps) ==> EmptyState(DeletePlaylist(CreatePlaylist(ps, Success(row)).0, row.id, Success(()), Success(())))
  {
    if EmptyState(ps) {
      CreateThenDelete(ps, row);
    }
  }
}

=== FILE: search.dfy ===
/** The advanced-search hook: case-insensitive filtering of tracks, albums and
    artists with a content-type filter, a most-recent-first search history and
    a short list of distinct suggestions.
 */
module Search {
  import opened Outcomes
  import opened Seqs
  import opened Keyed
  import opened Text
  import opened Catalog

  /** The content-type filter (`type` in the application). */
  datatype SearchType = All | Tracks | Albums | Artists

  datatype Duration = Short | Medium | Long

  /** The filter record; only `kind` takes part in the search itself. */
  datatype Filters = Filters(kind: SearchType, genre: Option<string>, duration: Option<Duration>, recent: Option<bool>)

  /** The filter record the hook starts from: `{ type: 'all' }`. */
  const InitialFilters := Filters(All, None, None, None)

  datatype Results = Results(tracks: seq<Track>, albums: seq<Album>, artists: seq<Artist>, total: nat)

  const NoResults := Results([], [], [], 0)

  /** Title, artist or album contain the lower-cased query, or the hymn number contains the query as typed. */
  predicate TrackMatches(t: Track, query: string) {
    var lq := Lower(query);
    || Contains(Lower(t.title), lq)
    || Contains(Lower(t.artist), lq)
    || (t.hymnNumber.Some? && Contains(t.hymnNumber.value, query))
    || (t.album.Some? && Contains(Lower(t.album.value), lq))
  }

  predicate AlbumMatches(a: Album, query: string) {
    Contains(Lower(a.title), Lower(query)) || Contains(Lower(a.artist), Lower(query))
  }

  predicate ArtistMatches(a: Artist, query: string) {
    Contains(Lower(a.name), Lower(query))
  }

  /** `tracks.filter(...)` with the track test: the matching tracks, in order, each as often as it occurs. */
  function MatchingTracks(tracks: seq<Track>, query: string): (r: seq<Track>)
    ensures Subseq(r, tracks)
    ensures forall i :: 0 <= i < |r| ==> TrackMatches(r[i], query)
    ensures forall i :: 0 <= i < |tracks| && TrackMatches(tracks[i], query) ==> tracks[i] in r
    ensures forall t :: multiset(r)[t] == if TrackMatches(t, query) then multiset(tracks)[t] else 0
  {
    var matches := (t: Track) => TrackMatches(t, query);
    forall t ensures multiset(Filter(tracks, matches))[t] == if matches(t) then multiset(tracks)[t] else 0 {
      FilterMultiplicity(tracks, matches, t);
    }
    Filter(tracks, matches)
  }

  /** `albums.filter(...)` with the album test. */
  function MatchingAlbums(albums: seq<Album>, query: string): (r: seq<Album>)
    ensures Subseq(r, albums)
    ensures forall i :: 0 <= i < |r| ==> AlbumMatches(r[i], query)
    ensures forall i :: 0 <= i < |albums| && AlbumMatches(albums[i], query) ==> albums[i] in r
    ensures forall a :: multiset(r)[a] == if AlbumMatches(a, query) then multiset(albums)[a] else 0
  {
    var matches := (a: Album) => AlbumMatches(a, query);
    forall a ensures multiset(Filter(albums, matches))[a] == if matches(a) then multiset(albums)[a] else 0 {
      FilterMultiplicity(albums, matches, a);
    }
    Filter(albums, matches)
  }

  /** `artists.filter(...)` with the artist test. */
  function MatchingArtists(artists: seq<Artist>, query: string): (r: seq<Artist>)
    ensures Subseq(r, artists)
    ensures forall i :: 0 <= i < |r| ==> ArtistMatches(r[i], query)
    ensures forall i :: 0 <= i < |artists| && ArtistMatches(artists[i], query) ==> artists[i] in r
    ensures forall a :: multiset(r)[a] == if ArtistMatches(a, query) then multiset(artists)[a] else 0
  {
    var matches := (a: Artist) => ArtistMatches(a, query);
    forall a ensures multiset(Filter(artists, matches))[a] == if matches(a) then multiset(artists)[a] else 0 {
      FilterMultiplicity(artists, matches, a);
    }
    Filter(artists, matches)
  }

  /** The `searchResults` memo of the hook. */
  function SearchResults(query: string, filters: Filters, tracks: seq<Track>, albums: seq<Album>, artists: seq<Artist>): (r: Results)
    ensures IsBlank(query) ==> r == NoResults
    ensures r.total == |r.tracks| + |r.albums| + |r.artists|
    ensures Subseq(r.tracks, tracks) && Subseq(r.albums, albums) && Subseq(r.artists, artists)
    ensures forall i :: 0 <= i < |r.tracks| ==> TrackMatches(r.tracks[i], query)
    ensures forall i :: 0 <= i < |r.albums| ==> AlbumMatches(r.albums[i], query)
    ensures forall i :: 0 <= i < |r.artists| ==> ArtistMatches(r.artists[i], query)
    ensures !IsBlank(query) && filters.kind in {All, Tracks} ==>
      forall i :: 0 <= i < |tracks| && TrackMatches(tracks[i], query) ==> tracks[i] in r.tracks
    ensures !IsBlank(query) && filters.kind in {All, Albums} ==>
      forall i :: 0 <= i < |albums| && AlbumMatches(albums[i], query) ==> albums[i] in r.albums
    ensures !IsBlank(query) && filters.kind in {All, Artists} ==>
      forall i :: 0 <= i < |artists| && ArtistMatches(artists[i], query) ==> artists[i] in r.artists
    ensures filters.kind !in {All, Tracks} ==> r.tracks == []
    ensures filters.kind !in {All, Albums} ==> r.albums == []
    ensures filters.kind !in {All, Artists} ==> r.artists == []
    ensures !IsBlank(query) && filters.kind in {All, Tracks} ==>
      forall t :: multiset(r.tracks)[t] == if TrackMatches(t, query) then multiset(tracks)[t] else 0
    ensures !IsBlank(query) && filters.kind in {All, Albums} ==>
      forall a :: multiset(r.albums)[a] == if AlbumMatches(a, query) then multiset(albums)[a] else 0
    ensures !IsBlank(query) && filters.kind in {All, Artists} ==>
      forall a :: multiset(r.artists)[a] == if ArtistMatches(a, query) then multiset(artists)[a] else 0
  {
    if IsBlank(query) then NoResults
    else
      var ts := MatchingTracks(tracks, query);
      var als := MatchingAlbums(albums, query);
      var ars := MatchingArtists(artists, query);
      var ts' := if filters.kind in {All, Tracks} then ts else [];
      var als' := if filters.kind in {All, Albums} then als else [];
      var ars' := if filters.kind in {All, Artists} then ars else [];
      Results(ts', als', ars', |ts'| + |als'| + |ars'|)
  }

  /** Genre, duration and the recent flag never change the results: only the content type does. */
  lemma SearchIgnoresRefinements(query: string, f: Filters, g: Filters, tracks: seq<Track>, albums: seq<Album>, artists: seq<Artist>)
    requires f.kind == g.kind
    ensures SearchResults(query, f, tracks, albums, artists) == SearchResults(query, g, tracks, albums, artists)
  {
  }

  // ----- search history -----

  const HistoryLimit := 10

  /** `addToSearchHistory`: a non-blank query moves to the front, followed by the earlier queries that differ
      from it, in order, as many of them as fit in ten entries. */
  function AddToHistory(history: seq<string>, q: string): (r: seq<string>)
    ensures IsBlank(q) ==> r == history
    ensures !IsBlank(q) ==> |r| >= 1 && r[0] == q && |r| <= HistoryLimit
    ensures !IsBlank(q) ==> forall i :: 1 <= i < |r| ==> r[i] != q
    ensures !IsBlank(q) ==> r[1..] <= RemoveKey(history, q, Identity)
    ensures !IsBlank(q) ==> |r| == Min(|history| - CountKey(history, q, Identity) + 1, HistoryLimit)
    ensures Distinct(history) ==> Distinct(r)
  {
    if IsBlank(q) then history
    else
      var r := MoveToFront(history, q, Identity, HistoryLimit);
      IdentityUnique(history);
      IdentityUnique(r);
      r
  }

  /** The history after a series of searches started from an empty history. */
  function HistoryOf(queries: seq<string>): (history: seq<string>)
  {
    if |queries| == 0 then [] else AddToHistory(HistoryOf(queries[..|queries| - 1]), queries[|queries| - 1])
  }

  /** Whatever is searched, the history never holds a query twice nor more than ten of them,
      and the latest non-blank query is its first entry. */
  lemma {:induction false} HistoryInvariant(queries: seq<string>)
    ensures Distinct(HistoryOf(queries)) && |HistoryOf(queries)| <= HistoryLimit
    ensures |queries| > 0 && !IsBlank(queries[|queries| - 1]) ==> HistoryOf(queries)[0] == queries[|queries| - 1]
  {
    if |queries| > 0 {
      HistoryInvariant(queries[..|queries| - 1]);
    }
  }

  // ----- suggestions -----

  const SuggestionLimit := 5

  /** Suggestion candidates in the order the hook offers them to its set:
      per track its title then its artist, then the album titles. */
  function TrackCandidates(tracks: seq<Track>, lq: string): (c: seq<string>)
    ensures forall i :: 0 <= i < |c| ==> Contains(Lower(c[i]), lq)
    ensures forall i :: 0 <= i < |c| ==> exists j :: 0 <= j < |tracks| && (c[i] == tracks[j].title || c[i] == tracks[j].artist)
  {
    if |tracks| == 0 then []
    else
      var t := tracks[0];
      var rest := TrackCandidates(tracks[1..], lq);
      var c := (if Contains(Lower(t.title), lq) then [t.title] else [])
        + (if Contains(Lower(t.artist), lq) then [t.artist] else [])
        + rest;
      assert forall i :: 0 <= i < |rest| ==> exists j :: 0 <= j < |tracks| && (rest[i] == tracks[j].title || rest[i] == tracks[j].artist) by {
        forall i | 0 <= i < |rest| ensures exists j :: 0 <= j < |tracks| && (rest[i] == tracks[j].title || rest[i] == tracks[j].artist) {
          var j :| 0 <= j < |tracks[1..]| && (rest[i] == tracks[1..][j].title || rest[i] == tracks[1..][j].artist);
          assert tracks[1..][j] == tracks[j + 1];
        }
      }
      c
  }

  function AlbumCandidates(albums: seq<Album>, lq: string): (c: seq<string>)
    ensures forall i :: 0 <= i < |c| ==> Contains(Lower(c[i]), lq)
    ensures forall i :: 0 <= i < |c| ==> exists j :: 0 <= j < |albums| && c[i] == albums[j].title
  {
    if |albums| == 0 then []
    else
      var rest := AlbumCandidates(albums[1..], lq);
      assert forall i :: 0 <= i < |rest| ==> exists j :: 0 <= j < |albums| && rest[i] == albums[j].title by {
        forall i | 0 <= i < |rest| ensures exists j :: 0 <= j < |albums| && rest[i] == albums[j].title {
          var j :| 0 <= j < |albums[1..]| && rest[i] == albums[1..][j].title;
          assert albums[1..][j] == albums[j + 1];
        }
      }
      (if Contains(Lower(albums[0].title), lq) then [albums[0].title] else []) + rest
  }

  /** Adding `xs` one by one to an insertion-ordered set `acc` (JavaScript `Set.add`). */
  function AddAll(acc: seq<string>, xs: seq<string>): (r: seq<string>)
    requires Distinct(acc)
    ensures Distinct(r) && acc <= r
    ensures forall x :: x in r <==> x in acc || x in xs
    decreases |xs|
  {
    if |xs| == 0 then acc
    else
      assert xs == [xs[0]] + xs[1..];
      AddAll(if xs[0] in acc then acc else acc + [xs[0]], xs[1..])
  }

  /** The candidates of a query, in insertion order and without repetitions. */
  /** Adding one more value to the input appends it exactly when it is new, which pins the order of the set. */
  lemma {:induction false} AddAllSnoc(acc: seq<string>, xs: seq<string>, x: string)
    requires Distinct(acc)
    ensures AddAll(acc, xs + [x]) == if x in AddAll(acc, xs) then AddAll(acc, xs) else AddAll(acc, xs) + [x]
    decreases |xs|
  {
    if |xs| == 0 {
      assert xs + [x] == [x];
    } else {
      var acc' := if xs[0] in acc then acc else acc + [xs[0]];
      assert (xs + [x])[0] == xs[0];
      assert (xs + [x])[1..] == xs[1..] + [x];
      AddAllSnoc(acc', xs[1..], x);
    }
  }

  function DistinctCandidates(tracks: seq<Track>, albums: seq<Album>, lq: string): seq<string>
  {
    AddAll([], TrackCandidates(tracks, lq) + AlbumCandidates(albums, lq))
  }

  /** `x` is the title or artist of one of the tracks, or the title of one of the albums. */
  ghost predicate FromLibrary(x: string, tracks: seq<Track>, albums: seq<Album>) {
    || (exists j :: 0 <= j < |tracks| && (x == tracks[j].title || x == tracks[j].artist))
    || (exists j :: 0 <= j < |albums| && x == albums[j].title)
  }

  /** `getSuggestions`: distinct titles and artist names containing the query, at most five. */
  function Suggestions(query: string, tracks: seq<Track>, albums: seq<Album>): (r: seq<string>)
    ensures IsBlank(query) ==> r == []
    ensures Distinct(r) && |r| <= SuggestionLimit
    ensures !IsBlank(query) ==>
      var all := DistinctCandidates(tracks, albums, Lower(query));
      r <= all && |r| == Min(|all|, SuggestionLimit)
    ensures forall i :: 0 <= i < |r| ==> Contains(Lower(r[i]), Lower(query))
    ensures forall i :: 0 <= i < |r| ==> FromLibrary(r[i], tracks, albums)
    ensures !IsBlank(query) && |r| < SuggestionLimit ==>
      forall j :: 0 <= j < |albums| && Contains(Lower(albums[j].title), Lower(query)) ==> albums[j].title in r
    ensures !IsBlank(query) && |r| < SuggestionLimit ==>
      forall j :: 0 <= j < |tracks| ==>
        && (Contains(Lower(tracks[j].title), Lower(query)) ==> tracks[j].title in r)
        && (Contains(Lower(tracks[j].artist), Lower(query)) ==> tracks[j].artist in r)
  {
    if IsBlank(query) then []
    else
      var lq := Lower(query);
      SuggestionsDistinct(tracks, albums, lq);
      SuggestionsSound(tracks, albums, lq);
      SuggestionsComplete(tracks, albums, lq);
      SuggestionsCompleteForTracks(tracks, albums, lq);
      Take(DistinctCandidates(tracks, albums, lq), SuggestionLimit)
  }

  lemma SuggestionsDistinct(tracks: seq<Track>, albums: seq<Album>, lq: string)
    ensures Distinct(Take(DistinctCandidates(tracks, albums, lq), SuggestionLimit))
  {
    var all := DistinctCandidates(tracks, albums, lq);
    var r := Take(all, SuggestionLimit);
    SubseqRefl(all);
    PrefixOfSubseq(all, all, |r|);
    SubseqDistinct(r, all);
  }

  /** Each suggestion contains the query and comes from the library. */
  lemma SuggestionsSound(tracks: seq<Track>, albums: seq<Album>, lq: string)
    ensures var r := Take(DistinctCandidates(tracks, albums, lq), SuggestionLimit);
      forall i :: 0 <= i < |r| ==> Contains(Lower(r[i]), lq) && FromLibrary(r[i], tracks, albums)
  {
    var all := DistinctCandidates(tracks, albums, lq);
    var r := Take(all, SuggestionLimit);
    forall i | 0 <= i < |r| ensures Contains(Lower(r[i]), lq) && FromLibrary(r[i], tracks, albums) {
      assert r[i] == all[i];
      CandidateSound(tracks, albums, lq, r[i]);
    }
  }

  /** A candidate contains the query and comes from the library. */
  lemma CandidateSound(tracks: seq<Track>, albums: seq<Album>, lq: string, x: string)
    requires x in TrackCandidates(tracks, lq) + AlbumCandidates(albums, lq)
    ensures Contains(Lower(x), lq) && FromLibrary(x, tracks, albums)
  {
    var tc := TrackCandidates(tracks, lq);
    var ac := AlbumCandidates(albums, lq);
    if x in tc {
      var k :| 0 <= k < |tc| && tc[k] == x;
    } else {
      assert x in ac;
      var k :| 0 <= k < |ac| && ac[k] == x;
    }
  }

  /** When fewer than five suggestions are offered, no matching album title was left out. */
  lemma SuggestionsComplete(tracks: seq<Track>, albums: seq<Album>, lq: string)
    ensures var r := Take(DistinctCandidates(tracks, albums, lq), SuggestionLimit);
      |r| < SuggestionLimit ==>
        forall j :: 0 <= j < |albums| && Contains(Lower(albums[j].title), lq) ==> albums[j].title in r
  {
    var tc := TrackCandidates(tracks, lq);
    var ac := AlbumCandidates(albums, lq);
    var all := DistinctCandidates(tracks, albums, lq);
    var r := Take(all, SuggestionLimit);
    if |r| < SuggestionLimit {
      AlbumCandidatesComplete(albums, lq);
      forall j | 0 <= j < |albums| && Contains(Lower(albums[j].title), lq) ensures albums[j].title in r {
        var x := albums[j].title;
        var k :| 0 <= k < |ac| && ac[k] == x;
        assert (tc + ac)[|tc| + k] == x;
      }
    }
  }

  /** When fewer than five suggestions are offered, no matching track title or artist was left out. */
  lemma SuggestionsCompleteForTracks(tracks: seq<Track>, albums: seq<Album>, lq: string)
    ensures var r := Take(DistinctCandidates(tracks, albums, lq), SuggestionLimit);
      |r| < SuggestionLimit ==>
        forall j :: 0 <= j < |tracks| ==>
          && (Contains(Lower(tracks[j].title), lq) ==> tracks[j].title in r)
          && (Contains(Lower(tracks[j].artist), lq) ==> tracks[j].artist in r)
  {
    var tc := TrackCandidates(tracks, lq);
    var ac := AlbumCandidates(albums, lq);
    var all := DistinctCandidates(tracks, albums, lq);
    var r := Take(all, SuggestionLimit);
    if |r| < SuggestionLimit {
      TrackCandidatesComplete(tracks, lq);
      forall x | x in tc ensures x in r {
        var k :| 0 <= k < |tc| && tc[k] == x;
        assert (tc + ac)[k] == x;
      }
    }
  }

  /** Every matching track title and artist is a candidate. */
  lemma {:induction false} TrackCandidatesComplete(tracks: seq<Track>, lq: string)
    ensures forall j :: 0 <= j < |tracks| ==>
      && (Contains(Lower(tracks[j].title), lq) ==> tracks[j].title in TrackCandidates(tracks, lq))
      && (Contains(Lower(tracks[j].artist), lq) ==> tracks[j].artist in TrackCandidates(tracks, lq))
  {
    if |tracks| > 0 {
      var t := tracks[0];
      var head := (if Contains(Lower(t.title), lq) then [t.title] else [])
        + (if Contains(Lower(t.artist), lq) then [t.artist] else []);
      var rest := TrackCandidates(tracks[1..], lq);
      var all := TrackCandidates(tracks, lq);
      assert all == head + rest;
      TrackCandidatesComplete(tracks[1..], lq);
      forall j | 1 <= j < |tracks|
        ensures Contains(Lower(tracks[j].title), lq) ==> tracks[j].title in all
        ensures Contains(Lower(tracks[j].artist), lq) ==> tracks[j].artist in all
      {
        assert tracks[1..][j - 1] == tracks[j];
      }
    }
  }

  /** Every matching album title is a candidate. */
  lemma {:induction false} AlbumCandidatesComplete(albums: seq<Album>, lq: string)
    ensures forall j :: 0 <= j < |albums| && Contains(Lower(albums[j].title), lq) ==> albums[j].title in AlbumCandidates(albums, lq)
  {
    if |albums| > 0 {
      AlbumCandidatesComplete(albums[1..], lq);
      forall j | 1 <= j < |albums| && Contains(Lower(albums[j].title), lq)
        ensures albums[j].title in AlbumCandidates(albums, lq)
      {
        assert albums[1..][j - 1] == albums[j];
      }
    }
  }

  // ----- the hook's own state -----

  datatype SearchState = SearchState(query: string, filters: Filters, history: seq<string>, isSearching: bool)

  const InitialSearchState := SearchState("", InitialFilters, [], false)

  /** `searchMusic`: set the query, record it in the history and mark a search as running. */
  function SearchMusic(st: SearchState, q: string): (r: SearchState)
    ensures r.query == q && r.isSearching && r.filters == st.filters
    ensures r.history == AddToHistory(st.history, q)
    ensures !IsBlank(q) ==> |r.history| > 0 && r.history[0] == q
    ensures IsBlank(q) ==> r.history == st.history
  {
    st.(query := q, history := AddToHistory(st.history, q), isSearching := true)
  }

  /** The delayed end of `searchMusic`. */
  function SearchSettled(st: SearchState): (r: SearchState)
    ensures !r.isSearching && r.query == st.query && r.history == st.history && r.filters == st.filters
  {
    st.(isSearching := false)
  }

  /** A search that has settled keeps its query, its history entry and its results; settling again changes nothing. */
  lemma SearchThenSettle(st: SearchState, q: string, tracks: seq<Track>, albums: seq<Album>, artists: seq<Artist>)
    ensures var r := SearchSettled(SearchMusic(st, q));
      && !r.isSearching && r.query == q && r.filters == st.filters
      && r.history == AddToHistory(st.history, q)
      && SearchResults(r.query, r.filters, tracks, albums, artists) == SearchResults(q, st.filters, tracks, albums, artists)
      && Suggestions(r.query, tracks, albums) == Suggestions(q, tracks, albums)
      && SearchSettled(r) == r
  {
  }

  /** `clearSearch`: empty query, nothing running; the history stays. */
  function ClearSearch(st: SearchState): (r: SearchState)
    ensures r.query == "" && !r.isSearching && r.history == st.history && r.filters == st.filters
  {
    st.(query := "", isSearching := false)
  }

  /** `clearSearchHistory`. */
  function ClearHistory(st: SearchState): (r: SearchState)
    ensures r.history == [] && r.query == st.query && r.filters == st.filters && r.isSearching == st.isSearching
  {
    st.(history := [])
  }

  /** After `clearSearch` the hook shows no results and no suggestions, whatever the library holds. */
  lemma ClearSearchShowsNothing(st: SearchState, tracks: seq<Track>, albums: seq<Album>, artists: seq<Artist>)
    ensures SearchResults(ClearSearch(st).query, st.filters, tracks, albums, artists) == NoResults
    ensures Suggestions(ClearSearch(st).query, tracks, albums) == []
  {
  }

  /** After clearing the history, the next non-blank search is its only entry. */
  lemma ClearThenSearch(st: SearchState, q: string)
    requires !IsBlank(q)
    ensures SearchMusic(ClearHistory(st), q).history == [q]
  {
    assert RemoveKey([], q, Identity) == [];
  }
}

=== FILE: searchbar.dfy ===
/** The advanced search bar: the active-filter chips, the filter selects, the "Recently Added"
    button, and the suggestion / history drop-down. */
module SearchBar {
  import opened Outcomes
  import opened Seqs
  import opened Catalog
  import opened Text
  import opened Search

  // ----- the chips -----

  predicate TypeChip(f: Filters) { f.kind != All }
  predicate GenreChip(f: Filters) { Truthy(f.genre) }
  predicate DurationChip(f: Filters) { f.duration.Some? }
  predicate RecentChip(f: Filters) { f.recent == Some(true) }

  /** The chip row is shown when the type is narrowed or genre, duration or recent is set (truthy). */
  function ChipBarVisible(f: Filters): (b: bool)
    ensures b <==> f.kind != All || (f.genre.Some? && f.genre.value != "") || f.duration.Some? || f.recent == Some(true)
  {
    TypeChip(f) || GenreChip(f) || DurationChip(f) || RecentChip(f)
  }

  /** The type chip's close button: back to all types. */
  function RemoveTypeChip(f: Filters): (r: Filters)
    ensures r.kind == All
    ensures r.genre == f.genre && r.duration == f.duration && r.recent == f.recent
  {
    f.(kind := All)
  }

  /** The genre chip's close button. */
  function RemoveGenreChip(f: Filters): (r: Filters)
    ensures r.genre == None
    ensures r.kind == f.kind && r.duration == f.duration && r.recent == f.recent
  {
    f.(genre := None)
  }

  /** The duration chip's close button. */
  function RemoveDurationChip(f: Filters): (r: Filters)
    ensures r.duration == None
    ensures r.kind == f.kind && r.genre == f.genre && r.recent == f.recent
  {
    f.(duration := None)
  }

  /** The recent chip's close button sets `recent` to false, not unset. */
  function RemoveRecentChip(f: Filters): (r: Filters)
    ensures r.recent == Some(false)
    ensures r.kind == f.kind && r.genre == f.genre && r.duration == f.duration
  {
    f.(recent := Some(false))
  }

  /** Each close button hides its own chip and no other. */
  lemma RemovingChipHidesOnlyIt(f: Filters)
    ensures !TypeChip(RemoveTypeChip(f)) && GenreChip(RemoveTypeChip(f)) == GenreChip(f)
      && DurationChip(RemoveTypeChip(f)) == DurationChip(f) && RecentChip(RemoveTypeChip(f)) == RecentChip(f)
    ensures !GenreChip(RemoveGenreChip(f)) && TypeChip(RemoveGenreChip(f)) == TypeChip(f)
      && DurationChip(RemoveGenreChip(f)) == DurationChip(f) && RecentChip(RemoveGenreChip(f)) == RecentChip(f)
    ensures !DurationChip(RemoveDurationChip(f)) && TypeChip(RemoveDurationChip(f)) == TypeChip(f)
      && GenreChip(RemoveDurationChip(f)) == GenreChip(f) && RecentChip(RemoveDurationChip(f)) == RecentChip(f)
    ensures !RecentChip(RemoveRecentChip(f)) && TypeChip(RemoveRecentChip(f)) == TypeChip(f)
      && GenreChip(RemoveRecentChip(f)) == GenreChip(f) && DurationChip(RemoveRecentChip(f)) == DurationChip(f)
  {
  }

  /** Closing every chip hides the chip row. */
  lemma RemovingAllChipsHidesBar(f: Filters)
    ensures !ChipBarVisible(RemoveRecentChip(RemoveDurationChip(RemoveGenreChip(RemoveTypeChip(f)))))
  {
  }

  // ----- the filter panel -----

  /** Picking an item of the type select stores it as it is. */
  function SelectType(f: Filters, k: SearchType): (r: Filters)
    ensures r.kind == k
    ensures r.genre == f.genre && r.duration == f.duration && r.recent == f.recent
  {
    f.(kind := k)
  }

  /** Picking `All` in the type select is closing the type chip, and hides that chip. */
  lemma SelectAllTypeIsChipRemoval(f: Filters)
    ensures SelectType(f, All) == RemoveTypeChip(f)
    ensures !TypeChip(SelectType(f, All))
    ensures forall k :: k != All ==> TypeChip(SelectType(f, k))
  {
  }

  /** The value the genre select shows: the genre when truthy, else `all`. */
  function GenreSelectValue(f: Filters): string {
    if Truthy(f.genre) then f.genre.value else "all"
  }

  /** Picking a genre item: `all` clears the genre, any other value is stored as it is. */
  function SelectGenre(f: Filters, v: string): (r: Filters)
    ensures v == "all" ==> r.genre == None
    ensures v != "all" ==> r.genre == Some(v)
    ensures r.kind == f.kind && r.duration == f.duration && r.recent == f.recent
  {
    f.(genre := if v == "all" then None else Some(v))
  }

  /** The select shows the item just picked; and picking the item it shows keeps a truthy genre. */
  lemma GenreSelectRoundTrip(f: Filters, v: string)
    requires v != ""
    ensures GenreSelectValue(SelectGenre(f, v)) == v
    ensures f.genre != Some("") ==> SelectGenre(f, GenreSelectValue(f)) == f || (f.genre == Some("all") && SelectGenre(f, GenreSelectValue(f)) == f.(genre := None))
  {
  }

  /** Picking a duration item; `None` stands for the `all` item. */
  function SelectDuration(f: Filters, v: Option<Duration>): (r: Filters)
    ensures r.duration == v
    ensures r.kind == f.kind && r.genre == f.genre && r.recent == f.recent
  {
    f.(duration := v)
  }

  /** The item the duration select shows; `None` stands for `all`. */
  function DurationSelectValue(f: Filters): Option<Duration> {
    f.duration
  }

  /** The duration select and its value are inverse to each other. */
  lemma DurationSelectRoundTrip(f: Filters, v: Option<Duration>)
    ensures DurationSelectValue(SelectDuration(f, v)) == v
    ensures SelectDuration(f, DurationSelectValue(f)) == f
  {
  }

  /** "Recently Added": `recent: !filters.recent`, so an unset value becomes `true`. */
  function ToggleRecent(f: Filters): (r: Filters)
    ensures r.recent.Some? && (r.recent.value <==> f.recent != Some(true))
    ensures r.kind == f.kind && r.genre == f.genre && r.duration == f.duration
  {
    f.(recent := Some(!(f.recent == Some(true))))
  }

  /** Pressing it twice restores a set value; an unset value comes back as `false`, which reads the same. */
  lemma ToggleRecentTwice(f: Filters)
    ensures f.recent.Some? ==> ToggleRecent(ToggleRecent(f)) == f
    ensures f.recent.None? ==> ToggleRecent(ToggleRecent(f)) == f.(recent := Some(false))
    ensures RecentChip(ToggleRecent(ToggleRecent(f))) == RecentChip(f)
  {
    if f.recent.Some? {
      if f.recent.value {
        assert ToggleRecent(f).recent == Some(false);
      } else {
        assert ToggleRecent(f).recent == Some(true);
      }
    }
  }

  // ----- the drop-down -----

  /** The search bar's own flags. */
  datatype BarState = BarState(showFilters: bool, showSuggestions: bool)

  /** The drop-down card: focused, and a query or some history to show. */
  function DropDownVisible(ui: BarState, query: string, history: seq<string>): (b: bool)
    ensures b <==> ui.showSuggestions && (|query| > 0 || |history| > 0)
  {
    ui.showSuggestions && (query != "" || |history| > 0)
  }

  /** The suggestion list inside it: a query and some suggestions. */
  function SuggestionsSection(query: string, suggestions: seq<string>): (b: bool)
    ensures b <==> |query| > 0 && |suggestions| > 0
  {
    query != "" && |suggestions| > 0
  }

  /** The history list inside it: no query and some history. */
  function HistorySection(query: string, history: seq<string>): (b: bool)
    ensures b <==> |query| == 0 && |history| > 0
  {
    query == "" && |history| > 0
  }

  /** The two lists never show together, and either one implies the card shows once focused. */
  lemma SectionsExclusive(ui: BarState, query: string, suggestions: seq<string>, history: seq<string>)
    ensures !(SuggestionsSection(query, suggestions) && HistorySection(query, history))
    ensures ui.showSuggestions && (SuggestionsSection(query, suggestions) || HistorySection(query, history)) ==> DropDownVisible(ui, query, history)
  {
  }

  /** Picking a suggestion or a history entry: the query becomes the item, the page records it in the
      history, and the drop-down closes. */
  function PickItem(st: SearchState, ui: BarState, item: string): (r: (SearchState, BarState))
    ensures r.0.query == item && r.0.filters == st.filters && r.0.isSearching == st.isSearching
    ensures r.0.history == AddToHistory(st.history, item)
    ensures !r.1.showSuggestions && r.1.showFilters == ui.showFilters
  {
    (st.(query := item, history := AddToHistory(st.history, item)), ui.(showSuggestions := false))
  }

  /** Enter in the input records the current query and closes the drop-down. */
  function PressEnter(st: SearchState, ui: BarState): (r: (SearchState, BarState))
    ensures r.0 == st.(history := r.0.history)
    ensures r.0.history == AddToHistory(st.history, st.query)
    ensures !IsBlank(st.query) ==> |r.0.history| > 0 && r.0.history[0] == st.query
    ensures IsBlank(st.query) ==> r.0.history == st.history
    ensures !r.1.showSuggestions && r.1.showFilters == ui.showFilters
  {
    (st.(history := AddToHistory(st.history, st.query)), ui.(showSuggestions := false))
  }

  /** Enter is picking the query already typed, so it keeps the history distinct and within ten entries. */
  lemma EnterIsPickingQuery(st: SearchState, ui: BarState)
    ensures PressEnter(st, ui) == PickItem(st, ui, st.query)
    ensures Distinct(st.history) && |st.history| <= HistoryLimit ==>
      Distinct(PressEnter(st, ui).0.history) && |PressEnter(st, ui).0.history| <= HistoryLimit
  {
  }

  /** A picked item that is not blank heads the history, and its results are the search for it. */
  lemma PickedItemHeadsHistory(st: SearchState, ui: BarState, item: string, tracks: seq<Track>, albums: seq<Album>, artists: seq<Artist>)
    requires !IsBlank(item)
    ensures var r := PickItem(st, ui, item);
      && |r.0.history| > 0 && r.0.history[0] == item
      && SearchResults(r.0.query, r.0.filters, tracks, albums, artists) == SearchResults(item, st.filters, tracks, albums, artists)
  {
  }

  /** Picking a suggestion leaves the history section hidden: the query is the suggestion, which is not empty. */
  lemma PickHidesHistory(st: SearchState, ui: BarState, item: string)
    requires |item| > 0
    ensures !HistorySection(PickItem(st, ui, item).0.query, PickItem(st, ui, item).0.history)
  {
  }
}

=== FILE: seqs.dfy ===
/** Generic facts about sequences used by the list bookkeeping of the application. */
module Seqs {

  /** `a` is obtained from `b` by deleting zero or more elements, keeping the order of the rest. */
  ghost predicate Subseq<T>(a: seq<T>, b: seq<T>)
    decreases |b|
  {
    |a| == 0 || (|b| > 0 && ((a[0] == b[0] && Subseq(a[1..], b[1..])) || Subseq(a, b[1..])))
  }

  /** No element occurs twice. */
  ghost predicate Distinct<T>(s: seq<T>) {
    forall i, j :: 0 <= i < j < |s| ==> s[i] != s[j]
  }

  /** A duplicate-free sequence whose elements all equal `x` and which holds `x` is exactly `[x]`. */
  lemma DistinctConstant<T>(s: seq<T>, x: T)
    requires Distinct(s) && x in s
    requires forall i :: 0 <= i < |s| ==> s[i] == x
    ensures s == [x]
  {
    DistinctHead(s);
  }

  lemma DistinctHead<T>(s: seq<T>)
    requires Distinct(s)
    ensures |s| >= 2 ==> s[0] != s[1]
  {
  }

  /** The smaller of two integers. */
  function Min(a: int, b: int): (m: int) {
    if a <= b then a else b
  }

  /** JavaScript's `s.slice(0, n)`: the first `n` elements, or all of them when there are fewer. */
  function Take<T>(s: seq<T>, n: nat): (r: seq<T>)
    ensures |r| <= n && r <= s
    ensures |s| <= n ==> r == s
    ensures n <= |s| ==> |r| == n
  {
    if |s| <= n then s else s[..n]
  }

  /** JavaScript's `s.filter(p)`. */
  function Filter<T>(s: seq<T>, p: T -> bool): (r: seq<T>)
    ensures forall i :: 0 <= i < |r| ==> p(r[i])
    ensures forall i :: 0 <= i < |r| ==> r[i] in s
    ensures forall i :: 0 <= i < |s| && p(s[i]) ==> s[i] in r
    ensures Subseq(r, s)
    ensures (forall i :: 0 <= i < |s| ==> p(s[i])) ==> r == s
  {
    if |s| == 0 then []
    else if p(s[0]) then [s[0]] + Filter(s[1..], p)
    else Filter(s[1..], p)
  }

  /** `filter` keeps every element satisfying the predicate as many times as it occurs, and drops the others. */
  lemma {:induction false} FilterMultiplicity<T>(s: seq<T>, p: T -> bool, x: T)
    ensures multiset(Filter(s, p))[x] == if p(x) then multiset(s)[x] else 0
    decreases |s|
  {
    if |s| > 0 {
      FilterMultiplicity(s[1..], p, x);
      MultisetOfCons(s);
      var rest := Filter(s[1..], p);
      if p(s[0]) {
        MultisetOfCons([s[0]] + rest);
        assert ([s[0]] + rest)[1..] == rest;
      }
    }
  }

  /** The multiset of a non-empty sequence is its head plus the multiset of its tail. */
  lemma MultisetOfCons<T>(s: seq<T>)
    requires |s| > 0
    ensures multiset(s) == multiset{s[0]} + multiset(s[1..])
  {
    assert s == [s[0]] + s[1..];
  }

  lemma {:induction false} SubseqRefl<T>(s: seq<T>)
    ensures Subseq(s, s)
    decreases |s|
  {
    if |s| > 0 {
      SubseqRefl(s[1..]);
    }
  }

  /** Deleting elements keeps the elements of the result among those of the source. */
  lemma {:induction false} SubseqMembers<T>(a: seq<T>, b: seq<T>)
    requires Subseq(a, b)
    ensures forall x :: x in a ==> x in b
    decreases |b|
  {
    if |a| > 0 {
      if a[0] == b[0] && Subseq(a[1..], b[1..]) {
        SubseqMembers(a[1..], b[1..]);
        forall x | x in a ensures x in b {
          if x != a[0] {
            assert x in a[1..];
          }
        }
      } else {
        SubseqMembers(a, b[1..]);
      }
    }
  }

  /** Prefixes of a subsequence are subsequences too. */
  lemma {:induction false} PrefixOfSubseq<T>(a: seq<T>, b: seq<T>, n: nat)
    requires Subseq(a, b) && n <= |a|
    ensures Subseq(a[..n], b)
    decreases |b|
  {
    if n > 0 {
      if a[0] == b[0] && Subseq(a[1..], b[1..]) {
        PrefixOfSubseq(a[1..], b[1..], n - 1);
        assert a[..n][1..] == a[1..][..n - 1];
      } else {
        PrefixOfSubseq(a, b[1..], n);
      }
    }
  }

  /** A subsequence of a sequence without repetitions has none either. */
  lemma {:induction false} SubseqDistinct<T>(a: seq<T>, b: seq<T>)
    requires Subseq(a, b) && Distinct(b)
    ensures Distinct(a)
    decreases |b|
  {
    if |a| > 0 {
      if a[0] == b[0] && Subseq(a[1..], b[1..]) {
        SubseqDistinct(a[1..], b[1..]);
        SubseqMembers(a[1..], b[1..]);
        forall j | 0 < j < |a| ensures a[0] != a[j] {
          assert a[j] in a[1..];
        }
      } else {
        SubseqDistinct(a, b[1..]);
      }
    }
  }
}

=== FILE: text.dfy ===
/** The JavaScript string operations the application relies on:
    `trim`, `toLowerCase` (ASCII letters only), `includes`, `startsWith`,
    `String(n)` for naturals, `padStart(2, '0')` and `split(' ')`.
 */
module Text {

  /** The code points `String.prototype.trim` strips: the ECMAScript WhiteSpace and LineTerminator characters. */
  predicate IsSpace(c: char) {
    || ('\t' <= c <= '\r')
    || c == ' ' || c == '\U{00A0}' || c == '\U{1680}'
    || ('\U{2000}' <= c <= '\U{200A}')
    || c == '\U{2028}' || c == '\U{2029}' || c == '\U{202F}' || c == '\U{205F}'
    || c == '\U{3000}' || c == '\U{FEFF}'
  }

  /** `!s.trim()`: the string is empty or made of white space only. */
  predicate IsBlank(s: string) {
    forall i :: 0 <= i < |s| ==> IsSpace(s[i])
  }

  /** Leading white space removed. */
  function TrimStart(s: string): (r: string)
    ensures |r| <= |s| && r == s[|s| - |r|..]
    ensures IsBlank(s[..|s| - |r|])
    ensures |r| > 0 ==> !IsSpace(r[0])
  {
    if |s| > 0 && IsSpace(s[0]) then TrimStart(s[1..]) else s
  }

  /** Trailing white space removed. */
  function TrimEnd(s: string): (r: string)
    ensures |r| <= |s| && r == s[..|r|]
    ensures IsBlank(s[|r|..])
    ensures |r| > 0 ==> !IsSpace(r[|r| - 1])
  {
    if |s| > 0 && IsSpace(s[|s| - 1]) then TrimEnd(s[..|s| - 1]) else s
  }

  /** `s.trim()`. */
  function Trim(s: string): (r: string)
    ensures |r| > 0 ==> !IsSpace(r[0]) && !IsSpace(r[|r| - 1])
    ensures exists i :: OccursAt(s, r, i)
  {
    var t := TrimStart(s);
    var r := TrimEnd(t);
    assert r == s[|s| - |t|..][..|r|] == s[|s| - |t|..|s| - |t| + |r|];
    assert OccursAt(s, r, |s| - |t|);
    r
  }

  /** The trimmed string is empty exactly when the string is blank: the guard `!s.trim()` and the test `IsBlank` agree. */
  lemma TrimEmptyIffBlank(s: string)
    ensures |Trim(s)| == 0 <==> IsBlank(s)
  {
    var t := TrimStart(s);
    if |Trim(s)| == 0 {
      assert s == s[..|s| - |t|] + t;
      assert IsBlank(t) by { assert t[0..] == t; }
    } else {
      var r := Trim(s);
      assert t[0..] == t;
      assert !IsSpace(t[0]);
      assert t[0] == s[|s| - |t|];
    }
  }

  /** `c.toLowerCase()` for ASCII letters; other characters are left alone. */
  function LowerChar(c: char): (r: char)
    ensures 'A' <= c <= 'Z' ==> r != c && r as int - c as int == 32
    ensures !('A' <= c <= 'Z') ==> r == c
    ensures !('A' <= r <= 'Z')
  {
    if 'A' <= c <= 'Z' then (c as int + 32) as char else c
  }

  /** `s.toLowerCase()`, restricted to ASCII case mapping. */
  function Lower(s: string): (r: string)
    ensures |r| == |s|
    ensures forall i :: 0 <= i < |s| ==> r[i] == LowerChar(s[i])
  {
    seq(|s|, i requires 0 <= i < |s| => LowerChar(s[i]))
  }

  /** Lower-casing twice is lower-casing once. */
  lemma LowerIdempotent(s: string)
    ensures Lower(Lower(s)) == Lower(s)
  {
  }

  /** `n` occurs in `h` starting at position `i`. */
  predicate OccursAt(h: string, n: string, i: int) {
    0 <= i <= |h| - |n| && h[i..i + |n|] == n
  }

  /** `h.includes(n)`: `n` occurs in `h` at some position. */
  predicate Contains(h: string, n: string)
    decreases |h|
  {
    n <= h || (|h| > 0 && Contains(h[1..], n))
  }

  /** `Contains` agrees with the positional definition of an occurrence, in both directions. */
  lemma {:induction false} ContainsIffOccurs(h: string, n: string)
    ensures Contains(h, n) <==> exists i :: OccursAt(h, n, i)
    decreases |h|
  {
    if n <= h {
      assert OccursAt(h, n, 0);
    }
    if |h| > 0 {
      ContainsIffOccurs(h[1..], n);
      if Contains(h[1..], n) {
        var i :| OccursAt(h[1..], n, i);
        assert h[i + 1..i + 1 + |n|] == n;
        assert OccursAt(h, n, i + 1);
      }
      if exists i :: OccursAt(h, n, i) {
        var i :| OccursAt(h, n, i);
        if i > 0 {
          assert h[1..][i - 1..i - 1 + |n|] == n;
          assert OccursAt(h[1..], n, i - 1);
        } else {
          assert n <= h;
        }
      }
    } else {
      if exists i :: OccursAt(h, n, i) {
        var i :| OccursAt(h, n, i);
        assert n <= h;
      }
    }
  }

  /** Every string contains itself; a containing string is at least as long. */
  lemma {:induction false} ContainsFacts(h: string, n: string)
    ensures Contains(h, h)
    ensures Contains(h, n) ==> |n| <= |h|
  {
    ContainsIffOccurs(h, n);
    ContainsIffOccurs(h, h);
    assert h[0..|h|] == h;
    assert OccursAt(h, h, 0);
  }

  /** `s.startsWith(p)`. */
  predicate StartsWith(s: string, p: string) {
    p <= s
  }

  predicate IsDigit(c: char) {
    '0' <= c <= '9'
  }

  predicate AllDigits(s: string) {
    forall i :: 0 <= i < |s| ==> IsDigit(s[i])
  }

  function DigitChar(d: nat): (c: char)
    requires d < 10
    ensures IsDigit(c) && c as int - '0' as int == d
  {
    ('0' as int + d) as char
  }

  /** `String(n)` for a natural number: its decimal digits, without leading zeros. */
  function Decimal(n: nat): (r: string)
    ensures |r| >= 1 && AllDigits(r)
    ensures |r| > 1 ==> r[0] != '0'
    ensures n < 10 <==> |r| == 1
  {
    if n < 10 then [DigitChar(n)] else Decimal(n / 10) + [DigitChar(n % 10)]
  }

  /** The value of a string of decimal digits (the inverse of `Decimal`). */
  function ParseDecimal(s: string): nat
    requires AllDigits(s)
  {
    if |s| == 0 then 0 else ParseDecimal(s[..|s| - 1]) * 10 + (s[|s| - 1] as int - '0' as int)
  }

  /** Reading back the decimal form of `n` gives `n`. */
  lemma {:induction false} ParseDecimalOfDecimal(n: nat)
    ensures ParseDecimal(Decimal(n)) == n
  {
    if n >= 10 {
      ParseDecimalOfDecimal(n / 10);
      var d := Decimal(n);
      assert d[..|d| - 1] == Decimal(n / 10);
    }
  }

  /** The longest prefix of `s` made of decimal digits. */
  function LeadingDigits(s: string): (d: string)
    ensures AllDigits(d) && d <= s
    ensures |d| < |s| ==> !IsDigit(s[|d|])
  {
    if |s| == 0 || !IsDigit(s[0]) then []
    else [s[0]] + LeadingDigits(s[1..])
  }

  /** Digits followed by something that does not start with a digit: the digits are the leading ones. */
  lemma {:induction false} LeadingDigitsOf(d: string, rest: string)
    requires AllDigits(d)
    requires |rest| > 0 ==> !IsDigit(rest[0])
    ensures LeadingDigits(d + rest) == d
    decreases |d|
  {
    if |d| > 0 {
      assert (d + rest)[1..] == d[1..] + rest;
      LeadingDigitsOf(d[1..], rest);
      assert d == [d[0]] + d[1..];
    } else {
      assert d + rest == rest;
    }
  }

  /** `s.padStart(2, '0')`. */
  function PadStart2(s: string): (r: string)
    ensures |s| >= 2 ==> r == s
    ensures |s| < 2 ==> |r| == 2 && r[2 - |s|..] == s && forall i :: 0 <= i < 2 - |s| ==> r[i] == '0'
  {
    if |s| >= 2 then s else seq(2 - |s|, _ => '0') + s
  }

  /** `s.split(' ')`: the pieces between single spaces, empty pieces included; never an empty list. */
  function SplitSpaces(s: string): (ws: seq<string>)
    ensures |ws| >= 1
    ensures forall i, j :: 0 <= i < |ws| && 0 <= j < |ws[i]| ==> ws[i][j] != ' '
    ensures JoinSpaces(ws) == s
  {
    if |s| == 0 then [[]]
    else
      var rest := SplitSpaces(s[1..]);
      if s[0] == ' ' then
        assert s == " " + s[1..];
        [[]] + rest
      else
        var ws := [[s[0]] + rest[0]] + rest[1..];
        assert ws[1..] == rest[1..];
        assert s == [s[0]] + s[1..];
        ws
  }

  /** `ws.join(' ')`: the pieces with one space between each two. */
  function JoinSpaces(ws: seq<string>): (s: string)
  {
    if |ws| == 0 then []
    else if |ws| == 1 then ws[0]
    else ws[0] + " " + JoinSpaces(ws[1..])
  }

  /** Splitting the join of space-free pieces gives the pieces back, so `split(' ')` and `join(' ')`
      are inverse to each other. */
  lemma {:induction false} SplitJoin(ws: seq<string>)
    requires |ws| >= 1
    requires forall i, j :: 0 <= i < |ws| && 0 <= j < |ws[i]| ==> ws[i][j] != ' '
    ensures SplitSpaces(JoinSpaces(ws)) == ws
    decreases |ws|, |ws[0]|
  {
    if |ws[0]| > 0 {
      var w := ws[0];
      var tail := [w[1..]] + ws[1..];
      assert tail[1..] == ws[1..];
      SplitJoin(tail);
      if |ws| == 1 {
        assert JoinSpaces(ws)[1..] == JoinSpaces(tail);
      } else {
        assert JoinSpaces(ws)[1..] == JoinSpaces(tail);
      }
      assert JoinSpaces(ws)[0] == w[0];
      assert [w[0]] + w[1..] == w;
      assert ws == [w] + ws[1..];
    } else if |ws| > 1 {
      SplitJoin(ws[1..]);
      assert JoinSpaces(ws) == " " + JoinSpaces(ws[1..]);
      assert ws == [[]] + ws[1..];
    }
  }
}

=== FILE: timefmt.dfy ===
/** The players' `formatTime`: whole seconds as minutes, a colon and two-digit seconds. */
module TimeFormat {
  import opened Text

  const SecondsPerMinute := 60

  /** `${Math.floor(t / 60)}:${Math.floor(t % 60).toString().padStart(2, '0')}` for whole `t`. */
  function FormatTime(t: nat): (r: string)
    ensures |r| >= 4 && r[|r| - 3] == ':'
    ensures r[..|r| - 3] == Decimal(t / SecondsPerMinute)
    ensures |r[|r| - 2..]| == 2 && AllDigits(r[|r| - 2..])
  {
    var minutes := Decimal(t / SecondsPerMinute);
    var seconds := PadStart2(Decimal(t % SecondsPerMinute));
    TwoDigitSeconds(t % SecondsPerMinute);
    var r := minutes + ":" + seconds;
    assert r[..|r| - 3] == minutes;
    assert r[|r| - 2..] == seconds;
    r
  }

  /** A seconds value below sixty pads to exactly two digits. */
  lemma TwoDigitSeconds(s: nat)
    requires s < SecondsPerMinute
    ensures var p := PadStart2(Decimal(s)); |p| == 2 && AllDigits(p) && ParseDecimal(p) == s
  {
    ParseDecimalOfDecimal(s);
    var d := Decimal(s);
    var p := PadStart2(d);
    if s < 10 {
      assert p == ['0'] + d;
      assert p[..1] == ['0'];
      assert ParseDecimal(p[..1]) == 0 by {
        assert p[..1][..0] == [];
      }
    } else {
      assert d[..1] == Decimal(s / 10);
    }
  }

  /** A string of the shape `FormatTime` produces: digits, a colon, two digits. */
  predicate IsClock(s: string) {
    |s| >= 4 && s[|s| - 3] == ':' && AllDigits(s[..|s| - 3]) && AllDigits(s[|s| - 2..])
  }

  /** Reads a clock string back as seconds. */
  function ParseTime(s: string): nat
    requires IsClock(s)
  {
    ParseDecimal(s[..|s| - 3]) * SecondsPerMinute + ParseDecimal(s[|s| - 2..])
  }

  /** Reading a formatted time back gives the seconds it was made from, and the seconds field is below sixty. */
  lemma FormatTimeRoundTrip(t: nat)
    ensures IsClock(FormatTime(t))
    ensures ParseTime(FormatTime(t)) == t
    ensures var r := FormatTime(t); ParseDecimal(r[|r| - 2..]) < SecondsPerMinute
  {
    var r := FormatTime(t);
    TwoDigitSeconds(t % SecondsPerMinute);
    ParseDecimalOfDecimal(t / SecondsPerMinute);
    assert r[|r| - 2..] == PadStart2(Decimal(t % SecondsPerMinute));
  }

  /** Zero seconds reads `0:00`. */
  lemma FormatZero()
    ensures FormatTime(0) == "0:00"
  {
    assert Decimal(0) == "0";
    assert PadStart2("0") == "00";
  }
}
